=== FILE: README.md ===
# Forensic pipeline core, modelled in Dafny

This project models the four analysis stages of the DFIR triage pipeline in
`src/pipeline/`:

- **detections** — the YARA scan (`run_yara`) that turns `yara` output into
  `{match, file}` hits, and the minimal Sigma engine (`_load_sigma_rules`,
  `_match_selection`, `_dig`, `run_sigma`) that evaluates simple selection
  rules over JSONL events;
- **provenance** — the provenance record (`generate`), with the order-free
  tree hash (`_hash_tree`), the tool-version probe (`tool_versions`) and the
  optional SBOM produced by `syft`;
- **hayabusa** — the Hayabusa stage (`run_hayabusa`): choosing the EVTX
  directory, building the `json-timeline` command and summarising the JSONL
  timeline by level;
- **memory** — the MemProcFS stage (`run_memprocfs`): the profile section,
  the device auto-discovery, the Vmm argument list, the per-process
  serialisation with handle/thread caps, the process summary, and the
  event-log copy.

Values that the Python code reads from YAML or JSON are modelled by `Json.JVal`
(null, bool, int, string, list, mapping), and a mapping is an ordered association
list, so that dictionary iteration order is visible. The file system, the
subprocesses, the MemProcFS library, the JSON parser and SHA-256 all become
inputs:

- `FileSystem`, `WalkStep` and `ScannedPath` describe what the stage would see
  on disk;
- `RunOutcome`, `ToolRun` and `ScanOutcome` describe what a subprocess returned
  or raised;
- `ProcessView`, `Listing` and `Environment` describe what the library returned
  or raised;
- `parse: string -> Option<JVal>` stands for `json.loads`;
- `sha: Bytes -> Digest` stands for `hashlib.sha256().hexdigest()`.

An exception that the code lets escape becomes an `Err` result. An exception
that the code catches becomes the branch the code takes after catching it.

Files:

- `base.dfy`: `Option` and `Result`.
- `json.dfy`: the value type, plus the Python behaviour of `.get`, truthiness,
  `str()`, iteration and `x or {}`.
- `text.dfy`: Python's `strip`, `split`, whitespace `split()`, `lower` and the
  `fnmatch` wildcards.
- `paths.dfy`: `os.path.join`, `Path.name` and `Path.suffix`.
- `detections.dfy`, `provenance.dfy`, `hayabusa.dfy` and `memory.dfy`: one
  file per stage.

Where the repository's prose description and its code differ, the model follows
the code:

- A Sigma rule without a `detection` block loads with no selections and an empty
  condition, so it matches every event (`detections.py:52-53`, `131-134`).
- `_dig` drops everything after the first `|` of a field name, so a
  `field|contains` key looks up `field` and then compares literally
  (`detections.py:93`). Only an expected value that starts with `|contains ` is
  treated as a substring test.
- A rule whose `condition` is null, a boolean or an integer raises inside
  `run_sigma` when `in` is applied to it (`detections.py:124`). This happens as
  soon as one event parses, and the model returns an error in that case. A list
  or mapping condition does not raise: `in` then tests membership of `1 of `.
- In provenance, `_run` only returns `None` for a non-zero exit. A missing binary
  raises `FileNotFoundError`, which `generate` does not catch
  (`provenance.py:6-10`, `33-40`).

## Model

| member | source | states |
|---|---|---|
| Detections.Walk | src/pipeline/detections.py:94-98 | descends a key path through nested mappings; specified by Detections.WalkAppend, Detections.DigKey and Detections.DigDescends |
| Detections.FieldPath | src/pipeline/detections.py:93 | the key path of a field name is the text before the first bar, split on dots; specified by Detections.DigIgnoresModifier |
| Detections.Dig | src/pipeline/detections.py:91-98 | `_dig` gives the walked value, or None when the path breaks; specified by Detections.DigKey, Detections.DigDescends and Detections.DigIgnoresModifier |
| Detections.WalkAppend | src/pipeline/detections.py:91-98 | walking a dotted path in two pieces equals walking the first piece and then the rest from where it stopped; a missing step stops the walk |
| Detections.DigIgnoresModifier | src/pipeline/detections.py:93 | a field name followed by a bar and a modifier looks up the same value as the bare field name |
| Detections.DigKey | src/pipeline/detections.py:91-98 | a single key gives the event's value for that key when the event is a mapping holding it, and None otherwise |
| Detections.DigDescends | src/pipeline/detections.py:94-97 | `a.rest` descends into the value under `a` and looks up `rest` there; it gives None when `a` is absent or the event is not a mapping |
| Detections.AnyItemMatches | src/pipeline/detections.py:80-86 | the loop over a list of expected values succeeds exactly when some item matches, either by wildcard or by string equality |
| Detections.ExpectedMatches | src/pipeline/detections.py:71-88 | the comparison of one expected value with the field's `str()`; specified case by case by Detections.ContainsExpected, Detections.GlobExpected, Detections.LiteralExpected, Detections.ListExpected and Detections.LiteralListExpected |
| Detections.FieldMatches | src/pipeline/detections.py:67-88 | one field constraint: the field must be present and its value must match; specified by Detections.FieldMatchesPresent and the expectation lemmas |
| Detections.FieldMatchesPresent | src/pipeline/detections.py:68-70 | a field can only match when it is present in the event |
| Detections.ContainsExpected | src/pipeline/detections.py:72-74 | an expectation starting with the contains prefix holds iff the field is present and the lower-cased needle occurs in the lower-cased `str()` of the field |
| Detections.LiteralExpected | src/pipeline/detections.py:77-78 | a plain string expectation holds iff the field is present and its `str()` equals the string |
| Detections.GlobExpected | src/pipeline/detections.py:75-76 | a string with `*` or `?` holds iff the field is present and its `str()` matches the pattern |
| Detections.ListExpected | src/pipeline/detections.py:79-86 | a list expectation holds iff the field is present and some item matches it |
| Detections.LiteralListExpected | src/pipeline/detections.py:79-86 | for a list of plain strings, the expectation is list membership of the field's `str()` |
| Detections.AbsentFieldFailsSelection | src/pipeline/detections.py:67-70 | a selection fails when any one of its fields is absent from the event |
| Detections.MatchSelection | src/pipeline/detections.py:65-89 | a selection holds iff every one of its field constraints holds; specified by Detections.AbsentFieldFailsSelection and Detections.EvaluateRule |
| Detections.SelectionsOf | src/pipeline/detections.py:55-59 | the selections are exactly the mapping-valued entries of the detection block other than `condition`, and there are no more of them than entries |
| Detections.SelectionsOfAppend | src/pipeline/detections.py:56-59 | selections are collected in the detection block's order: the selections of a concatenation are the concatenation of the selections |
| Detections.LoadRule | src/pipeline/detections.py:47-60 | a rule loads iff the YAML is a mapping whose `detection` entry, if present, is a mapping; it records its path; its title is the `title` entry, or the file name when there is none; its selections are those of the detection block and its condition is the block's `condition` entry, or the empty string when the block or the entry is missing |
| Detections.LoadRules | src/pipeline/detections.py:44-63 | the loaded rules are exactly the loadable files' rules, at most one per file; the other files are skipped |
| Detections.LoadRulesOne | src/pipeline/detections.py:46-62 | a single file loads to its own rule, or to nothing when it does not normalise |
| Detections.LoadRulesAppend | src/pipeline/detections.py:44-63 | rules keep the enumeration order and multiplicity of their files: loading a concatenated file list gives the rules of each part in turn |
| Detections.ConditionMode | src/pipeline/detections.py:124 | a condition is usable iff it is a string, list or mapping; a string selects "any of" exactly when it contains `1 of ` |
| Detections.ZeroSelections | src/pipeline/detections.py:124-134 | with no selections, an "any of" rule never fires and an "all of" rule always fires |
| Detections.MissingDetectionMatchesAll | src/pipeline/detections.py:52-53 | a rule file without a `detection` block loads and fires on every event |
| Detections.EventMatches | src/pipeline/detections.py:122-136 | an event fails iff some rule's condition is unusable; otherwise it yields at most one finding per rule; its order and multiplicity are pinned by Detections.EventMatchesAppend and Detections.EventMatchesOneRule |
| Detections.EventFindings | src/pipeline/detections.py:122-136 | a finding belongs to an event's results iff some rule holds on the event, and the finding carries that rule's title, path and the event |
| Detections.EventMatchesOneRule | src/pipeline/detections.py:122-136 | one rule on one event gives an error when its condition is unusable, and otherwise exactly one finding (title, path, event) when it fires and none when it does not |
| Detections.EventMatchesSnoc | src/pipeline/detections.py:122-136 | the last rule's outcome follows the outcome of the rules before it |
| Detections.EventMatchesAppend | src/pipeline/detections.py:122-136 | rules are tried in order: a concatenated rule list gives the findings of the first part followed by those of the second, and the first unusable condition aborts |
| Detections.ScanLines | src/pipeline/detections.py:116-136 | the scan over the lines of the export, in order; specified by Detections.ScanAppend, Detections.ScanOneLine, Detections.ScanFailsIff and Detections.ScanFindings |
| Detections.ScanAppend | src/pipeline/detections.py:116-136 | scanning two pieces of a JSONL file equals scanning the first piece and then the second, with findings kept in line order |
| Detections.ScanOneLine | src/pipeline/detections.py:116-136 | a one-line export gives exactly that line's findings: none when it does not parse, the event's findings otherwise |
| Detections.UnparseableLineSkipped | src/pipeline/detections.py:118-121 | a line that does not parse as JSON contributes nothing and stops nothing |
| Detections.ScanFailsIff | src/pipeline/detections.py:117-124 | the scan fails iff at least one line parses and some rule has an unusable condition |
| Detections.ScanFindingsSound | src/pipeline/detections.py:116-136 | every finding comes from a parsed line and a rule that holds on it |
| Detections.ScanFindingsComplete | src/pipeline/detections.py:116-136 | every parsed line and rule that holds on it produce a finding |
| Detections.ScanFindings | src/pipeline/detections.py:116-136 | with usable conditions, the findings are exactly the pairs of a parsed line and a rule that holds on it |
| Detections.EvaluateRule | src/pipeline/detections.py:124-134 | the imperative evaluation of one rule agrees with its any-of/all-of definition |
| Detections.FirstSelectionMatching | src/pipeline/detections.py:125-128 | the early-exit loop returns true iff some selection matches |
| Detections.EverySelectionMatching | src/pipeline/detections.py:131-134 | the early-exit loop returns true iff every selection matches |
| Detections.EventMatchesFailsEarly | src/pipeline/detections.py:122-124 | once a rule with an unusable condition is reached, later rules do not change the outcome |
| Detections.MatchEvent | src/pipeline/detections.py:122-136 | the loop over rules computes the event's findings, or fails as the definition says |
| Detections.RunSigma | src/pipeline/detections.py:106-136 | with no rules the findings are empty and the events are not read; otherwise they are the scan's findings |
| Detections.FileHits | src/pipeline/detections.py:30-34 | every hit names the scanned file and holds no newline; blank output or a raised scan gives no hits; otherwise the hit lines, joined by newlines, give back the stripped output |
| Detections.YaraHits | src/pipeline/detections.py:18-34 | with no rule files there are no hits; otherwise the hits are those of the listing in walk order, and every hit names a regular file that the walk listed |
| Detections.ScanHitsFromFiles | src/pipeline/detections.py:25-34 | every hit of a listing comes from one of its regular files |
| Detections.ScanHitsOne | src/pipeline/detections.py:26-34 | a single listed path contributes its scan's hits when it is a regular file, and nothing otherwise |
| Detections.ScanHitsAppend | src/pipeline/detections.py:25-34 | hits are produced in walk order: scanning two listings equals concatenating their hits |
| Provenance.LexLeTotal | src/pipeline/provenance.py:29 | Python's string ordering compares any two digests |
| Provenance.LexLeAntisym | src/pipeline/provenance.py:29 | two strings ordered both ways are equal, so `sorted` is determined by its contents |
| Provenance.SortStrings | src/pipeline/provenance.py:29 | `sorted` gives an ascending permutation of its input |
| Provenance.SortedUnique | src/pipeline/provenance.py:29 | two ascending sequences holding the same strings are equal |
| Provenance.Digests | src/pipeline/provenance.py:21-27 | there is at most one digest per file |
| Provenance.DigestsMembers | src/pipeline/provenance.py:22-27 | the digests are exactly the hashes of the readable files, and there is one per file when all are readable |
| Provenance.DigestsAppend | src/pipeline/provenance.py:22-27 | digests are collected in walk order |
| Provenance.DigestsPermutation | src/pipeline/provenance.py:22-27 | reordering the walk only reorders the digests |
| Provenance.ConcatAllInjective | src/pipeline/provenance.py:29-30 | the concatenated fixed-width hex digests determine the digest sequence |
| Provenance.HashInputInjective | src/pipeline/provenance.py:28-30 | the bytes fed to the tree hash determine the multiset of file digests |
| Provenance.HashInput | src/pipeline/provenance.py:28-30 | the string the tree hash is taken over; specified by Provenance.HashInputInjective and Provenance.HashInputDependsOnDigestMultiset |
| Provenance.SortDigests | src/pipeline/provenance.py:29 | `sorted` of the digests is an ascending permutation of them |
| Provenance.HashTree | src/pipeline/provenance.py:19-31 | the count is the number of digests; the tree hash is the hash of the sorted, concatenated digests, 64 characters per file |
| Provenance.HashInputDependsOnDigestMultiset | src/pipeline/provenance.py:28-31 | the tree hash and count depend only on the multiset of file digests |
| Provenance.HashTreeOrderIndependent | src/pipeline/provenance.py:19-31 | any reordering of the walk gives the same tree hash and count |
| Provenance.AddedFileChangesHashInput | src/pipeline/provenance.py:22-30 | adding a readable file adds one digest to the hash input; adding an unreadable file changes nothing |
| Provenance.ChangedFileChangesHashInput | src/pipeline/provenance.py:22-30 | replacing a file by content with a different digest changes the hash input |
| Provenance.RunCommand | src/pipeline/provenance.py:6-10 | a missing binary raises; a non-zero exit gives None; otherwise the result is the output with only whitespace removed on either side, it neither starts nor ends with whitespace, and it is empty iff the output is all whitespace |
| Provenance.RunCommandStable | src/pipeline/provenance.py:6-10 | the reported output is already stripped: reporting it again gives the same result |
| Provenance.ToolVersionsOf | src/pipeline/provenance.py:33-46 | probing fails iff a probed binary is missing, plaso's failure first; each version is the corresponding `_run` result; syft is probed only when on PATH and is None otherwise; the yara module's version is None when the import fails, its `__version__` when it has one, and `unknown` otherwise |
| Provenance.Generate | src/pipeline/provenance.py:52-88 | the record fails iff the profile is unreadable, a tool probe raises, or syft raises; it carries the fixed schema, rules directory and output manifest, the evidence path and profile as given, the tree hash and count of the evidence and of the rules, the profile's hash exactly when it is a file, the `USER` variable or `runner`, and the probed tool versions; the SBOM exists iff syft is on PATH, exits with 0 and prints something other than whitespace, and is then the stripped output |
| Provenance.GenerateOrderIndependent | src/pipeline/provenance.py:53-66 | the record does not depend on the order in which the evidence and rules trees are walked |
| Hayabusa.StageConfig | src/pipeline/hayabusa.py:41-44 | the stage settings are `timeline.hayabusa` with missing or falsy sections read as empty; it fails iff a truthy section is not a mapping |
| Hayabusa.AsPath | src/pipeline/hayabusa.py:55 | a configured directory is usable as a path iff it is a string |
| Hayabusa.AsPaths | src/pipeline/hayabusa.py:67-68 | a list of directories is usable iff every item is a string, keeping order |
| Hayabusa.MemEventlogDir | src/pipeline/hayabusa.py:50-51 | a truthy `memory` or `memprocfs` section that is not a mapping raises; otherwise a truthy `eventlog_dir` is used when it is a string and is an error otherwise, and without one the directory is `memprocfs_eventlogs` under the output directory |
| Hayabusa.EvtxDirs | src/pipeline/hayabusa.py:67-68 | without a truthy `evtx_dirs` the evidence directory is the only candidate; otherwise the setting fails iff it cannot be iterated or yields a non-string, and the candidates are what iterating it yields, in order (a list's items, a string's characters, a mapping's keys) |
| Hayabusa.FirstDir | src/pipeline/hayabusa.py:68-72 | the result is the first candidate that is a directory, and there is none iff no candidate is a directory |
| Hayabusa.SelectTarget | src/pipeline/hayabusa.py:53-73 | an existing MemProcFS directory that `os.listdir` cannot list raises; otherwise the MemProcFS directory is used iff it is a directory holding a `.evtx` name in any letter case; otherwise the result is the first existing configured directory; a chosen target is always a directory |
| Hayabusa.Command | src/pipeline/hayabusa.py:79-84 | the command starts with the fixed `json-timeline` prefix naming the output and target; a truthy `min_level` adds `--min-level` and its `str()`; the extra arguments follow as their `str()`s, and a non-iterable truthy setting is an error |
| Hayabusa.DistinctCons | src/pipeline/hayabusa.py:97 | a level table with a new head key keeps its keys distinct exactly when the key is not in the tail |
| Hayabusa.Bump | src/pipeline/hayabusa.py:110 | incrementing a level keeps keys distinct and adds that level to the key set |
| Hayabusa.BumpCounts | src/pipeline/hayabusa.py:110 | incrementing a level raises that level's count by one, leaves every other count alone, and raises the total by one |
| Hayabusa.LevelOf | src/pipeline/hayabusa.py:109 | the level is the `level` entry when truthy, else the `lvl` entry when truthy, else `unknown`; it is always truthy |
| Hayabusa.Classify | src/pipeline/hayabusa.py:100-110 | a line is skipped iff it is blank after stripping; it counts without a level iff it does not parse; it raises iff it parses to a non-mapping or to an event whose level is a list or mapping; otherwise it is counted under its event's level |
| Hayabusa.Kinds | src/pipeline/hayabusa.py:100 | every timeline line is classified, in order |
| Hayabusa.Tally | src/pipeline/hayabusa.py:100-110 | one iteration of the summary loop keeps the level keys distinct; specified further by Hayabusa.SummarizeStep and Hayabusa.AbortedStays |
| Hayabusa.Summarize | src/pipeline/hayabusa.py:96-112 | the summary over the classified lines; specified by Hayabusa.SummaryAbortsIff, Hayabusa.SummaryTotals, Hayabusa.SummaryLevel and Hayabusa.SummaryBounds |
| Hayabusa.SummaryAbortsIff | src/pipeline/hayabusa.py:98-112 | summarising stops early iff some line parses to a non-mapping (on which `.get` raises) or to a level that cannot be a dictionary key |
| Hayabusa.SummaryTotals | src/pipeline/hayabusa.py:100-110 | without an early stop, the total is the number of non-blank lines and the level counts add up to the number of parsed lines |
| Hayabusa.SummaryLevel | src/pipeline/hayabusa.py:109-110 | without an early stop, each level's count is the number of parsed lines with that level |
| Hayabusa.SummaryLevels | src/pipeline/hayabusa.py:109-110 | the per-level statement holds for every level at once |
| Hayabusa.SummaryBounds | src/pipeline/hayabusa.py:96-112 | whatever happens, the level counts add up to at most the total, which is at most the number of non-blank lines |
| Hayabusa.AbortedStays | src/pipeline/hayabusa.py:111-112 | after the summary stops early, later lines change nothing |
| Hayabusa.SummarizeStep | src/pipeline/hayabusa.py:100-110 | the summary of one more line is the previous summary updated by that line |
| Hayabusa.TallyKinds | src/pipeline/hayabusa.py:96-112 | the loop computes the summary's total and level counts, which are kept as they were when an exception stops it |
| Hayabusa.SummarizeTimeline | src/pipeline/hayabusa.py:96-112 | the total and level counts written to the summary are the summary of the timeline's lines |
| Hayabusa.RunHayabusa | src/pipeline/hayabusa.py:40-93 | a malformed profile section raises; a disabled stage gives None; an enabled stage raises when choosing the target or building the command raises, gives None when there is no target, and otherwise gives a result iff Hayabusa exited with status 0 |
| Hayabusa.RunHayabusaOutput | src/pipeline/hayabusa.py:75-127 | a produced result names the chosen target directory, which exists, the fixed timeline and summary paths, and the command built for them; its total and level counts are the timeline's summary and obey the summary bounds |
| Hayabusa.DisabledIgnoresEnvironment | src/pipeline/hayabusa.py:45-47 | a disabled stage gives None whatever the disk, the tool run and the timeline hold |
| Hayabusa.FailedRunSkips | src/pipeline/hayabusa.py:86-93 | a missing binary, a failed launch or a non-zero exit skips the stage |
| Memory.SafeGetAttr | src/pipeline/memory.py:16-20 | an attribute read gives the attribute when present, and the default when it is missing or raises |
| Memory.Snapshot | src/pipeline/memory.py:47-65 | the attribute snapshot has one entry per name, in order, each the safe read of that attribute |
| Memory.ParseInt | src/pipeline/memory.py:133 | `int()` of a string succeeds only when the string is not blank; the sign and digit rules are stated by Memory.ParseSigned, and Memory.ParseIntOfString shows it reads back every rendered integer |
| Memory.ParseSigned | src/pipeline/memory.py:133 | a stripped string parses iff it is a non-empty run of digits, optionally after one `+` or `-`; the value is the digits' decimal value, negated after `-` |
| Memory.ParseIntOfString | src/pipeline/memory.py:133 | `int()` reads back the decimal form of every integer |
| Memory.ParseDigits | src/pipeline/memory.py:133 | `int()` of a digit string is its decimal value |
| Memory.ParseNegatedDigits | src/pipeline/memory.py:133 | `int()` of a minus sign and digits is the negated decimal value |
| Memory.PyInt | src/pipeline/memory.py:133-134 | `int()` keeps integers, parses strings, and raises on null, lists and mappings |
| Memory.Truncate | src/pipeline/memory.py:81-83 | a listing is truncated iff it is a list longer than the cap; the result is then a prefix of length `max` (Python slice semantics for a negative cap), and anything else is unchanged |
| Memory.TruncateIdempotent | src/pipeline/memory.py:81-83 | truncating an already truncated listing changes nothing and sets no flag |
| Memory.Capped | src/pipeline/memory.py:78-88 | the listing key is present iff it was requested and enumeration succeeded, and then holds the truncated listing; the truncation flag is present iff a list exceeded the cap; no other key is written |
| Memory.SerializeProcess | src/pipeline/memory.py:47-65 | a serialised process starts with the attribute snapshot in the fixed order |
| Memory.ModulesEntry | src/pipeline/memory.py:67-76 | the module step writes only the `modules` key, writes it iff modules were requested, and then holds one attribute snapshot per enumerated module, in order |
| Memory.UnloadedEntry | src/pipeline/memory.py:102-108 | the unloaded-module step writes only the `unloaded_modules` key, writes it iff requested and the library call succeeded, and then holds what the library returned |
| Memory.SerializeProcessPid | src/pipeline/memory.py:48 | the serialised `pid` is the safe read of the process's pid |
| Memory.SerializeProcessHandles | src/pipeline/memory.py:78-88 | `handles` is present iff requested and enumerable, and holds the capped list; `handles_truncated` is present iff the cap cut the list |
| Memory.SerializeProcessThreads | src/pipeline/memory.py:90-100 | `threads` is present iff requested and enumerable, and holds the capped list; `threads_truncated` is present iff the cap cut the list |
| Memory.SortInts | src/pipeline/memory.py:162-164 | sorting integers gives an ascending permutation |
| Memory.InsertInt | src/pipeline/memory.py:162-164 | inserting into an ascending list keeps it ascending and adds exactly that element |
| Memory.PidsOf | src/pipeline/memory.py:163 | the collected pids are exactly the non-null `pid` values of the serialised processes |
| Memory.PidsOfOne | src/pipeline/memory.py:163 | one serialised process contributes its pid unless it is None |
| Memory.PidsOfAppend | src/pipeline/memory.py:163 | pids are collected in listing order: a concatenation gives the pids of each part in turn |
| Memory.AsInts | src/pipeline/memory.py:162 | the pids are comparable iff every one is an integer, and then their values are kept in order |
| Memory.SummarizeProcesses | src/pipeline/memory.py:160-164 | the summary counts every process and lists, ascending, the integer pids present, as many times as they occur (the same multiset); `sorted` raises iff some pid is not an integer |
| Memory.ProcessOptionsOf | src/pipeline/memory.py:128-134 | the caps are `int()` of the settings, defaulting to 2000, and a cap that `int()` rejects raises (the handle cap first); each include flag is on iff its setting is missing or truthy |
| Memory.SerializeAll | src/pipeline/memory.py:146-156 | every process is serialised with the same options, in order |
| Memory.SerializedPids | src/pipeline/memory.py:146-164 | the serialised list holds an unsortable pid iff some process's pid attribute is present and not an integer |
| Memory.CollectListing | src/pipeline/memory.py:146-172 | an enumerated process list raises iff some process has a pid attribute that is present and not an integer; otherwise it gives the serialised processes, their summary and the two output paths `outdir / name` as pathlib prints them (`ListingPath`, `SummaryPath`) |
| Memory.CollectProcessData | src/pipeline/memory.py:126-172 | bad caps raise; a failed process listing gives no paths; otherwise every process is serialised with the configured options, in order, the step raises iff a pid attribute is present and not an integer, and it reports the summary of the serialised list and the two output paths as pathlib prints them |
| Memory.CopyStep | src/pipeline/memory.py:260-281 | one iteration of the copy loop: a directory is skipped, a bad size raises, a passing entry is written, and nothing happens after an exception |
| Memory.CopyAll | src/pipeline/memory.py:259-281 | the copy loop over the listed entries; specified by Memory.CopyAllSound, Memory.CopyAllFails, Memory.CopyAllComplete and Memory.CopyAllWritten |
| Memory.CopyAllSound | src/pipeline/memory.py:259-281 | every copied name is a non-directory entry whose size is positive, within the cap, and readable |
| Memory.CopyAllFails | src/pipeline/memory.py:263 | the copy raises iff some non-directory entry has a size that `int()` rejects |
| Memory.CopyAllComplete | src/pipeline/memory.py:259-281 | when the copy finishes, every eligible entry was copied |
| Memory.CopyAllWritten | src/pipeline/memory.py:259-281 | when the copy finishes, the copied names are exactly the eligible entries in listing order |
| Memory.CopyEventlogs | src/pipeline/memory.py:250-281 | a listing that cannot be read copies nothing and returns normally; otherwise the entries are copied as above |
| Memory.FirstWhere | src/pipeline/memory.py:295-297 | the scan returns the first file name that satisfies the test, and none iff no name does |
| Memory.FirstMatch | src/pipeline/memory.py:294-298 | the walk returns the first matching file in walk order, joined to its root, and none iff no file matches |
| Memory.AutoDiscoverDevice | src/pipeline/memory.py:291-298 | the device is the first file in walk order whose suffix, in any letter case, is `.raw`, `.vmem`, `.dmp` or `.bin`, and none iff there is no such file |
| Memory.ExtraArgs | src/pipeline/memory.py:343-347 | a list adds each item's `str()`; a string adds its whitespace-separated words; anything else adds nothing |
| Memory.ExtraArgsOfWords | src/pipeline/memory.py:346-347 | a string of words separated by single spaces splits back into those words |
| Memory.DeviceArgs | src/pipeline/memory.py:339-347 | the Vmm arguments start with `-device` and the device; `-forensic 1` follows iff `forensic` is missing or truthy; the extra arguments come last |
| Memory.MemoryConfig | src/pipeline/memory.py:311-325 | a profile that cannot be loaded acts as an empty configuration; the step raises iff the document or its `memory` or `memprocfs` section is truthy and not a mapping, and otherwise gives the `memory.memprocfs` section |
| Memory.Device | src/pipeline/memory.py:334-335 | a falsy `device` setting falls back to auto-discovery; a truthy one is used as is when it is a string |
| Memory.EventlogStep | src/pipeline/memory.py:373-382 | the copy runs iff `int()` of the byte cap succeeds and the directory setting is a string (the default directory when unset), and uses that cap; the directory is reported iff the copy ran and finished, and it is the configured or default directory as `str(Path(..))` prints it, which is the setting itself when pathlib has nothing to normalise in it |
| Memory.RunMemprocfs | src/pipeline/memory.py:301-384 | a malformed profile raises; a disabled stage gives None; an enabled stage with the library present raises iff the configured device is not a path; a result exists iff the stage is enabled, the library is present, the device is a non-empty existing path and the `-device` arguments open a session; its process data is the collection over the `processes` mapping (an error when that setting is not a mapping), its event-log state is the copy step's, and its metadata is the device, the process files and the reported event-log directory |
| Memory.StageMeta | src/pipeline/memory.py:356-384 | the metadata built from the device, the process step and the copy step (specified by StageMetaKeys) |
| Memory.StageMetaKeys | src/pipeline/memory.py:356-384 | the metadata is a mapping that starts with the device, names the process files iff the listing was collected, and ends with the event-log directory iff the copy reported one |
| Memory.DisabledIgnoresEnvironment | src/pipeline/memory.py:325-328 | a disabled stage gives None whatever the environment holds |
| Memory.NoImageSkips | src/pipeline/memory.py:334-337 | with no configured device and no memory image in the evidence tree, the stage is skipped |
| Text.Lower | src/pipeline/detections.py:73-74 | lower-casing keeps the length, leaves no ASCII upper-case letter, and changes no other character |
| Text.LowerIdempotent | src/pipeline/detections.py:73-74 | lower-casing twice is lower-casing once |
| Text.Contains | src/pipeline/detections.py:74 | substring membership means the needle occurs at some index |
| Text.Split | src/pipeline/detections.py:93 | `str.split(sep)` gives at least one part, no part holds the separator, and joining the parts gives back the string |
| Text.SplitJoin | src/pipeline/detections.py:93 | splitting a join of separator-free parts gives back the parts |
| Text.Strip | src/pipeline/hayabusa.py:101 | `strip()` gives the middle of the string between two all-whitespace ends, and it neither starts nor ends with whitespace |
| Text.StripEmptyIffBlank | src/pipeline/hayabusa.py:101-103 | a stripped line is empty iff the line is all whitespace |
| Text.WordsUnwords | src/pipeline/memory.py:347 | `split()` of space-joined non-empty, space-free words gives back the words |
| Text.WordsEmptyIffBlank | src/pipeline/memory.py:346 | `split()` gives no words iff the string is all whitespace |
| Text.Words | src/pipeline/memory.py:347 | `split()` with no argument; specified by Text.WordsAreWords, Text.WordsUnwords and Text.WordsEmptyIffBlank |
| Text.Glob | src/pipeline/detections.py:75-76 | `fnmatch` with `*` and `?`; specified by Text.GlobLiteral, Text.GlobStarMatchesAll, Text.GlobNoStarLength and Text.GlobPrefixStar |
| Text.GlobLiteral | src/pipeline/detections.py:75-78 | a pattern without wildcards matches only itself |
| Text.GlobStarMatchesAll | src/pipeline/detections.py:76 | the pattern `*` matches every string |
| Text.GlobNoStarLength | src/pipeline/detections.py:76 | a pattern without `*` matches only strings of its own length |
| Text.GlobPrefixStar | src/pipeline/detections.py:76 | `literal*` matches exactly the strings that start with the literal |
| Paths.PathJoin | src/pipeline/hayabusa.py:75-77 | an absolute second part replaces the first; otherwise the result starts with the first part and ends with the second, with exactly one `/` inserted between them iff the first part is non-empty and does not already end in `/` |
| Paths.FileName | src/pipeline/detections.py:51 | the file name has no `/` and ends the path; it is the whole path when the path has no `/`, and otherwise it is preceded by a `/` |
| Paths.FileNameOfJoin | src/pipeline/memory.py:294-297 | the name of a joined path is the joined name whenever that name is a single relative component |
| Paths.KeptParts | src/pipeline/memory.py:378-380 | the components pathlib keeps are exactly the split's components that are neither empty nor `.`, and a split without such components is kept whole |
| Paths.Root | src/pipeline/memory.py:378-380 | the root pathlib keeps is a prefix of the path, and it is empty iff the path is relative |
| Paths.PurePath | src/pipeline/memory.py:378-380 | `str(PurePosixPath(p))` is never empty and keeps the path's root; with PurePathIdempotent, PurePathPlain and the example lemmas, it drops empty and `.` components and prints the empty path as `.` |
| Paths.PurePathIdempotent | src/pipeline/memory.py:378-380 | printing a printed path again changes nothing |
| Paths.PurePathPlain | src/pipeline/memory.py:378-380 | a relative path without empty or `.` components prints unchanged |
| Paths.SubPath | src/pipeline/memory.py:136-137 | `str(Path(dir) / name)` is never empty, and for a plain directory it is the `os.path.join` of the two, itself plain |
| Paths.PlainJoin | src/pipeline/memory.py:136-137 | joining a single component onto a plain directory inserts one `/` and gives a plain path that pathlib prints unchanged |
| Paths.SubPathDropsDotPrefix | src/pipeline/memory.py:136-137 | under `./dir`, pathlib reports `dir/name` where `os.path.join` gives `./dir/name` |
| Paths.SubPathOfCurrentDir | src/pipeline/memory.py:136-137 | under `.`, pathlib reports `name` where `os.path.join` gives `./name` |
| Paths.DotPrefixed | src/pipeline/memory.py:378-380 | a plain path behind `./` prints without it |
| Paths.PurePathOfEmpty | src/pipeline/memory.py:378-380 | the empty path prints as `.` |
| Paths.PurePathCollapsesSeparators | src/pipeline/memory.py:378-380 | doubled and trailing separators collapse: `a//b/` prints as `a/b` |
| Memory.StagePathsPlain | src/pipeline/memory.py:136-137 | for a plain output directory the listing, summary and default event-log paths are the plain joins, and under `./dir` or `.` the `.` part is dropped |
| Paths.LastIndexOf | src/pipeline/memory.py:296 | the index found holds the character and no later index does, or it is -1 when the character is absent |
| Paths.Suffix | src/pipeline/memory.py:296 | the suffix is non-empty iff the name has a `.` after its first character and does not end in `.`; it is then the text from the last `.` on, and it is never the whole name |
| Json.Get | src/pipeline/hayabusa.py:43-44 | `.get` finds a value iff the key is present, and the value is the one stored under it |
| Json.Stringify | src/pipeline/detections.py:78 | `str()` of a string is the string itself |
| Json.Repr | src/pipeline/detections.py:78 | `repr()` of a non-string value, as `str()` prints it; specified through Json.Stringify and the expectation lemmas |
| Json.Section | src/pipeline/hayabusa.py:43-44 | `(d.get(k) or {})` reads a missing or falsy entry as empty; it cannot be used iff the entry is truthy and not a mapping |
| Json.SubSection | src/pipeline/hayabusa.py:50 | `(d.get(a) or {}).get(b) or {}` fails iff either level is truthy and not a mapping, and is otherwise the inner section |
| Json.AsMapping | src/pipeline/hayabusa.py:41 | `x or {}` is usable as a mapping iff `x` is falsy or a mapping |
| Json.Iterate | src/pipeline/hayabusa.py:83 | iterating a list gives its items, a string its characters, a mapping its keys; null, booleans and integers cannot be iterated |

## Left out

- File writes (`yara_hits.json`, `sigma_findings.json`, `provenance.json`, `sbom.syft.json`, the Hayabusa summary, `memprocfs_*.json*`), directory creation and console printing are not modelled. Only the values that would be written are.
- `time.time()` in the provenance record and `created_at_utc` in the process summary are left out, because they read the clock.
- The `host` constant of the provenance record is left out, because it never varies.
- `_write_json`/`_write_jsonl` failures are left out: `out_path.write_bytes` and `open(..., "w")` are assumed to succeed.
- An event-log read failure is modelled by the entry's `readable` flag. A write failure is not modelled.
- YAML and JSON parsing are inputs: a parsed value or `None`. `yaml.safe_load` of a file that does not exist is not modelled separately from a parse failure.
- Duplicate keys inside one YAML or JSON mapping are assumed not to occur.
- SHA-256 is the parameter `sha`, because its internals are irrelevant to the tree-hash properties. The hash of the concatenated digests is applied to their ASCII bytes.
- Floating-point JSON values are not part of `JVal`.
- `str()` of a list or mapping is approximated by `Json.Repr`, which does not escape quotes inside strings the way Python's `repr` does.
- `Text.Lower` folds ASCII letters only, whereas Python's `str.lower` handles all of Unicode.
- `Text.IsSpace` follows Python's `str.isspace` for the characters listed in `text.dfy`.
- `Text.Glob` models `*` and `?` only. `fnmatch` character classes `[...]` are left out, and so is its case normalisation on case-insensitive platforms.
- `Detections.FileHits` splits the stripped YARA output on `\n` only, whereas Python's `splitlines` also breaks at `\r` and other line boundaries.
- `Detections.YaraHits` treats the walk of every entry of `paths` as one concatenated listing, and does not model `paths` being a non-list.
- The shell quoting of the `yara` command line (`shlex.split`) is left out.
- The Sigma `pipelines` setting is read by the code but never used, so it is left out.
- `Memory.ParseInt` accepts optional surrounding whitespace, a sign and ASCII digits. Python's `int()` also accepts underscores between digits and non-ASCII digits; these are not modelled.
- Memory.SummarizeProcesses: treats any non-integer pid as unsortable. Python would also sort a list made only of strings, a list of booleans mixed with integers, or a single pid of any type (sorting one element compares nothing). The summary's pids are integers, so these cases are reported as errors.
- `Memory.Device` rejects a truthy non-string `device`. Python's `os.path.exists` would treat an integer or boolean as a file descriptor.
- `Hayabusa.AsPath` rejects a truthy non-string directory setting. `os.path.isdir` would treat an integer or boolean as a file descriptor.
- Hayabusa.AsPaths: rejects integer and boolean items of `evtx_dirs`, which `os.path.isdir` would treat as file descriptors.
- Hayabusa.MemEventlogDir: rejects a truthy integer or boolean `eventlog_dir`, which `os.path.isdir` would treat as a file descriptor.
- Hayabusa.RunHayabusa: takes the loaded profile as a value. An `open` or `yaml.safe_load` failure raises in `run_hayabusa` (`hayabusa.py:40-41`); that failure is not modelled.
- Detections.ScanFindings: states membership only. The order and multiplicity of the findings are stated by `Detections.ScanAppend`, `Detections.ScanOneLine`, `Detections.EventMatchesAppend` and `Detections.EventMatchesOneRule`.
- Mapping keys that are not strings are not modelled, because `Json.Fields` keys are strings. YAML also allows integer, boolean and null keys.
- `Memory.SerializeProcess` models `_serialize_module` as a snapshot of the module's attributes (`memory.py:23-34`). The module list is an input; a failed enumeration appears as the modules enumerated before the failure, which is what the code writes.
- `_collect_global_maps` (`memory.py:175-241`) is not part of this model. The run's metadata therefore never holds map paths.
- Hayabusa's `json.dump` turns level keys into strings. Keys that collide after this conversion (for example `1` and `"1"`) are not modelled.
- In provenance, `provenance.json` is written before `syft` runs. A `syft` failure therefore leaves the file behind while the model returns an error.
- `tqdm` progress bars are left out.
- Path globbing with `rglob` and `os.walk`, and `os.listdir` ordering, are inputs (`ScannedPath`, `WalkStep`, `FileSystem`).

=== FILE: base.dfy ===
/** Failure-carrying result types shared by every module of the model. */
module Base {

  /** A value that may be absent, the model of Python's `None`-or-value returns. */
  datatype Option<+T> = None | Some(value: T) {
    function GetOr(default: T): T {
      match this
      case Some(v) => v
      case None => default
    }
  }

  /** The outcome of a step that can raise: `Err` carries the exception that escapes. */
  datatype Result<+T, +E> = Ok(value: T) | Err(error: E)
}

=== FILE: detections.dfy ===
/** The minimal Sigma-style detection engine and the YARA hit shaping of
    `src/pipeline/detections.py`. */
module Detections {
  import opened Base
  import opened Json
  import opened Text
  import Paths

  // ---------------------------------------------------------------------------
  // Field resolver (`_dig`)
  // ---------------------------------------------------------------------------

  /** Descends `path` through nested objects; `None` when a key is missing or an
      intermediate value is not an object. */
  function Walk(v: JVal, path: seq<string>): Option<JVal>
    decreases |path|
  {
    if |path| == 0 then Some(v)
    else
      match v
      case Obj(fields) =>
        (match Get(fields, path[0])
         case Some(child) => Walk(child, path[1..])
         case None => None)
      case _ => None
  }

  /** The segments of a field name: the text before the first `|`, split on `.`. */
  function FieldPath(field: string): seq<string> {
    Split(Split(field, '|')[0], '.')
  }

  /** `_dig(event, field)`: the resolved value, with `Null` standing for Python's `None`
      both when the path is missing and when it leads to a JSON null. */
  function Dig(event: JVal, field: string): JVal {
    Walk(event, FieldPath(field)).GetOr(Null)
  }

  /** Walking a concatenated path is walking the first part, then the second from where it ended. */
  lemma {:induction false} WalkAppend(v: JVal, a: seq<string>, b: seq<string>)
    ensures Walk(v, a + b) == (match Walk(v, a) case None => None case Some(u) => Walk(u, b))
    decreases |a|
  {
    if |a| == 0 {
      assert a + b == b;
    } else {
      assert (a + b)[0] == a[0];
      assert (a + b)[1..] == a[1..] + b;
      if v.Obj? && Get(v.fields, a[0]).Some? {
        WalkAppend(Get(v.fields, a[0]).value, a[1..], b);
      }
    }
  }

  /** A `|modifier` suffix is stripped and ignored by the resolver. */
  lemma DigIgnoresModifier(event: JVal, path: string, modifier: string)
    requires '|' !in path
    ensures Dig(event, path + "|" + modifier) == Dig(event, path)
  {
    SplitAtFirst(path, '|', modifier);
    SplitNoSep(path, '|');
  }

  /** A plain key (no `.`, no `|`) resolves to that entry of an object, and to `None` otherwise. */
  lemma DigKey(event: JVal, key: string)
    requires '.' !in key && '|' !in key
    ensures Dig(event, key) == (if event.Obj? && HasKey(event.fields, key) then Get(event.fields, key).value else Null)
  {
    SplitNoSep(key, '|');
    SplitNoSep(key, '.');
  }

  /** `key.rest` descends into `key` and resolves `rest` there; a missing `key` or a
      non-object event yields `None`. */
  lemma DigDescends(event: JVal, key: string, rest: string)
    requires '.' !in key && '|' !in key && '|' !in rest
    ensures Dig(event, key + "." + rest) ==
            (if event.Obj? && HasKey(event.fields, key) then Dig(Get(event.fields, key).value, rest) else Null)
  {
    var field := key + "." + rest;
    assert '|' !in field by {
      assert forall k :: 0 <= k < |field| ==> field[k] == (if k < |key| then key[k] else if k == |key| then '.' else rest[k - |key| - 1]);
    }
    SplitNoSep(field, '|');
    SplitNoSep(rest, '|');
    SplitAtFirst(key, '.', rest);
    assert FieldPath(field) == [key] + FieldPath(rest);
    assert ([key] + FieldPath(rest))[1..] == FieldPath(rest);
  }

  // ---------------------------------------------------------------------------
  // Selection matcher (`_match_selection`)
  // ---------------------------------------------------------------------------

  /** The prefix that turns an expected string into a case-insensitive substring test. */
  const ContainsPrefix: string := "|contains "

  /** One entry of an expected list: glob match when it has a wildcard, equality otherwise. */
  predicate ItemMatches(value: string, item: JVal) {
    var pattern := Stringify(item);
    if HasWildcard(pattern) then Glob(value, pattern) else value == pattern
  }

  /** The expected list is scanned until one entry matches. */
  predicate AnyItemMatches(value: string, items: seq<JVal>)
    ensures AnyItemMatches(value, items) <==> exists k :: 0 <= k < |items| && ItemMatches(value, items[k])
    decreases |items|
  {
    if |items| == 0 then false
    else
      assert forall k :: 1 <= k < |items| ==> items[k] == items[1..][k - 1];
      ItemMatches(value, items[0]) || AnyItemMatches(value, items[1..])
  }

  /** How one expected value is compared with the stringified resolved value. */
  predicate ExpectedMatches(value: string, expected: JVal) {
    match expected
    case Str(e) =>
      if StartsWith(e, ContainsPrefix) then Contains(Lower(value), Lower(e[|ContainsPrefix|..]))
      else if HasWildcard(e) then Glob(value, e)
      else value == e
    case Arr(items) => AnyItemMatches(value, items)
    case _ => value == Stringify(expected)
  }

  /** One `(field, expected)` constraint of a selection. */
  predicate FieldMatches(event: JVal, field: string, expected: JVal) {
    var v := Dig(event, field);
    v != Null && ExpectedMatches(Stringify(v), expected)
  }

  /** A constraint is never met by an absent (or null) field. */
  lemma FieldMatchesPresent(event: JVal, field: string, expected: JVal)
    requires FieldMatches(event, field, expected)
    ensures Dig(event, field) != Null
  {
  }

  /** A `|contains ` string is a case-insensitive substring test on the stringified value. */
  lemma ContainsExpected(event: JVal, field: string, e: string)
    requires StartsWith(e, ContainsPrefix)
    ensures FieldMatches(event, field, Str(e)) <==>
              Dig(event, field) != Null &&
              exists i :: OccursAt(Lower(e[|ContainsPrefix|..]), Lower(Stringify(Dig(event, field))), i)
  {
  }

  /** A list of expected values matches when any one of its entries does. */
  lemma ListExpected(event: JVal, field: string, items: seq<JVal>)
    ensures FieldMatches(event, field, Arr(items)) <==>
              Dig(event, field) != Null &&
              exists k :: 0 <= k < |items| && ItemMatches(Stringify(Dig(event, field)), items[k])
  {
  }

  /** `_match_selection`: every constraint of the selection holds. */
  predicate MatchSelection(event: JVal, selection: Fields) {
    forall k :: 0 <= k < |selection| ==> FieldMatches(event, selection[k].0, selection[k].1)
  }

  /** A string without `|contains ` prefix and without wildcards demands exact equality. */
  lemma LiteralExpected(event: JVal, field: string, e: string)
    requires !StartsWith(e, ContainsPrefix) && !HasWildcard(e)
    ensures FieldMatches(event, field, Str(e)) <==> Dig(event, field) != Null && Stringify(Dig(event, field)) == e
  {
  }

  /** A string with a wildcard (and no `|contains ` prefix) is a glob over the stringified value. */
  lemma GlobExpected(event: JVal, field: string, e: string)
    requires !StartsWith(e, ContainsPrefix) && HasWildcard(e)
    ensures FieldMatches(event, field, Str(e)) <==> Dig(event, field) != Null && Glob(Stringify(Dig(event, field)), e)
  {
  }

  /** A wildcard-free list entry behaves as equality, so a list of literals is membership. */
  lemma LiteralListExpected(event: JVal, field: string, items: seq<JVal>)
    requires forall k :: 0 <= k < |items| ==> items[k].Str? && !HasWildcard(items[k].s)
    ensures FieldMatches(event, field, Arr(items)) <==>
              Dig(event, field) != Null && Str(Stringify(Dig(event, field))) in items
  {
    var v := Dig(event, field);
    if v != Null {
      var value := Stringify(v);
      forall k | 0 <= k < |items|
        ensures ItemMatches(value, items[k]) <==> items[k] == Str(value)
      {
        GlobLiteral(value, items[k].s);
      }
    }
  }

  /** A constraint on an absent (or null) field fails whatever the expected value is, and so does
      every selection containing it. */
  lemma AbsentFieldFailsSelection(event: JVal, selection: Fields, k: int)
    requires 0 <= k < |selection| && Dig(event, selection[k].0) == Null
    ensures !MatchSelection(event, selection)
  {
  }

  // ---------------------------------------------------------------------------
  // Rule loader (`_load_sigma_rules`)
  // ---------------------------------------------------------------------------

  /** A loaded rule: its title (any value; the file name by default), source path, raw
      condition and the object-valued selections of its `detection` block, in order. */
  datatype Rule = Rule(title: JVal, file: string, condition: JVal, selections: seq<(string, Fields)>)

  /** The entries of a `detection` block other than `condition` whose value is an object. */
  function SelectionsOf(detection: Fields): (sels: seq<(string, Fields)>)
    ensures |sels| <= |detection|
    ensures forall s :: s in sels <==> s.0 != "condition" && (s.0, Obj(s.1)) in detection
    decreases |detection|
  {
    if |detection| == 0 then []
    else
      var (k, v) := detection[0];
      var rest := SelectionsOf(detection[1..]);
      assert forall e :: e in detection <==> e == detection[0] || e in detection[1..];
      if k != "condition" && v.Obj? then [(k, v.fields)] + rest else rest
  }

  /** Selections are collected in `detection` order: the block's halves contribute in turn. */
  lemma {:induction false} SelectionsOfAppend(a: Fields, b: Fields)
    ensures SelectionsOf(a + b) == SelectionsOf(a) + SelectionsOf(b)
    decreases |a|
  {
    if |a| == 0 {
      assert a + b == b;
    } else {
      assert (a + b)[0] == a[0];
      assert (a + b)[1..] == a[1..] + b;
      SelectionsOfAppend(a[1..], b);
    }
  }

  /** Normalises one parsed rule file; `None` when parsing failed, the root is not a mapping,
      or `detection` is present but not a mapping (the `.get` on it raises and the file is skipped). */
  function LoadRule(path: string, parsed: Option<JVal>): (r: Option<Rule>)
    ensures r.Some? <==>
              parsed.Some? && parsed.value.Obj? &&
              (!HasKey(parsed.value.fields, "detection") || Get(parsed.value.fields, "detection").value.Obj?)
    ensures r.Some? ==> r.value.file == path
    ensures r.Some? && !HasKey(parsed.value.fields, "title") ==> r.value.title == Str(Paths.FileName(path))
    ensures r.Some? && !HasKey(parsed.value.fields, "detection") ==>
              r.value.condition == Str("") && r.value.selections == []
    ensures r.Some? && HasKey(parsed.value.fields, "title") ==> r.value.title == Get(parsed.value.fields, "title").value
    ensures r.Some? && HasKey(parsed.value.fields, "detection") ==>
              var detection := Get(parsed.value.fields, "detection").value.fields;
              r.value.selections == SelectionsOf(detection) &&
              (HasKey(detection, "condition") ==> r.value.condition == Get(detection, "condition").value) &&
              (!HasKey(detection, "condition") ==> r.value.condition == Str(""))
  {
    match parsed
    case Some(Obj(fields)) =>
      var title := GetOr(fields, "title", Str(Paths.FileName(path)));
      var detection := GetOr(fields, "detection", Obj([]));
      if detection.Obj? then
        Some(Rule(title, path, GetOr(detection.fields, "condition", Str("")), SelectionsOf(detection.fields)))
      else None
    case _ => None
  }

  /** Loads every rule file in enumeration order, skipping those that do not normalise. */
  function LoadRules(files: seq<(string, Option<JVal>)>): (rules: seq<Rule>)
    ensures |rules| <= |files|
    ensures forall rule :: rule in rules <==> exists i :: 0 <= i < |files| && LoadRule(files[i].0, files[i].1) == Some(rule)
    decreases |files|
  {
    if |files| == 0 then []
    else
      var rest := LoadRules(files[1..]);
      assert forall i :: 1 <= i < |files| ==> files[i] == files[1..][i - 1];
      match LoadRule(files[0].0, files[0].1)
      case Some(rule) => [rule] + rest
      case None => rest
  }

  /** A single file loads to its own rule, or to nothing when it does not normalise. */
  lemma LoadRulesOne(file: (string, Option<JVal>))
    ensures LoadRules([file]) == if LoadRule(file.0, file.1).Some? then [LoadRule(file.0, file.1).value] else []
  {
    assert [file][1..] == [];
  }

  /** Loading preserves enumeration order and multiplicity: the rules of a concatenated file
      list are those of each part in turn. */
  lemma {:induction false} LoadRulesAppend(a: seq<(string, Option<JVal>)>, b: seq<(string, Option<JVal>)>)
    ensures LoadRules(a + b) == LoadRules(a) + LoadRules(b)
    decreases |a|
  {
    if |a| == 0 {
      assert a + b == b;
    } else {
      assert (a + b)[0] == a[0];
      assert (a + b)[1..] == a[1..] + b;
      LoadRulesAppend(a[1..], b);
      match LoadRule(a[0].0, a[0].1)
      case Some(rule) =>
        assert [rule] + LoadRules(a[1..]) + LoadRules(b) == [rule] + (LoadRules(a[1..]) + LoadRules(b));
      case None =>
    }
  }

  // ---------------------------------------------------------------------------
  // Per-rule combinator (the rule loop of `run_sigma`)
  // ---------------------------------------------------------------------------

  /** How a rule combines its selections. */
  datatype Combinator = AllOf | AnyOf

  /** Python's `"1 of " in condition`: substring for a string, element test for a list, key test
      for a mapping; `None` when the condition is not iterable (the test raises `TypeError`). */
  function ConditionMode(condition: JVal): (r: Option<Combinator>)
    ensures r.None? <==> condition.Null? || condition.Bool? || condition.Int?
    ensures condition.Str? ==> (r == Some(AnyOf) <==> exists i :: OccursAt("1 of ", condition.s, i))
  {
    match condition
    case Str(s) => Some(if Contains(s, "1 of ") then AnyOf else AllOf)
    case Arr(items) => Some(if Str("1 of ") in items then AnyOf else AllOf)
    case Obj(fields) => Some(if HasKey(fields, "1 of ") then AnyOf else AllOf)
    case _ => None
  }

  /** The `1 of ` combination: some selection matches. */
  predicate AnySelection(event: JVal, sels: seq<(string, Fields)>) {
    exists k :: 0 <= k < |sels| && MatchSelection(event, sels[k].1)
  }

  /** The default combination: every selection matches. */
  predicate AllSelections(event: JVal, sels: seq<(string, Fields)>) {
    forall k :: 0 <= k < |sels| ==> MatchSelection(event, sels[k].1)
  }

  /** Whether a rule fires on an event under a given combinator. */
  predicate RuleHolds(mode: Combinator, sels: seq<(string, Fields)>, event: JVal) {
    match mode
    case AnyOf => AnySelection(event, sels)
    case AllOf => AllSelections(event, sels)
  }

  /** With no selections, an any-of rule never fires and an all-of rule fires on every event. */
  lemma ZeroSelections(event: JVal)
    ensures !RuleHolds(AnyOf, [], event)
    ensures RuleHolds(AllOf, [], event)
  {
  }

  /** A rule file without a `detection` block loads with no selections and the empty condition,
      so it fires on every event. */
  lemma MissingDetectionMatchesAll(path: string, fields: Fields, event: JVal)
    requires !HasKey(fields, "detection")
    ensures LoadRule(path, Some(Obj(fields))).Some?
    ensures var rule := LoadRule(path, Some(Obj(fields))).value;
            ConditionMode(rule.condition) == Some(AllOf) && RuleHolds(AllOf, rule.selections, event)
  {
    var rule := LoadRule(path, Some(Obj(fields))).value;
    assert !exists i :: OccursAt("1 of ", "", i);
  }

  // ---------------------------------------------------------------------------
  // Rule/record scan (`run_sigma`)
  // ---------------------------------------------------------------------------

  /** One finding: the rule's title, its file, and the whole event. */
  datatype SigmaMatch = SigmaMatch(rule: JVal, rulePath: string, event: JVal)

  /** The exception that escapes `run_sigma`: a rule whose condition cannot be searched. */
  datatype SigmaError = ConditionNotIterable(rulePath: string)

  /** The findings of one event against the rules, in rule order. */
  function EventMatches(event: JVal, rules: seq<Rule>): (r: Result<seq<SigmaMatch>, SigmaError>)
    ensures r.Err? <==> exists k :: 0 <= k < |rules| && ConditionMode(rules[k].condition).None?
    ensures r.Ok? ==> |r.value| <= |rules|
    decreases |rules|
  {
    if |rules| == 0 then Ok([])
    else
      var init := rules[..|rules| - 1];
      var rule := rules[|rules| - 1];
      assert forall k :: 0 <= k < |init| ==> init[k] == rules[k];
      match EventMatches(event, init)
      case Err(e) => Err(e)
      case Ok(ms) =>
        match ConditionMode(rule.condition)
        case None => Err(ConditionNotIterable(rule.file))
        case Some(mode) =>
          if RuleHolds(mode, rule.selections, event) then Ok(ms + [SigmaMatch(rule.title, rule.file, event)])
          else Ok(ms)
  }

  /** With searchable conditions, one event yields a finding for exactly the rules that fire on it. */
  lemma {:induction false} EventFindings(event: JVal, rules: seq<Rule>, m: SigmaMatch)
    requires EventMatches(event, rules).Ok?
    ensures m in EventMatches(event, rules).value <==>
              exists k :: 0 <= k < |rules| && m == SigmaMatch(rules[k].title, rules[k].file, event) &&
                          RuleHolds(ConditionMode(rules[k].condition).value, rules[k].selections, event)
    decreases |rules|
  {
    if |rules| > 0 {
      var init := rules[..|rules| - 1];
      assert forall k :: 0 <= k < |init| ==> init[k] == rules[k];
      EventFindings(event, init, m);
    }
  }

  /** One rule on one event: a finding exactly when it fires, and an error when its condition
      cannot be searched. */
  lemma EventMatchesOneRule(event: JVal, rule: Rule)
    ensures ConditionMode(rule.condition).None? ==> EventMatches(event, [rule]) == Err(ConditionNotIterable(rule.file))
    ensures ConditionMode(rule.condition).Some? ==>
              var fires := RuleHolds(ConditionMode(rule.condition).value, rule.selections, event);
              EventMatches(event, [rule]) == Ok(if fires then [SigmaMatch(rule.title, rule.file, event)] else [])
  {
    assert [rule][..0] == [];
    assert EventMatches(event, []) == Ok([]);
    assert [] + [SigmaMatch(rule.title, rule.file, event)] == [SigmaMatch(rule.title, rule.file, event)];
  }

  /** The last rule's findings follow those of the rules before it. */
  lemma EventMatchesSnoc(event: JVal, rules: seq<Rule>)
    requires |rules| > 0
    ensures EventMatches(event, rules) ==
              Then(EventMatches(event, rules[..|rules| - 1]), EventMatches(event, [rules[|rules| - 1]]))
  {
    var rule := rules[|rules| - 1];
    EventMatchesOneRule(event, rule);
    match EventMatches(event, rules[..|rules| - 1])
    case Ok(ms) => assert ms + [] == ms;
    case Err(_) =>
  }

  /** Rules are tried in order: the findings of a concatenated rule list are those of the first
      part followed by those of the second, and the first unsearchable condition aborts. */
  lemma {:induction false} EventMatchesAppend(event: JVal, a: seq<Rule>, b: seq<Rule>)
    ensures EventMatches(event, a + b) == Then(EventMatches(event, a), EventMatches(event, b))
    decreases |b|
  {
    if |b| == 0 {
      assert a + b == a;
      match EventMatches(event, a) case Ok(x) => assert x + [] == x; case Err(_) =>
    } else {
      var b' := b[..|b| - 1];
      var rule := b[|b| - 1];
      assert (a + b)[..|a + b| - 1] == a + b';
      assert (a + b)[|a + b| - 1] == rule;
      EventMatchesAppend(event, a, b');
      EventMatchesSnoc(event, a + b);
      EventMatchesSnoc(event, b);
      ThenAssociative(EventMatches(event, a), EventMatches(event, b'), EventMatches(event, [rule]));
    }
  }

  /** Sequencing of two partial results: the first error wins, otherwise the findings concatenate. */
  function Then(a: Result<seq<SigmaMatch>, SigmaError>, b: Result<seq<SigmaMatch>, SigmaError>): Result<seq<SigmaMatch>, SigmaError> {
    match a
    case Err(e) => Err(e)
    case Ok(x) => match b case Err(e) => Err(e) case Ok(y) => Ok(x + y)
  }

  lemma ThenAssociative(a: Result<seq<SigmaMatch>, SigmaError>, b: Result<seq<SigmaMatch>, SigmaError>, c: Result<seq<SigmaMatch>, SigmaError>)
    ensures Then(Then(a, b), c) == Then(a, Then(b, c))
  {
    if a.Ok? && b.Ok? && c.Ok? {
      assert a.value + b.value + c.value == a.value + (b.value + c.value);
    }
  }

  /** The findings of one line of the export: none when it does not parse. */
  function LineMatches(line: string, parse: string -> Option<JVal>, rules: seq<Rule>): Result<seq<SigmaMatch>, SigmaError> {
    match parse(line)
    case None => Ok([])
    case Some(event) => EventMatches(event, rules)
  }

  /** Runs the rules over the lines in order; unparseable lines are skipped, and the first
      non-iterable condition met by a parsed line aborts the scan. */
  function ScanLines(lines: seq<string>, parse: string -> Option<JVal>, rules: seq<Rule>): Result<seq<SigmaMatch>, SigmaError>
    decreases |lines|
  {
    if |lines| == 0 then Ok([])
    else Then(ScanLines(lines[..|lines| - 1], parse, rules), LineMatches(lines[|lines| - 1], parse, rules))
  }

  /** The scan streams: the findings of a concatenation are those of the first part followed by
      those of the second, so findings appear in record order. */
  lemma {:induction false} ScanAppend(a: seq<string>, b: seq<string>, parse: string -> Option<JVal>, rules: seq<Rule>)
    ensures ScanLines(a + b, parse, rules) == Then(ScanLines(a, parse, rules), ScanLines(b, parse, rules))
    decreases |b|
  {
    if |b| == 0 {
      assert a + b == a;
      match ScanLines(a, parse, rules) case Ok(x) => assert x + [] == x; case Err(_) =>
    } else {
      var b' := b[..|b| - 1];
      assert (a + b)[..|a + b| - 1] == a + b';
      assert (a + b)[|a + b| - 1] == b[|b| - 1];
      ScanAppend(a, b', parse, rules);
      ThenAssociative(ScanLines(a, parse, rules), ScanLines(b', parse, rules), LineMatches(b[|b| - 1], parse, rules));
    }
  }

  /** A one-line export yields exactly that line's findings. */
  lemma ScanOneLine(line: string, parse: string -> Option<JVal>, rules: seq<Rule>)
    ensures ScanLines([line], parse, rules) == LineMatches(line, parse, rules)
  {
    assert [line][..0] == [];
    match LineMatches(line, parse, rules) case Ok(y) => assert [] + y == y; case Err(_) =>
  }

  /** An unparseable line contributes nothing. */
  lemma UnparseableLineSkipped(a: seq<string>, line: string, b: seq<string>, parse: string -> Option<JVal>, rules: seq<Rule>)
    requires parse(line).None?
    ensures ScanLines(a + [line] + b, parse, rules) == ScanLines(a + b, parse, rules)
  {
    ScanAppend(a + [line], b, parse, rules);
    ScanAppend(a, [line], parse, rules);
    ScanAppend(a, b, parse, rules);
    assert [line][..0] == [];
    match ScanLines(a, parse, rules) case Ok(x) => assert x + [] == x; case Err(_) =>
  }

  /** Every rule's condition can be searched. */
  predicate ConditionsValid(rules: seq<Rule>) {
    forall k :: 0 <= k < |rules| ==> ConditionMode(rules[k].condition).Some?
  }

  /** Some line of the stream parses. */
  predicate SomeLineParses(lines: seq<string>, parse: string -> Option<JVal>) {
    exists i :: 0 <= i < |lines| && parse(lines[i]).Some?
  }

  /** The scan fails exactly when a line parses and some rule's condition cannot be searched. */
  lemma {:induction false} ScanFailsIff(lines: seq<string>, parse: string -> Option<JVal>, rules: seq<Rule>)
    ensures ScanLines(lines, parse, rules).Err? <==> SomeLineParses(lines, parse) && !ConditionsValid(rules)
    decreases |lines|
  {
    if |lines| > 0 {
      var init := lines[..|lines| - 1];
      ScanFailsIff(init, parse, rules);
      assert forall i :: 0 <= i < |init| ==> init[i] == lines[i];
      if SomeLineParses(lines, parse) && !SomeLineParses(init, parse) {
        var i :| 0 <= i < |lines| && parse(lines[i]).Some?;
        assert i == |lines| - 1;
      }
    }
  }

  /** Line `i` parses to the event of `m`, rule `k` fires on it, and `m` records that pair. */
  predicate FindingAt(lines: seq<string>, parse: string -> Option<JVal>, rules: seq<Rule>, m: SigmaMatch, i: int, k: int)
    requires ConditionsValid(rules)
  {
    && 0 <= i < |lines| && 0 <= k < |rules|
    && parse(lines[i]) == Some(m.event)
    && m == SigmaMatch(rules[k].title, rules[k].file, m.event)
    && RuleHolds(ConditionMode(rules[k].condition).value, rules[k].selections, m.event)
  }

  /** With searchable conditions, the scan of a non-empty export is the scan of all but the last
      line followed by the findings of the last line. */
  lemma ScanStep(lines: seq<string>, parse: string -> Option<JVal>, rules: seq<Rule>)
    requires ConditionsValid(rules) && |lines| > 0
    ensures ScanLines(lines[..|lines| - 1], parse, rules).Ok?
    ensures LineMatches(lines[|lines| - 1], parse, rules).Ok?
    ensures ScanLines(lines, parse, rules) ==
              Ok(ScanLines(lines[..|lines| - 1], parse, rules).value + LineMatches(lines[|lines| - 1], parse, rules).value)
  {
    ScanFailsIff(lines[..|lines| - 1], parse, rules);
  }

  /** Every finding of the scan comes from a parsed line and a rule that fires on it. */
  lemma {:induction false} ScanFindingsSound(lines: seq<string>, parse: string -> Option<JVal>, rules: seq<Rule>, m: SigmaMatch)
    requires ConditionsValid(rules)
    requires ScanLines(lines, parse, rules).Ok? && m in ScanLines(lines, parse, rules).value
    ensures exists i, k :: FindingAt(lines, parse, rules, m, i, k)
    decreases |lines|
  {
    var n := |lines| - 1;
    var init := lines[..n];
    ScanStep(lines, parse, rules);
    if m in ScanLines(init, parse, rules).value {
      ScanFindingsSound(init, parse, rules, m);
      var i, k :| FindingAt(init, parse, rules, m, i, k);
      assert init[i] == lines[i];
      assert FindingAt(lines, parse, rules, m, i, k);
    } else {
      var event := parse(lines[n]).value;
      EventFindings(event, rules, m);
      var k :| 0 <= k < |rules| && m == SigmaMatch(rules[k].title, rules[k].file, event) &&
               RuleHolds(ConditionMode(rules[k].condition).value, rules[k].selections, event);
      assert FindingAt(lines, parse, rules, m, n, k);
    }
  }

  /** Every parsed line and every rule that fires on it give a finding of the scan. */
  lemma {:induction false} ScanFindingsComplete(lines: seq<string>, parse: string -> Option<JVal>, rules: seq<Rule>, m: SigmaMatch, i: int, k: int)
    requires ConditionsValid(rules)
    requires FindingAt(lines, parse, rules, m, i, k)
    ensures ScanLines(lines, parse, rules).Ok? && m in ScanLines(lines, parse, rules).value
    decreases |lines|
  {
    var n := |lines| - 1;
    var init := lines[..n];
    ScanStep(lines, parse, rules);
    if i < n {
      assert init[i] == lines[i];
      assert FindingAt(init, parse, rules, m, i, k);
      ScanFindingsComplete(init, parse, rules, m, i, k);
    } else {
      EventFindings(m.event, rules, m);
    }
  }

  /** With searchable conditions the scan succeeds, and a finding is produced exactly for each
      parsed line and each rule that fires on it. */
  lemma ScanFindings(lines: seq<string>, parse: string -> Option<JVal>, rules: seq<Rule>, m: SigmaMatch)
    requires ConditionsValid(rules)
    ensures ScanLines(lines, parse, rules).Ok?
    ensures m in ScanLines(lines, parse, rules).value <==> exists i, k :: FindingAt(lines, parse, rules, m, i, k)
  {
    ScanFailsIff(lines, parse, rules);
    if m in ScanLines(lines, parse, rules).value {
      ScanFindingsSound(lines, parse, rules, m);
    }
    if exists i, k :: FindingAt(lines, parse, rules, m, i, k) {
      var i, k :| FindingAt(lines, parse, rules, m, i, k);
      ScanFindingsComplete(lines, parse, rules, m, i, k);
    }
  }

  /** The rule evaluation of `run_sigma`: AND over the selections, or OR when the condition says
      `1 of `, stopping at the first decisive selection. */
  method EvaluateRule(mode: Combinator, sels: seq<(string, Fields)>, event: JVal) returns (ok: bool)
    ensures ok == RuleHolds(mode, sels, event)
  {
    if mode == AnyOf {
      ok := FirstSelectionMatching(sels, event);
    } else {
      ok := EverySelectionMatching(sels, event);
    }
  }

  /** The `1 of` loop: stops at the first selection the event matches. */
  method FirstSelectionMatching(sels: seq<(string, Fields)>, event: JVal) returns (ok: bool)
    ensures ok == AnySelection(event, sels)
  {
    ok := false;
    var k := 0;
    while k < |sels| && !ok
      invariant 0 <= k <= |sels|
      invariant !ok ==> forall j :: 0 <= j < k ==> !MatchSelection(event, sels[j].1)
      invariant ok ==> 0 < k && MatchSelection(event, sels[k - 1].1)
    {
      ok := MatchSelection(event, sels[k].1);
      k := k + 1;
    }
  }

  /** The default loop: stops at the first selection the event does not match. */
  method EverySelectionMatching(sels: seq<(string, Fields)>, event: JVal) returns (ok: bool)
    ensures ok == AllSelections(event, sels)
  {
    ok := true;
    var k := 0;
    while k < |sels| && ok
      invariant 0 <= k <= |sels|
      invariant ok ==> forall j :: 0 <= j < k ==> MatchSelection(event, sels[j].1)
      invariant !ok ==> 0 < k && !MatchSelection(event, sels[k - 1].1)
    {
      ok := MatchSelection(event, sels[k].1);
      k := k + 1;
    }
  }

  /** Once a prefix of the rules fails, the whole rule list fails with the same error. */
  lemma {:induction false} EventMatchesFailsEarly(event: JVal, rules: seq<Rule>, n: nat)
    requires n <= |rules| && EventMatches(event, rules[..n]).Err?
    ensures EventMatches(event, rules) == EventMatches(event, rules[..n])
    decreases |rules| - n
  {
    if n < |rules| {
      assert rules[..n + 1][..n] == rules[..n];
      EventMatchesFailsEarly(event, rules, n + 1);
    } else {
      assert rules[..n] == rules;
    }
  }

  /** The inner loop of `run_sigma`: one parsed event against every rule, in rule order. */
  method MatchEvent(event: JVal, rules: seq<Rule>) returns (r: Result<seq<SigmaMatch>, SigmaError>)
    ensures r == EventMatches(event, rules)
  {
    var found: seq<SigmaMatch> := [];
    for k := 0 to |rules|
      invariant EventMatches(event, rules[..k]) == Ok(found)
    {
      assert rules[..k + 1][..k] == rules[..k];
      var rule := rules[k];
      var mode := ConditionMode(rule.condition);
      if mode.None? {
        EventMatchesFailsEarly(event, rules, k + 1);
        return Err(ConditionNotIterable(rule.file));
      }
      var ok := EvaluateRule(mode.value, rule.selections, event);
      if ok {
        found := found + [SigmaMatch(rule.title, rule.file, event)];
      }
    }
    assert rules[..|rules|] == rules;
    return Ok(found);
  }

  /** `run_sigma` over an already-read event export: no rules gives no findings without reading
      the export; otherwise the lines are scanned in order against every rule. */
  method RunSigma(lines: seq<string>, parse: string -> Option<JVal>, rules: seq<Rule>)
    returns (r: Result<seq<SigmaMatch>, SigmaError>)
    ensures |rules| == 0 ==> r == Ok([])
    ensures |rules| > 0 ==> r == ScanLines(lines, parse, rules)
  {
    if |rules| == 0 {
      return Ok([]);
    }
    var matches: seq<SigmaMatch> := [];
    for i := 0 to |lines|
      invariant ScanLines(lines[..i], parse, rules) == Ok(matches)
    {
      assert lines[..i + 1][..i] == lines[..i];
      var parsed := parse(lines[i]);
      if parsed.Some? {
        var found := MatchEvent(parsed.value, rules);
        if found.Err? {
          ScanAppend(lines[..i + 1], lines[i + 1..], parse, rules);
          assert lines[..i + 1] + lines[i + 1..] == lines;
          return found;
        }
        matches := matches + found.value;
      } else {
        assert matches + [] == matches;
      }
    }
    assert lines[..|lines|] == lines;
    return Ok(matches);
  }

  // ---------------------------------------------------------------------------
  // YARA result shaping (`run_yara`)
  // ---------------------------------------------------------------------------

  /** One recorded output line of the YARA scanner and the file it was scanning. */
  datatype YaraHit = YaraHit(matchLine: string, file: string)

  /** What scanning one file produced: an exception, or the scanner's standard output. */
  datatype ScanOutcome = ScanRaised | ScanOutput(stdout: string)

  /** One path from the recursive listing of a scan root. */
  datatype ScannedPath = ScannedPath(path: string, isFile: bool, outcome: ScanOutcome)

  function HitLines(hits: seq<YaraHit>): seq<string> {
    seq(|hits|, k requires 0 <= k < |hits| => hits[k].matchLine)
  }

  /** The hits of one scanned file: one per line of its stripped output, none when the scan
      raised or printed nothing. */
  function FileHits(path: string, outcome: ScanOutcome): (hits: seq<YaraHit>)
    ensures forall h :: h in hits ==> h.file == path && '\n' !in h.matchLine
    ensures (outcome.ScanRaised? || Strip(outcome.stdout) == "") ==> hits == []
    ensures outcome.ScanOutput? && Strip(outcome.stdout) != "" ==>
              |hits| >= 1 && Join(HitLines(hits), '\n') == Strip(outcome.stdout)
  {
    match outcome
    case ScanRaised => []
    case ScanOutput(out) =>
      var text := Strip(out);
      if text == "" then []
      else
        var lines := Split(text, '\n');
        var hits := seq(|lines|, k requires 0 <= k < |lines| => YaraHit(lines[k], path));
        assert HitLines(hits) == lines;
        hits
  }

  /** `run_yara`'s findings: nothing when there are no rule files; otherwise the hits of every
      regular file in listing order. */
  function YaraHits(ruleFiles: seq<string>, listing: seq<ScannedPath>): (hits: seq<YaraHit>)
    ensures |ruleFiles| == 0 ==> hits == []
    ensures |ruleFiles| > 0 ==> hits == ScanHits(listing)
    ensures forall h :: h in hits ==> exists i :: 0 <= i < |listing| && listing[i].isFile && h.file == listing[i].path
  {
    if |ruleFiles| == 0 then []
    else
      ScanHitsFromFiles(listing);
      ScanHits(listing)
  }

  /** The hits of the regular files of a listing, in listing order. */
  function ScanHits(listing: seq<ScannedPath>): seq<YaraHit>
    decreases |listing|
  {
    if |listing| == 0 then []
    else
      var last := listing[|listing| - 1];
      ScanHits(listing[..|listing| - 1]) + (if last.isFile then FileHits(last.path, last.outcome) else [])
  }

  /** Every hit names a regular file of the listing. */
  lemma {:induction false} ScanHitsFromFiles(listing: seq<ScannedPath>)
    ensures forall h :: h in ScanHits(listing) ==>
              exists i :: 0 <= i < |listing| && listing[i].isFile && h.file == listing[i].path
    decreases |listing|
  {
    if |listing| > 0 {
      var init := listing[..|listing| - 1];
      ScanHitsFromFiles(init);
      assert forall i :: 0 <= i < |init| ==> init[i] == listing[i];
    }
  }

  /** A single listed path contributes its scan's hits when it is a regular file, and nothing otherwise. */
  lemma ScanHitsOne(entry: ScannedPath)
    ensures ScanHits([entry]) == if entry.isFile then FileHits(entry.path, entry.outcome) else []
  {
    assert [entry][..0] == [];
  }

  /** Hits accumulate in listing order: the hits of a concatenated listing are those of each part in turn. */
  lemma {:induction false} ScanHitsAppend(a: seq<ScannedPath>, b: seq<ScannedPath>)
    ensures ScanHits(a + b) == ScanHits(a) + ScanHits(b)
    decreases |b|
  {
    if |b| == 0 {
      assert a + b == a;
    } else {
      var b' := b[..|b| - 1];
      var last := b[|b| - 1];
      var extra := if last.isFile then FileHits(last.path, last.outcome) else [];
      assert (a + b)[..|a + b| - 1] == a + b';
      assert (a + b)[|a + b| - 1] == last;
      assert ScanHits(a + b) == ScanHits(a + b') + extra;
      assert ScanHits(b) == ScanHits(b') + extra;
      ScanHitsAppend(a, b');
      assert ScanHits(a) + ScanHits(b') + extra == ScanHits(a) + (ScanHits(b') + extra);
    }
  }
}

=== FILE: hayabusa.dfy ===
/** The Hayabusa stage of `src/pipeline/hayabusa.py`: whether it runs, which EVTX directory it
    reads, the command it launches and the per-severity summary of its JSONL timeline. The file
    system is a map from existing directories to their entry names; the process run, the lines
    of the timeline and the JSON parser are inputs. */
module Hayabusa {
  import opened Base
  import opened Json
  import opened Text
  import opened Paths

  /** Existing directories and the names `os.listdir` reports for each; `unlistable` holds the
      directories on which `os.listdir` raises (an unreadable directory, say). */
  datatype FileSystem = FileSystem(dirs: map<string, seq<string>>, unlistable: set<string>)

  /** Exceptions that escape the stage: a configuration section that is not a mapping, a value
      iterated that is not iterable, a directory setting that is not a string, a directory that
      cannot be listed. */
  datatype StageError =
    | NotAMapping(key: string) | NotIterable(key: string) | NotAPath(key: string) | Unlistable(dir: string)

  // ---------------------------------------------------------------------------
  // Enablement
  // ---------------------------------------------------------------------------

  /** The loaded profile as a mapping and its `timeline.hayabusa` section. */
  function StageConfig(profile: JVal): (r: Result<(Fields, Fields), StageError>)
    ensures r.Ok? ==> AsMapping(profile) == Some(r.value.0)
    ensures r.Ok? ==> Section(r.value.0, "timeline").Some? &&
                      Section(Section(r.value.0, "timeline").value, "hayabusa") == Some(r.value.1)
    ensures r.Err? <==> AsMapping(profile).None? || Section(AsMapping(profile).value, "timeline").None? ||
                        Section(Section(AsMapping(profile).value, "timeline").value, "hayabusa").None?
  {
    match AsMapping(profile)
    case None => Err(NotAMapping("profile"))
    case Some(root) =>
      match Section(root, "timeline")
      case None => Err(NotAMapping("timeline"))
      case Some(timeline) =>
        match Section(timeline, "hayabusa")
        case None => Err(NotAMapping("hayabusa"))
        case Some(cfg) => Ok((root, cfg))
  }

  predicate Enabled(cfg: Fields) {
    Truthy(GetOr(cfg, "enabled", Null))
  }

  // ---------------------------------------------------------------------------
  // Target directory
  // ---------------------------------------------------------------------------

  /** A configured directory must be a string. */
  function AsPath(v: JVal, key: string): (r: Result<string, StageError>)
    ensures r.Ok? <==> v.Str?
    ensures r.Ok? ==> v == Str(r.value)
  {
    if v.Str? then Ok(v.s) else Err(NotAPath(key))
  }

  /** Every item of an iterated directory list as a path. */
  function AsPaths(items: seq<JVal>, key: string): (r: Result<seq<string>, StageError>)
    ensures r.Ok? <==> forall k :: 0 <= k < |items| ==> items[k].Str?
    ensures r.Ok? ==> |r.value| == |items| && forall k :: 0 <= k < |items| ==> items[k] == Str(r.value[k])
    decreases |items|
  {
    if |items| == 0 then Ok([])
    else
      var init := items[..|items| - 1];
      var last := items[|items| - 1];
      assert forall k :: 0 <= k < |init| ==> init[k] == items[k];
      match AsPaths(init, key)
      case Err(e) => Err(e)
      case Ok(paths) => if last.Str? then Ok(paths + [last.s]) else Err(NotAPath(key))
  }

  /** The directory MemProcFS extracted event logs into: `memory.memprocfs.eventlog_dir` when set,
      otherwise `memprocfs_eventlogs` under the output directory. */
  function MemEventlogDir(root: Fields, outdir: string): (r: Result<string, StageError>)
    ensures SubSection(root, "memory", "memprocfs").None? ==> r.Err?
    ensures SubSection(root, "memory", "memprocfs").Some? ==>
              var v := GetOr(SubSection(root, "memory", "memprocfs").value, "eventlog_dir", Null);
              (r.Err? <==> Truthy(v) && !v.Str?) &&
              (r.Ok? && Truthy(v) ==> v == Str(r.value)) &&
              (!Truthy(v) ==> r == Ok(PathJoin(outdir, "memprocfs_eventlogs")))
  {
    match Section(root, "memory")
    case None => Err(NotAMapping("memory"))
    case Some(memory) =>
      match Section(memory, "memprocfs")
      case None => Err(NotAMapping("memprocfs"))
      case Some(memCfg) =>
        var v := GetOr(memCfg, "eventlog_dir", Null);
        if Truthy(v) then AsPath(v, "eventlog_dir") else Ok(PathJoin(outdir, "memprocfs_eventlogs"))
  }

  /** Some entry name ends in `.evtx`, ignoring case. */
  predicate HasEvtx(names: seq<string>) {
    exists i :: 0 <= i < |names| && EndsWith(Lower(names[i]), ".evtx")
  }

  /** The configured fallback directories, `evtx_dirs`, defaulting to the evidence directory. */
  function EvtxDirs(cfg: Fields, evidence: string): (r: Result<seq<string>, StageError>)
    ensures !Truthy(GetOr(cfg, "evtx_dirs", Null)) ==> r == Ok([evidence])
    ensures Truthy(GetOr(cfg, "evtx_dirs", Null)) ==>
              var items := Iterate(GetOr(cfg, "evtx_dirs", Null));
              (r.Err? <==> items.None? || exists k :: 0 <= k < |items.value| && !items.value[k].Str?) &&
              (r.Ok? ==> |r.value| == |items.value| && forall k :: 0 <= k < |r.value| ==> items.value[k] == Str(r.value[k]))
    ensures Truthy(GetOr(cfg, "evtx_dirs", Null)) && GetOr(cfg, "evtx_dirs", Null).Arr? && r.Ok? ==>
              |r.value| == |GetOr(cfg, "evtx_dirs", Null).items| &&
              forall k :: 0 <= k < |r.value| ==> GetOr(cfg, "evtx_dirs", Null).items[k] == Str(r.value[k])
  {
    var v := GetOr(cfg, "evtx_dirs", Null);
    if !Truthy(v) then Ok([evidence])
    else
      match Iterate(v)
      case None => Err(NotIterable("evtx_dirs"))
      case Some(items) => AsPaths(items, "evtx_dirs")
  }

  /** The first listed directory that exists. */
  function FirstDir(dirs: seq<string>, fs: FileSystem): (r: Option<string>)
    ensures r.None? <==> forall i :: 0 <= i < |dirs| ==> dirs[i] !in fs.dirs
    ensures r.Some? ==> exists i :: 0 <= i < |dirs| && dirs[i] == r.value && r.value in fs.dirs &&
                                   forall j :: 0 <= j < i ==> dirs[j] !in fs.dirs
    decreases |dirs|
  {
    if |dirs| == 0 then None
    else if dirs[0] in fs.dirs then
      Some(dirs[0])
    else
      var r := FirstDir(dirs[1..], fs);
      assert forall i :: 1 <= i < |dirs| ==> dirs[i] == dirs[1..][i - 1];
      if r.Some? then
        var i :| 0 <= i < |dirs[1..]| && dirs[1..][i] == r.value && r.value in fs.dirs &&
                 forall j :: 0 <= j < i ==> dirs[1..][j] !in fs.dirs;
        assert dirs[i + 1] == r.value;
        r
      else r
  }

  /** Whether listing the MemProcFS directory raises: it exists but cannot be listed. */
  predicate ListingRaises(dir: string, fs: FileSystem) {
    dir in fs.dirs && dir in fs.unlistable
  }

  /** Whether the MemProcFS directory is preferred: it exists, lists, and holds an `.evtx` name. */
  predicate UsesMemoryEventlogs(dir: string, fs: FileSystem) {
    dir in fs.dirs && dir !in fs.unlistable && HasEvtx(fs.dirs[dir])
  }

  /** The directory Hayabusa is pointed at, or `None` when the stage has nothing to read. */
  function SelectTarget(root: Fields, cfg: Fields, evidence: string, outdir: string, fs: FileSystem)
    : (r: Result<Option<string>, StageError>)
    ensures r.Ok? && r.value.Some? ==> r.value.value in fs.dirs
    ensures MemEventlogDir(root, outdir).Ok? && UsesMemoryEventlogs(MemEventlogDir(root, outdir).value, fs) ==>
              r == Ok(Some(MemEventlogDir(root, outdir).value))
    ensures MemEventlogDir(root, outdir).Ok? && ListingRaises(MemEventlogDir(root, outdir).value, fs) ==>
              r == Err(Unlistable(MemEventlogDir(root, outdir).value))
    ensures MemEventlogDir(root, outdir).Ok? && !ListingRaises(MemEventlogDir(root, outdir).value, fs) &&
            !UsesMemoryEventlogs(MemEventlogDir(root, outdir).value, fs) ==>
              (r.Err? <==> EvtxDirs(cfg, evidence).Err?) &&
              (r.Ok? ==> r.value == FirstDir(EvtxDirs(cfg, evidence).value, fs))
    ensures MemEventlogDir(root, outdir).Err? ==> r.Err?
  {
    match MemEventlogDir(root, outdir)
    case Err(e) => Err(e)
    case Ok(memDir) =>
      if ListingRaises(memDir, fs) then Err(Unlistable(memDir))
      else if UsesMemoryEventlogs(memDir, fs) then Ok(Some(memDir))
      else
        match EvtxDirs(cfg, evidence)
        case Err(e) => Err(e)
        case Ok(dirs) => Ok(FirstDir(dirs, fs))
  }

  // ---------------------------------------------------------------------------
  // Command vector
  // ---------------------------------------------------------------------------

  function CommandPrefix(timeline: string, target: string): seq<string> {
    ["hayabusa", "json-timeline", "-w", "-L", "-o", timeline, "-d", target]
  }

  /** Where the optional extras start: after the fixed prefix and, if set, `--min-level <lvl>`. */
  function ExtrasOffset(cfg: Fields): nat {
    if Truthy(GetOr(cfg, "min_level", Null)) then 10 else 8
  }

  /** The command launched: the fixed prefix, `--min-level` only when a level is set, then every
      item of `extra_args` rendered with `str`. */
  function Command(cfg: Fields, timeline: string, target: string): (r: Result<seq<string>, StageError>)
    ensures r.Err? <==> Truthy(GetOr(cfg, "extra_args", Null)) && Iterate(GetOr(cfg, "extra_args", Null)).None?
    ensures r.Ok? ==> |r.value| >= ExtrasOffset(cfg) && r.value[..8] == CommandPrefix(timeline, target)
    ensures r.Ok? && Truthy(GetOr(cfg, "min_level", Null)) ==>
              r.value[8..10] == ["--min-level", Stringify(GetOr(cfg, "min_level", Null))]
    ensures r.Ok? && !Truthy(GetOr(cfg, "extra_args", Null)) ==> |r.value| == ExtrasOffset(cfg)
    ensures r.Ok? && Truthy(GetOr(cfg, "extra_args", Null)) ==>
              var items := Iterate(GetOr(cfg, "extra_args", Null)).value;
              |r.value| == ExtrasOffset(cfg) + |items| &&
              forall k :: 0 <= k < |items| ==> r.value[ExtrasOffset(cfg) + k] == Stringify(items[k])
  {
    var minLevel := GetOr(cfg, "min_level", Null);
    var base := CommandPrefix(timeline, target) +
                (if Truthy(minLevel) then ["--min-level", Stringify(minLevel)] else []);
    var extra := GetOr(cfg, "extra_args", Null);
    if !Truthy(extra) then Ok(base)
    else
      match Iterate(extra)
      case None => Err(NotIterable("extra_args"))
      case Some(items) => Ok(base + seq(|items|, k requires 0 <= k < |items| => Stringify(items[k])))
  }

  // ---------------------------------------------------------------------------
  // Severity summary
  // ---------------------------------------------------------------------------

  /** `hits_by_level`: an insertion-ordered mapping from level to count. */
  type LevelCounts = seq<(JVal, nat)>

  /** `levels.get(key, 0)`, with Python's key equality. */
  function CountOf(levels: LevelCounts, key: JVal): nat
    decreases |levels|
  {
    if |levels| == 0 then 0
    else if KeyOf(levels[0].0) == KeyOf(key) then levels[0].1
    else CountOf(levels[1..], key)
  }

  function KeySet(levels: LevelCounts): set<JVal> {
    set i | 0 <= i < |levels| :: KeyOf(levels[i].0)
  }

  /** A dictionary holds each key once. */
  predicate DistinctKeys(levels: LevelCounts) {
    forall i, j :: 0 <= i < j < |levels| ==> KeyOf(levels[i].0) != KeyOf(levels[j].0)
  }

  function Sum(levels: LevelCounts): nat
    decreases |levels|
  {
    if |levels| == 0 then 0 else levels[0].1 + Sum(levels[1..])
  }

  /** A dictionary with one more entry in front holds each key once when the rest does and
      lacks the new key. */
  lemma DistinctCons(h: (JVal, nat), t: LevelCounts)
    ensures DistinctKeys([h] + t) <==> DistinctKeys(t) && KeyOf(h.0) !in KeySet(t)
  {
    var l := [h] + t;
    assert forall i :: 0 <= i < |t| ==> l[i + 1] == t[i];
    if DistinctKeys(l) {
      assert forall i :: 0 <= i < |t| ==> KeyOf(t[i].0) == KeyOf(l[i + 1].0) != KeyOf(l[0].0);
    }
    if DistinctKeys(t) && KeyOf(h.0) !in KeySet(t) {
      forall i, j | 0 <= i < j < |l|
        ensures KeyOf(l[i].0) != KeyOf(l[j].0)
      {
        assert l[j] == t[j - 1] && KeyOf(t[j - 1].0) in KeySet(t);
        if i > 0 {
          assert l[i] == t[i - 1];
        }
      }
    }
  }

  lemma KeySetCons(h: (JVal, nat), t: LevelCounts)
    ensures KeySet([h] + t) == {KeyOf(h.0)} + KeySet(t)
  {
    var l := [h] + t;
    forall x | x in KeySet(l)
      ensures x in {KeyOf(h.0)} + KeySet(t)
    {
      var i :| 0 <= i < |l| && KeyOf(l[i].0) == x;
      if i > 0 {
        assert l[i] == t[i - 1];
      }
    }
    forall x | x in KeySet(t)
      ensures x in KeySet(l)
    {
      var i :| 0 <= i < |t| && KeyOf(t[i].0) == x;
      assert l[i + 1] == t[i];
    }
    assert l[0] == h;
  }

  /** `levels[key] = levels.get(key, 0) + 1`: the existing entry for `key` is incremented in
      place, or a new entry is appended. */
  function Bump(levels: LevelCounts, key: JVal): (r: LevelCounts)
    requires DistinctKeys(levels)
    ensures DistinctKeys(r)
    ensures KeySet(r) == KeySet(levels) + {KeyOf(key)}
    decreases |levels|
  {
    if |levels| == 0 then
      KeySetCons((key, 1), []);
      DistinctCons((key, 1), []);
      [(key, 1)]
    else
      var h, rest := levels[0], levels[1..];
      assert levels == [h] + rest;
      KeySetCons(h, rest);
      DistinctCons(h, rest);
      if KeyOf(h.0) == KeyOf(key) then
        var h' := (h.0, h.1 + 1);
        KeySetCons(h', rest);
        DistinctCons(h', rest);
        [h'] + rest
      else
        var tail := Bump(rest, key);
        KeySetCons(h, tail);
        DistinctCons(h, tail);
        [h] + tail
  }

  /** Bumping `key` adds one to the count of every key equal to it, leaves every other key's
      count alone, and adds one to the total. */
  lemma {:induction false} BumpCounts(levels: LevelCounts, key: JVal, other: JVal)
    requires DistinctKeys(levels)
    ensures CountOf(Bump(levels, key), other) ==
            CountOf(levels, other) + (if KeyOf(other) == KeyOf(key) then 1 else 0)
    ensures Sum(Bump(levels, key)) == Sum(levels) + 1
    decreases |levels|
  {
    if |levels| > 0 && KeyOf(levels[0].0) != KeyOf(key) {
      BumpCounts(levels[1..], key, other);
      assert Bump(levels, key)[1..] == Bump(levels[1..], key);
    }
  }

  /** `ev.get("level") or ev.get("lvl") or "unknown"`: the first truthy of the two fields, so
      an event is never counted under a falsy level. */
  function LevelOf(ev: Fields): (r: JVal)
    ensures Truthy(r)
    ensures Truthy(GetOr(ev, "level", Null)) ==> Get(ev, "level") == Some(r)
    ensures !Truthy(GetOr(ev, "level", Null)) && Truthy(GetOr(ev, "lvl", Null)) ==> Get(ev, "lvl") == Some(r)
    ensures !Truthy(GetOr(ev, "level", Null)) && !Truthy(GetOr(ev, "lvl", Null)) ==> r == Str("unknown")
  {
    var level := GetOr(ev, "level", Null);
    if Truthy(level) then level
    else
      var lvl := GetOr(ev, "lvl", Null);
      if Truthy(lvl) then lvl else Str("unknown")
  }

  /** What one timeline line contributes: nothing (blank), one more event that did not parse,
      an exception (a parsed value that is not a mapping, or a level that is a list or a
      mapping), or an event counted under its level. */
  datatype LineKind = Blank | Unparsed | Raises | Counted(level: JVal)

  function Classify(line: string, parse: string -> Option<JVal>): (k: LineKind)
    ensures k.Blank? <==> Strip(line) == ""
    ensures k.Counted? ==> Hashable(k.level)
    ensures k.Unparsed? <==> Strip(line) != "" && parse(Strip(line)).None?
    ensures k.Raises? <==>
              Strip(line) != "" && parse(Strip(line)).Some? &&
              (!parse(Strip(line)).value.Obj? || !Hashable(LevelOf(parse(Strip(line)).value.fields)))
    ensures k.Counted? <==>
              Strip(line) != "" && parse(Strip(line)).Some? && parse(Strip(line)).value.Obj? &&
              Hashable(LevelOf(parse(Strip(line)).value.fields))
    ensures k.Counted? ==> k.level == LevelOf(parse(Strip(line)).value.fields) && Truthy(k.level)
  {
    var t := Strip(line);
    if t == "" then Blank
    else
      match parse(t)
      case None => Unparsed
      case Some(ev) =>
        if !ev.Obj? || !Hashable(LevelOf(ev.fields)) then Raises
        else Counted(LevelOf(ev.fields))
  }

  /** The running state of the summary loop; `aborted` records an exception that ended it. */
  datatype Summary = Summary(total: nat, levels: LevelCounts, aborted: bool)

  /** One iteration of the summary loop. */
  function Tally(st: Summary, kind: LineKind): (r: Summary)
    requires DistinctKeys(st.levels)
    ensures DistinctKeys(r.levels)
  {
    if st.aborted then st
    else
      match kind
      case Blank => st
      case Unparsed => st.(total := st.total + 1)
      case Raises => Summary(st.total + 1, st.levels, true)
      case Counted(level) => Summary(st.total + 1, Bump(st.levels, level), false)
  }

  /** The classification of every timeline line. */
  function Kinds(lines: seq<string>, parse: string -> Option<JVal>): (ks: seq<LineKind>)
    ensures |ks| == |lines| && forall i :: 0 <= i < |lines| ==> ks[i] == Classify(lines[i], parse)
  {
    seq(|lines|, i requires 0 <= i < |lines| => Classify(lines[i], parse))
  }

  /** The summary over classified lines, stopping at the first line that raises. */
  function Summarize(ks: seq<LineKind>): (st: Summary)
    ensures DistinctKeys(st.levels)
    decreases |ks|
  {
    if |ks| == 0 then Summary(0, [], false)
    else Tally(Summarize(ks[..|ks| - 1]), ks[|ks| - 1])
  }

  /** Number of lines that are not blank after stripping. */
  function NonBlank(ks: seq<LineKind>): nat
    decreases |ks|
  {
    if |ks| == 0 then 0
    else NonBlank(ks[..|ks| - 1]) + (if ks[|ks| - 1].Blank? then 0 else 1)
  }

  /** Number of non-blank lines that parse. */
  function Parsed(ks: seq<LineKind>): nat
    decreases |ks|
  {
    if |ks| == 0 then 0
    else Parsed(ks[..|ks| - 1]) + (if ks[|ks| - 1].Counted? || ks[|ks| - 1].Raises? then 1 else 0)
  }

  /** Number of lines counted under level `key`. */
  function LevelHits(ks: seq<LineKind>, key: JVal): nat
    decreases |ks|
  {
    if |ks| == 0 then 0
    else
      var k := ks[|ks| - 1];
      LevelHits(ks[..|ks| - 1], key) + (if k.Counted? && KeyOf(k.level) == KeyOf(key) then 1 else 0)
  }

  /** The summary ends early exactly when some line raises. */
  lemma {:induction false} SummaryAbortsIff(ks: seq<LineKind>)
    ensures Summarize(ks).aborted <==> exists i :: 0 <= i < |ks| && ks[i].Raises?
    decreases |ks|
  {
    if |ks| > 0 {
      var init := ks[..|ks| - 1];
      SummaryAbortsIff(init);
      assert forall i :: 0 <= i < |init| ==> init[i] == ks[i];
    }
  }

  /** Without an early end, `total_events` counts the non-blank lines and the level counts add
      up to the lines that parsed. */
  lemma {:induction false} SummaryTotals(ks: seq<LineKind>)
    requires !Summarize(ks).aborted
    ensures Summarize(ks).total == NonBlank(ks)
    ensures Sum(Summarize(ks).levels) == Parsed(ks)
    decreases |ks|
  {
    if |ks| > 0 {
      var init := ks[..|ks| - 1];
      assert !Summarize(init).aborted;
      SummaryTotals(init);
      var k := ks[|ks| - 1];
      if k.Counted? {
        BumpCounts(Summarize(init).levels, k.level, k.level);
      }
    }
  }

  /** Without an early end, each level's count is the number of records with that level. */
  lemma {:induction false} SummaryLevel(ks: seq<LineKind>, key: JVal)
    requires !Summarize(ks).aborted
    ensures CountOf(Summarize(ks).levels, key) == LevelHits(ks, key)
    decreases |ks|
  {
    if |ks| > 0 {
      var init := ks[..|ks| - 1];
      assert !Summarize(init).aborted;
      SummaryLevel(init, key);
      var k := ks[|ks| - 1];
      var st := Summarize(init);
      assert Summarize(ks) == Tally(st, k);
      if k.Counted? {
        BumpCounts(st.levels, k.level, key);
        assert Summarize(ks).levels == Bump(st.levels, k.level);
        assert LevelHits(ks, key) == LevelHits(init, key) + (if KeyOf(k.level) == KeyOf(key) then 1 else 0);
      } else {
        assert Summarize(ks).levels == st.levels;
        assert LevelHits(ks, key) == LevelHits(init, key);
      }
    }
  }

  lemma SummaryLevels(ks: seq<LineKind>)
    requires !Summarize(ks).aborted
    ensures forall key :: CountOf(Summarize(ks).levels, key) == LevelHits(ks, key)
  {
    forall key {
      SummaryLevel(ks, key);
    }
  }

  /** Whatever happens, the level counts never exceed `total_events`, which never exceeds the
      number of non-blank lines. */
  lemma {:induction false} SummaryBounds(ks: seq<LineKind>)
    ensures Sum(Summarize(ks).levels) <= Summarize(ks).total <= NonBlank(ks)
    decreases |ks|
  {
    if |ks| > 0 {
      var init := ks[..|ks| - 1];
      SummaryBounds(init);
      var k := ks[|ks| - 1];
      if k.Counted? && !Summarize(init).aborted {
        BumpCounts(Summarize(init).levels, k.level, k.level);
      }
    }
  }

  /** Once the loop has ended early, later lines change nothing. */
  lemma {:induction false} AbortedStays(ks: seq<LineKind>, i: nat)
    requires i <= |ks| && Summarize(ks[..i]).aborted
    ensures Summarize(ks) == Summarize(ks[..i])
    decreases |ks| - i
  {
    if i < |ks| {
      assert ks[..i + 1][..i] == ks[..i];
      AbortedStays(ks, i + 1);
    } else {
      assert ks[..i] == ks;
    }
  }

  /** The summary of one more line is one more tally. */
  lemma SummarizeStep(ks: seq<LineKind>, i: nat)
    requires i < |ks|
    ensures Summarize(ks[..i + 1]) == Tally(Summarize(ks[..i]), ks[i])
  {
    assert ks[..i + 1][..i] == ks[..i];
  }

  /** The summary loop over the timeline lines, leaving it at the first exception. */
  method SummarizeTimeline(lines: seq<string>, parse: string -> Option<JVal>)
    returns (total: nat, levels: LevelCounts)
    ensures Summarize(Kinds(lines, parse)) == Summary(total, levels, Summarize(Kinds(lines, parse)).aborted)
  {
    var ks := Kinds(lines, parse);
    total, levels := TallyKinds(ks);
  }

  /** The loop body over classified lines: a blank line is skipped, every other line is counted,
      a parsed event also counts under its level, and the first line that raises ends the loop. */
  method TallyKinds(ks: seq<LineKind>) returns (total: nat, levels: LevelCounts)
    ensures Summarize(ks) == Summary(total, levels, Summarize(ks).aborted)
  {
    total, levels := 0, [];
    var i := 0;
    while i < |ks|
      invariant 0 <= i <= |ks|
      invariant Summarize(ks[..i]) == Summary(total, levels, false)
    {
      SummarizeStep(ks, i);
      match ks[i] {
        case Blank =>
        case Unparsed =>
          total := total + 1;
        case Raises =>
          total := total + 1;
          AbortedStays(ks, i + 1);
          return;
        case Counted(level) =>
          total := total + 1;
          levels := Bump(levels, level);
      }
      i := i + 1;
    }
    assert ks[..i] == ks;
  }

  // ---------------------------------------------------------------------------
  // The stage
  // ---------------------------------------------------------------------------

  /** How launching Hayabusa ended: no binary on the `PATH`, another launch exception, or an exit. */
  datatype RunOutcome = BinaryMissing | Raised | Exited(code: int, output: string)

  /** The returned paths plus the summary document written beside the timeline. */
  datatype HayabusaRun = HayabusaRun(
    timeline: string, summary: string, sourceDir: string,
    command: seq<string>, totalEvents: nat, hitsByLevel: LevelCounts)

  function OutputDir(outdir: string): string {
    PathJoin(outdir, "hayabusa_out")
  }

  /** `run_hayabusa`. `timelineLines` are the lines read from the timeline before the end of the
      file or a read error (none if it cannot be opened). */
  function RunHayabusa(profile: JVal, evidence: string, outdir: string, fs: FileSystem, run: RunOutcome,
                       timelineLines: seq<string>, parse: string -> Option<JVal>)
    : (r: Result<Option<HayabusaRun>, StageError>)
    ensures StageConfig(profile).Err? ==> r.Err?
    ensures StageConfig(profile).Ok? && !Enabled(StageConfig(profile).value.1) ==> r == Ok(None)
    ensures r.Ok? && r.value.Some? ==> run.Exited? && run.code == 0
    ensures StageConfig(profile).Ok? && Enabled(StageConfig(profile).value.1) ==>
              var root := StageConfig(profile).value.0;
              var cfg := StageConfig(profile).value.1;
              var target := SelectTarget(root, cfg, evidence, outdir, fs);
              (target.Err? ==> r.Err?) &&
              (target == Ok(None) ==> r == Ok(None)) &&
              (target.Ok? && target.value.Some? ==>
                 var cmd := Command(cfg, PathJoin(OutputDir(outdir), "hayabusa_timeline.jsonl"), target.value.value);
                 (cmd.Err? ==> r.Err?) &&
                 (cmd.Ok? ==> r.Ok? && (r.value.Some? <==> run.Exited? && run.code == 0)))
  {
    match StageConfig(profile)
    case Err(e) => Err(e)
    case Ok((root, cfg)) =>
      if !Enabled(cfg) then Ok(None)
      else
        match SelectTarget(root, cfg, evidence, outdir, fs)
        case Err(e) => Err(e)
        case Ok(None) => Ok(None)
        case Ok(Some(target)) =>
          var timeline := PathJoin(OutputDir(outdir), "hayabusa_timeline.jsonl");
          match Command(cfg, timeline, target)
          case Err(e) => Err(e)
          case Ok(cmd) =>
            if !(run.Exited? && run.code == 0) then Ok(None)
            else
              var st := Summarize(Kinds(timelineLines, parse));
              Ok(Some(HayabusaRun(timeline, PathJoin(OutputDir(outdir), "hayabusa_summary.json"),
                                  target, cmd, st.total, st.levels)))
  }

  /** A completed run reports an existing source directory, the fixed output paths, the command
      it launched on them, and counts bounded by the timeline's non-blank lines. */
  lemma RunHayabusaOutput(profile: JVal, evidence: string, outdir: string, fs: FileSystem, run: RunOutcome,
                          timelineLines: seq<string>, parse: string -> Option<JVal>)
    requires RunHayabusa(profile, evidence, outdir, fs, run, timelineLines, parse).Ok?
    requires RunHayabusa(profile, evidence, outdir, fs, run, timelineLines, parse).value.Some?
    ensures var out := RunHayabusa(profile, evidence, outdir, fs, run, timelineLines, parse).value.value;
            out.sourceDir in fs.dirs &&
            out.timeline == PathJoin(OutputDir(outdir), "hayabusa_timeline.jsonl") &&
            out.summary == PathJoin(OutputDir(outdir), "hayabusa_summary.json") &&
            |out.command| >= 8 && out.command[..8] == CommandPrefix(out.timeline, out.sourceDir) &&
            Sum(out.hitsByLevel) <= out.totalEvents <= NonBlank(Kinds(timelineLines, parse))
    ensures var out := RunHayabusa(profile, evidence, outdir, fs, run, timelineLines, parse).value.value;
            var (root, cfg) := StageConfig(profile).value;
            out.sourceDir == SelectTarget(root, cfg, evidence, outdir, fs).value.value &&
            out.command == Command(cfg, out.timeline, out.sourceDir).value &&
            out.totalEvents == Summarize(Kinds(timelineLines, parse)).total &&
            out.hitsByLevel == Summarize(Kinds(timelineLines, parse)).levels
  {
    var (root, cfg) := StageConfig(profile).value;
    var target := SelectTarget(root, cfg, evidence, outdir, fs).value.value;
    var timeline := PathJoin(OutputDir(outdir), "hayabusa_timeline.jsonl");
    var cmd := Command(cfg, timeline, target).value;
    SummaryBounds(Kinds(timelineLines, parse));
    var out := RunHayabusa(profile, evidence, outdir, fs, run, timelineLines, parse).value.value;
    assert out.sourceDir == target && out.timeline == timeline && out.command == cmd;
  }

  /** A disabled stage returns before looking at any directory, launching anything or reading the
      timeline: its result does not depend on them. */
  lemma DisabledIgnoresEnvironment(profile: JVal, evidence: string, outdir: string,
                                   fs: FileSystem, fs': FileSystem, run: RunOutcome, run': RunOutcome,
                                   lines: seq<string>, lines': seq<string>,
                                   parse: string -> Option<JVal>, parse': string -> Option<JVal>)
    requires StageConfig(profile).Ok? && !Enabled(StageConfig(profile).value.1)
    ensures RunHayabusa(profile, evidence, outdir, fs, run, lines, parse) == Ok(None)
    ensures RunHayabusa(profile, evidence, outdir, fs, run, lines, parse) ==
            RunHayabusa(profile, evidence, outdir, fs', run', lines', parse')
  {
  }

  /** A failed or impossible launch makes the stage give up quietly instead of raising. */
  lemma FailedRunSkips(profile: JVal, evidence: string, outdir: string, fs: FileSystem, run: RunOutcome,
                       lines: seq<string>, parse: string -> Option<JVal>)
    requires !(run.Exited? && run.code == 0)
    ensures RunHayabusa(profile, evidence, outdir, fs, run, lines, parse).Ok? ==>
              RunHayabusa(profile, evidence, outdir, fs, run, lines, parse) == Ok(None)
  {
  }
}

=== FILE: json.dfy ===
/** Parsed JSON / YAML values and the Python built-ins the pipeline applies to them. */
module Json {
  import opened Base

  /** A value produced by `json.loads` or `yaml.safe_load`. An object is an ordered list of
      (key, value) entries, because Python dictionaries keep insertion order; the parsers
      produce distinct keys. */
  datatype JVal =
    | Null
    | Bool(b: bool)
    | Int(i: int)
    | Str(s: string)
    | Arr(items: seq<JVal>)
    | Obj(fields: seq<(string, JVal)>)

  type Fields = seq<(string, JVal)>

  /** `key in d` for a dictionary. */
  predicate HasKey(fields: Fields, key: string) {
    exists i :: 0 <= i < |fields| && fields[i].0 == key
  }

  /** `d.get(key)`: the value stored under `key`, if any. */
  function Get(fields: Fields, key: string): (r: Option<JVal>)
    ensures r.Some? <==> HasKey(fields, key)
    ensures r.Some? ==> exists i :: 0 <= i < |fields| && fields[i] == (key, r.value)
  {
    if |fields| == 0 then None
    else if fields[0].0 == key then Some(fields[0].1)
    else
      var r := Get(fields[1..], key);
      assert forall i :: 1 <= i < |fields| ==> fields[i] == fields[1..][i - 1];
      r
  }

  /** `d.get(key, default)`. */
  function GetOr(fields: Fields, key: string, default: JVal): JVal {
    Get(fields, key).GetOr(default)
  }

  /** Python truthiness: `None`, `False`, `0`, `""`, `[]` and `{}` are false. */
  predicate Truthy(v: JVal) {
    match v
    case Null => false
    case Bool(b) => b
    case Int(i) => i != 0
    case Str(s) => |s| > 0
    case Arr(items) => |items| > 0
    case Obj(fields) => |fields| > 0
  }

  /** The decimal digit character for `d`. */
  function DigitChar(d: nat): char
    requires d < 10
  {
    ('0' as int + d) as char
  }

  /** Decimal rendering of a natural number. */
  function NatToString(n: nat): string
    decreases n
  {
    if n < 10 then [DigitChar(n)] else NatToString(n / 10) + [DigitChar(n % 10)]
  }

  /** `str(i)` for a Python `int`. */
  function IntToString(i: int): string {
    if i < 0 then "-" + NatToString(-i) else NatToString(i)
  }

  /** Joins rendered elements with `", "`, as Python's container `repr` does. */
  function CommaJoin(parts: seq<string>): string {
    if |parts| == 0 then ""
    else if |parts| == 1 then parts[0]
    else parts[0] + ", " + CommaJoin(parts[1..])
  }

  /** `repr(v)`: strings are quoted with single quotes (escaping is not modelled). */
  function Repr(v: JVal): string
    decreases v, 0
  {
    match v
    case Null => "None"
    case Bool(b) => if b then "True" else "False"
    case Int(i) => IntToString(i)
    case Str(s) => "'" + s + "'"
    case Arr(items) =>
      "[" + CommaJoin(seq(|items|, k requires 0 <= k < |items| => Repr(items[k]))) + "]"
    case Obj(fields) =>
      "{" + CommaJoin(seq(|fields|, k requires 0 <= k < |fields| =>
                            "'" + fields[k].0 + "': " + Repr(fields[k].1))) + "}"
  }

  /** `str(v)`: a string is itself, every other value is its `repr`. */
  function Stringify(v: JVal): (r: string)
    ensures v.Str? ==> r == v.s
  {
    match v
    case Str(s) => s
    case _ => Repr(v)
  }

  /** `(d.get(key) or {})` when the result is used as a mapping: a falsy value becomes the empty
      mapping, a mapping is kept, and anything else is `None` because the next `.get` raises. */
  function Section(fields: Fields, key: string): (r: Option<Fields>)
    ensures !Truthy(GetOr(fields, key, Null)) ==> r == Some([])
    ensures r.Some? && |r.value| > 0 ==> Get(fields, key) == Some(Obj(r.value))
    ensures r.None? <==> Truthy(GetOr(fields, key, Null)) && !GetOr(fields, key, Null).Obj?
  {
    var v := GetOr(fields, key, Null);
    if !Truthy(v) then Some([])
    else if v.Obj? then Some(v.fields)
    else None
  }

  /** `(d.get(outer) or {}).get(inner) or {}`: a section nested in another, `None` when either
      level is a truthy non-mapping. */
  function SubSection(fields: Fields, outer: string, inner: string): (r: Option<Fields>)
    ensures r.None? <==> Section(fields, outer).None? || Section(Section(fields, outer).value, inner).None?
    ensures r.Some? ==> r == Section(Section(fields, outer).value, inner)
  {
    match Section(fields, outer)
    case None => None
    case Some(section) => Section(section, inner)
  }

  /** `(v or {})` for a whole document used as a mapping. */
  function AsMapping(v: JVal): (r: Option<Fields>)
    ensures r.None? <==> Truthy(v) && !v.Obj?
    ensures v.Obj? ==> r == Some(v.fields)
  {
    if !Truthy(v) then Some([]) else if v.Obj? then Some(v.fields) else None
  }

  /** `for x in v`: a list yields its items, a string its characters and a mapping its keys;
      other values are not iterable (`TypeError`). */
  function Iterate(v: JVal): (r: Option<seq<JVal>>)
    ensures r.None? <==> v.Null? || v.Bool? || v.Int?
    ensures v.Arr? ==> r == Some(v.items)
    ensures v.Str? ==> r.Some? && |r.value| == |v.s| && forall k :: 0 <= k < |v.s| ==> r.value[k] == Str([v.s[k]])
    ensures v.Obj? ==> r.Some? && |r.value| == |v.fields| && forall k :: 0 <= k < |v.fields| ==> r.value[k] == Str(v.fields[k].0)
  {
    match v
    case Arr(items) => Some(items)
    case Str(s) => Some(seq(|s|, k requires 0 <= k < |s| => Str([s[k]])))
    case Obj(fields) => Some(seq(|fields|, k requires 0 <= k < |fields| => Str(fields[k].0)))
    case _ => None
  }

  /** The identity of a value used as a dictionary key: `True == 1` and `False == 0` in Python,
      and they hash alike. */
  function KeyOf(v: JVal): JVal {
    match v
    case Bool(b) => Int(if b then 1 else 0)
    case _ => v
  }

  /** Whether a value may be used as a dictionary key: lists and mappings are unhashable. */
  predicate Hashable(v: JVal) {
    !v.Arr? && !v.Obj?
  }

  /** Looking a key up in two consecutive runs of entries: the first run wins. */
  lemma GetAppend(a: Fields, b: Fields, key: string)
    ensures Get(a + b, key) == if HasKey(a, key) then Get(a, key) else Get(b, key)
    ensures HasKey(a + b, key) <==> HasKey(a, key) || HasKey(b, key)
    decreases |a|
  {
    if |a| > 0 {
      assert (a + b)[1..] == a[1..] + b;
      GetAppend(a[1..], b, key);
    } else {
      assert a + b == b;
    }
  }
}

=== FILE: memory.dfy ===
/** The MemProcFS stage of `src/pipeline/memory.py`: its early exits, the discovery of a memory
    image, the argument vector given to the library, the capped per-process listings, the
    per-process summary and the event-log copy filter. The library's objects are maps from
    attribute name to the outcome of reading that attribute; directory walks, existing paths and
    the library session are inputs. */
module Memory {
  import opened Base
  import opened Json
  import opened Text
  import opened Paths

  // ---------------------------------------------------------------------------
  // Attribute access (`_safe_getattr`)
  // ---------------------------------------------------------------------------

  /** Reading one attribute of a library object: absent, raising, or a value. */
  datatype Attr = Missing | Raises | Present(value: JVal)

  /** A library object: the outcome of reading each attribute; unlisted names are absent. */
  type LibObject = map<string, Attr>

  /** `_safe_getattr(obj, name, default)`: the attribute's value, or the default when reading it
      fails for any reason. */
  function SafeGetAttr(attr: Attr, default: JVal): (r: JVal)
    ensures attr.Present? ==> r == attr.value
    ensures !attr.Present? ==> r == default
  {
    match attr
    case Present(v) => v
    case _ => default
  }

  function AttrOf(obj: LibObject, name: string): Attr {
    if name in obj then obj[name] else Missing
  }

  /** `{name: _safe_getattr(obj, name) for name in names}`, in order. */
  function Snapshot(obj: LibObject, names: seq<string>): (r: Fields)
    ensures |r| == |names|
    ensures forall k :: 0 <= k < |names| ==> r[k] == (names[k], SafeGetAttr(AttrOf(obj, names[k]), Null))
  {
    seq(|names|, k requires 0 <= k < |names| => (names[k], SafeGetAttr(AttrOf(obj, names[k]), Null)))
  }

  const ProcessAttributes: seq<string> := [
    "pid", "ppid", "name", "fullname", "pathuser", "pathkernel", "is_wow64", "is_usermode",
    "session", "sid", "integrity", "cmdline", "exitcode", "time_create", "time_exit",
    "time_create_str", "time_exit_str"
  ]

  const ModuleAttributes: seq<string> := [
    "name", "fullname", "is_wow64", "base", "file_size", "image_size",
    "count_section", "count_eat", "count_iat"
  ]

  // ---------------------------------------------------------------------------
  // `int(...)` of a configuration value
  // ---------------------------------------------------------------------------

  predicate IsDigit(c: char) {
    '0' <= c <= '9'
  }

  predicate AllDigits(s: string) {
    forall k :: 0 <= k < |s| ==> IsDigit(s[k])
  }

  /** The value of a run of decimal digits. */
  function DigitsValue(s: string): nat
    requires AllDigits(s)
    decreases |s|
  {
    if |s| == 0 then 0 else DigitsValue(s[..|s| - 1]) * 10 + (s[|s| - 1] as int - '0' as int)
  }

  /** `int(s)` for a string: optional surrounding whitespace, an optional sign, then decimal
      digits; anything else raises (`None`). */
  function ParseInt(s: string): (r: Option<int>)
    ensures r.Some? ==> Strip(s) != ""
  {
    ParseSigned(Strip(s))
  }

  /** The sign-and-digits part of `int(s)`, once the whitespace is gone. */
  function ParseSigned(t: string): (r: Option<int>)
    ensures r.Some? ==> t != ""
    ensures r.Some? <==> (|t| > 0 && AllDigits(t)) || (|t| > 1 && (t[0] == '+' || t[0] == '-') && AllDigits(t[1..]))
    ensures r.Some? && AllDigits(t) ==> r.value == DigitsValue(t)
    ensures r.Some? && t[0] == '+' ==> r.value == DigitsValue(t[1..])
    ensures r.Some? && t[0] == '-' ==> r.value == 0 - DigitsValue(t[1..])
  {
    var signed := |t| > 0 && (t[0] == '+' || t[0] == '-');
    var body := if signed then t[1..] else t;
    if |body| > 0 && AllDigits(body) then
      var magnitude: int := DigitsValue(body);
      Some(if signed && t[0] == '-' then -magnitude else magnitude)
    else None
  }

  lemma {:induction false} NatToStringDigits(n: nat)
    ensures |NatToString(n)| > 0 && AllDigits(NatToString(n))
    ensures DigitsValue(NatToString(n)) == n
    decreases n
  {
    var s := NatToString(n);
    if n >= 10 {
      NatToStringDigits(n / 10);
      assert s[..|s| - 1] == NatToString(n / 10);
    }
  }

  /** `int(str(i)) == i`: parsing undoes decimal rendering. */
  lemma ParseIntOfString(i: int)
    ensures ParseInt(IntToString(i)) == Some(i)
  {
    var n: nat := if i < 0 then -i else i;
    NatToStringDigits(n);
    if i < 0 {
      ParseNegatedDigits(NatToString(n));
    } else {
      ParseDigits(NatToString(n));
    }
  }

  /** A run of digits is already stripped and parses to its value. */
  lemma ParseDigits(d: string)
    requires |d| > 0 && AllDigits(d)
    ensures ParseInt(d) == Some(DigitsValue(d))
  {
    assert IsDigit(d[0]) && IsDigit(d[|d| - 1]);
    StripUnchanged(d);
  }

  /** A minus sign followed by a run of digits is already stripped and parses to the negated
      value. */
  lemma ParseNegatedDigits(d: string)
    requires |d| > 0 && AllDigits(d)
    ensures ParseInt("-" + d) == Some(0 - DigitsValue(d))
  {
    var m := "-" + d;
    NegSigned(d);
    assert IsDigit(d[|d| - 1]) && m[|m| - 1] == d[|d| - 1];
    StripUnchanged(m);
  }

  lemma NegSigned(d: string)
    requires |d| > 0 && AllDigits(d)
    ensures ParseSigned("-" + d) == Some(0 - DigitsValue(d))
  {
    var m := "-" + d;
    assert m[0] == '-';
    assert m[1..] == d;
  }

  /** `int(v)`: integers as they are, booleans as 0 and 1, strings parsed; other values raise. */
  function PyInt(v: JVal): (r: Option<int>)
    ensures v.Int? ==> r == Some(v.i)
    ensures v.Null? || v.Arr? || v.Obj? ==> r.None?
    ensures v.Str? ==> r == ParseInt(v.s)
  {
    match v
    case Int(i) => Some(i)
    case Bool(b) => Some(if b then 1 else 0)
    case Str(s) => ParseInt(s)
    case _ => None
  }

  // ---------------------------------------------------------------------------
  // Capped listings (`_serialize_process`)
  // ---------------------------------------------------------------------------

  /** `handles[:max]` when the listing is a list longer than `max`, with the truncation flag. A
      negative cap keeps Python's slice meaning: all but the last `-max` entries. */
  function Truncate(v: JVal, max: int): (r: (JVal, bool))
    ensures r.1 <==> v.Arr? && |v.items| > max
    ensures !r.1 ==> r.0 == v
    ensures r.1 ==> r.0.Arr? && |r.0.items| <= |v.items| && r.0.items == v.items[..|r.0.items|]
    ensures r.1 && max >= 0 ==> |r.0.items| == max
    ensures r.1 && max < 0 ==> |r.0.items| == (if |v.items| + max > 0 then |v.items| + max else 0)
    ensures r.0.Arr? && max >= 0 ==> |r.0.items| <= max
  {
    if v.Arr? && |v.items| > max then
      var keep := if max >= 0 then max else if |v.items| + max > 0 then |v.items| + max else 0;
      (Arr(v.items[..keep]), true)
    else (v, false)
  }

  /** A listing already within a non-negative cap is left alone, so capping twice is capping once. */
  lemma TruncateIdempotent(v: JVal, max: int)
    requires max >= 0
    ensures Truncate(Truncate(v, max).0, max) == (Truncate(v, max).0, false)
  {
  }

  /** What the library returned for one process. `modules` are the modules enumerated before the
      end of the list or an error; `handles`, `threads` and `unloaded` are `None` when the call
      raised. */
  datatype ProcessView = ProcessView(
    attrs: LibObject, modules: seq<LibObject>,
    handles: Option<JVal>, threads: Option<JVal>, unloaded: Option<JVal>)

  datatype ProcessOptions = ProcessOptions(
    includeModules: bool, includeHandles: bool, includeThreads: bool, includeUnloaded: bool,
    maxHandles: int, maxThreads: int)

  /** The entries for one capped listing: the flag (only when cut) and the listing itself. */
  function Capped(key: string, flag: string, listing: Option<JVal>, wanted: bool, max: int): (r: Fields)
    requires key != flag
    ensures HasKey(r, key) <==> wanted && listing.Some?
    ensures HasKey(r, key) ==> Get(r, key) == Some(Truncate(listing.value, max).0)
    ensures HasKey(r, flag) <==> wanted && listing.Some? && listing.value.Arr? && |listing.value.items| > max
    ensures forall k :: k != key && k != flag ==> !HasKey(r, k)
  {
    if !wanted || listing.None? then []
    else
      var (v, cut) := Truncate(listing.value, max);
      var r := if cut then [(flag, Bool(true)), (key, v)] else [(key, v)];
      assert r[|r| - 1] == (key, v);
      assert cut ==> r[0].0 == flag;
      r
  }

  /** `_serialize_process`: the attribute snapshot, then each requested listing. */
  function SerializeProcess(p: ProcessView, opts: ProcessOptions): (info: Fields)
    ensures |info| >= |ProcessAttributes| && info[..|ProcessAttributes|] == Snapshot(p.attrs, ProcessAttributes)
  {
    var head := Snapshot(p.attrs, ProcessAttributes);
    var info := head + ModulesEntry(p, opts) + HandlesEntry(p, opts) + ThreadsEntry(p, opts) + UnloadedEntry(p, opts);
    assert info[..|head|] == head;
    info
  }

  function ModulesEntry(p: ProcessView, opts: ProcessOptions): (r: Fields)
    ensures forall k :: k != "modules" ==> !HasKey(r, k)
    ensures HasKey(r, "modules") <==> opts.includeModules
    ensures opts.includeModules ==>
              var v := Get(r, "modules").value;
              v.Arr? && |v.items| == |p.modules| &&
              forall k :: 0 <= k < |p.modules| ==> v.items[k] == Obj(Snapshot(p.modules[k], ModuleAttributes))
  {
    if opts.includeModules then
      var r := [("modules", Arr(seq(|p.modules|, k requires 0 <= k < |p.modules| => Obj(Snapshot(p.modules[k], ModuleAttributes)))))];
      assert r[0].0 == "modules";
      r
    else []
  }

  function HandlesEntry(p: ProcessView, opts: ProcessOptions): Fields {
    Capped("handles", "handles_truncated", p.handles, opts.includeHandles, opts.maxHandles)
  }

  function ThreadsEntry(p: ProcessView, opts: ProcessOptions): Fields {
    Capped("threads", "threads_truncated", p.threads, opts.includeThreads, opts.maxThreads)
  }

  function UnloadedEntry(p: ProcessView, opts: ProcessOptions): (r: Fields)
    ensures forall k :: k != "unloaded_modules" ==> !HasKey(r, k)
    ensures HasKey(r, "unloaded_modules") <==> opts.includeUnloaded && p.unloaded.Some?
    ensures HasKey(r, "unloaded_modules") ==> Get(r, "unloaded_modules") == p.unloaded
  {
    if opts.includeUnloaded && p.unloaded.Some? then
      var r := [("unloaded_modules", p.unloaded.value)];
      assert r[0].0 == "unloaded_modules";
      r
    else []
  }

  /** The pid of a serialised process is the library's pid attribute. */
  lemma SerializeProcessPid(p: ProcessView, opts: ProcessOptions)
    ensures Get(SerializeProcess(p, opts), "pid") == Some(SafeGetAttr(AttrOf(p.attrs, "pid"), Null))
  {
    SerializedPid(Snapshot(p.attrs, ProcessAttributes), ModulesEntry(p, opts), HandlesEntry(p, opts),
                  ThreadsEntry(p, opts), UnloadedEntry(p, opts));
  }

  /** The handle listing is present exactly when requested and available, cut to its cap, and
      flagged exactly when it was cut. */
  lemma SerializeProcessHandles(p: ProcessView, opts: ProcessOptions)
    ensures var info := SerializeProcess(p, opts);
            (HasKey(info, "handles") <==> opts.includeHandles && p.handles.Some?) &&
            (HasKey(info, "handles") ==> Get(info, "handles") == Some(Truncate(p.handles.value, opts.maxHandles).0)) &&
            (HasKey(info, "handles_truncated") <==>
               opts.includeHandles && p.handles.Some? && p.handles.value.Arr? && |p.handles.value.items| > opts.maxHandles)
  {
    SerializedListing(p, opts, "handles");
    SerializedListing(p, opts, "handles_truncated");
  }

  /** The thread listing is present exactly when requested and available, cut to its cap, and
      flagged exactly when it was cut. */
  lemma SerializeProcessThreads(p: ProcessView, opts: ProcessOptions)
    ensures var info := SerializeProcess(p, opts);
            (HasKey(info, "threads") <==> opts.includeThreads && p.threads.Some?) &&
            (HasKey(info, "threads") ==> Get(info, "threads") == Some(Truncate(p.threads.value, opts.maxThreads).0)) &&
            (HasKey(info, "threads_truncated") <==>
               opts.includeThreads && p.threads.Some? && p.threads.value.Arr? && |p.threads.value.items| > opts.maxThreads)
  {
    SerializedListing(p, opts, "threads");
    SerializedListing(p, opts, "threads_truncated");
  }

  /** The pid is the first snapshot attribute, and no later entry hides it. */
  lemma SerializedPid(head: Fields, modules: Fields, handles: Fields, threads: Fields, unloaded: Fields)
    requires |head| == |ProcessAttributes| && forall k :: 0 <= k < |head| ==> head[k].0 == ProcessAttributes[k]
    ensures head[0].0 == "pid" && Get(head + modules + handles + threads + unloaded, "pid") == Some(head[0].1)
  {
    GetAppend(head + modules + handles + threads, unloaded, "pid");
    GetAppend(head + modules + handles, threads, "pid");
    GetAppend(head + modules, handles, "pid");
    GetAppend(head, modules, "pid");
    assert HasKey(head, "pid") by { assert head[0].0 == "pid"; }
    assert Get(head, "pid") == Some(head[0].1);
  }

  lemma ListingNotAttribute(k: string)
    requires k in {"handles", "handles_truncated", "threads", "threads_truncated"}
    ensures k !in ProcessAttributes
  {
  }

  /** A key that only the two capped listings can hold is looked up in them: the snapshot names,
      `modules` and `unloaded_modules` are all different from it. */
  lemma SerializedListing(p: ProcessView, opts: ProcessOptions, k: string)
    requires k in {"handles", "handles_truncated", "threads", "threads_truncated"}
    ensures var info := SerializeProcess(p, opts);
            var handles, threads := HandlesEntry(p, opts), ThreadsEntry(p, opts);
            Get(info, k) == (if HasKey(handles, k) then Get(handles, k) else Get(threads, k)) &&
            (HasKey(info, k) <==> HasKey(handles, k) || HasKey(threads, k))
  {
    var head, modules := Snapshot(p.attrs, ProcessAttributes), ModulesEntry(p, opts);
    var handles, threads, unloaded := HandlesEntry(p, opts), ThreadsEntry(p, opts), UnloadedEntry(p, opts);
    ListingNotAttribute(k);
    assert !HasKey(head, k) by {
      assert forall j :: 0 <= j < |head| ==> head[j].0 == ProcessAttributes[j];
    }
    assert !HasKey(modules, k) && !HasKey(unloaded, k);
    LookupBetween(head, modules, handles, threads, unloaded, k);
    assert SerializeProcess(p, opts) == head + modules + handles + threads + unloaded;
  }

  /** A key absent from the outer parts of a concatenation is looked up in its middle parts. */
  lemma LookupBetween(head: Fields, modules: Fields, handles: Fields, threads: Fields, unloaded: Fields, k: string)
    requires !HasKey(head, k) && !HasKey(modules, k) && !HasKey(unloaded, k)
    ensures var all := head + modules + handles + threads + unloaded;
            Get(all, k) == (if HasKey(handles, k) then Get(handles, k) else Get(threads, k)) &&
            (HasKey(all, k) <==> HasKey(handles, k) || HasKey(threads, k))
  {
    GetAppend(head + modules + handles + threads, unloaded, k);
    GetAppend(head + modules + handles, threads, k);
    GetAppend(head + modules, handles, k);
    GetAppend(head, modules, k);
  }

  // ---------------------------------------------------------------------------
  // Process summary (`_collect_process_data`)
  // ---------------------------------------------------------------------------

  predicate SortedInts(s: seq<int>) {
    forall i, j :: 0 <= i < j < |s| ==> s[i] <= s[j]
  }

  lemma ConsSortedInts(h: int, t: seq<int>)
    requires SortedInts(t)
    requires forall y :: y in t ==> h <= y
    ensures SortedInts([h] + t)
  {
    var s := [h] + t;
    forall i, j | 0 <= i < j < |s|
      ensures s[i] <= s[j]
    {
      if i > 0 {
        assert s[i] == t[i - 1] && s[j] == t[j - 1];
      } else {
        assert s[j] in t;
      }
    }
  }

  lemma SortedIntsTail(s: seq<int>)
    requires SortedInts(s) && |s| > 0
    ensures SortedInts(s[1..])
  {
    assert forall i :: 0 <= i < |s| - 1 ==> s[1..][i] == s[i + 1];
  }

  function InsertInt(x: int, s: seq<int>): (r: seq<int>)
    requires SortedInts(s)
    ensures SortedInts(r)
    ensures multiset(r) == multiset(s) + multiset{x}
    decreases |s|
  {
    if |s| == 0 || x <= s[0] then
      LeastInts(x, s);
      ConsSortedInts(x, s);
      [x] + s
    else
      SortedIntsTail(s);
      var rest := InsertInt(x, s[1..]);
      assert s == [s[0]] + s[1..];
      HeadBelowInserted(s, x, rest);
      ConsSortedInts(s[0], rest);
      [s[0]] + rest
  }

  /** A value no greater than the head of a sorted list is no greater than any of its elements. */
  lemma LeastInts(x: int, s: seq<int>)
    requires SortedInts(s) && (|s| == 0 || x <= s[0])
    ensures forall y :: y in s ==> x <= y
  {
    forall y | y in s
      ensures x <= y
    {
      var j :| 0 <= j < |s| && s[j] == y;
    }
  }

  /** Inserting a larger value into the tail keeps the head below every element. */
  lemma HeadBelowInserted(s: seq<int>, x: int, rest: seq<int>)
    requires SortedInts(s) && |s| > 0 && s[0] < x
    requires multiset(rest) == multiset(s[1..]) + multiset{x}
    ensures forall y :: y in rest ==> s[0] <= y
  {
    forall y | y in rest
      ensures s[0] <= y
    {
      assert y in multiset(rest);
      if y != x {
        assert y in multiset(s[1..]);
        var j :| 0 <= j < |s[1..]| && s[1..][j] == y;
        assert s[j + 1] == y;
      }
    }
  }

  /** `sorted(s)` for integers: a sorted permutation of `s`. */
  function SortInts(s: seq<int>): (r: seq<int>)
    ensures SortedInts(r)
    ensures multiset(r) == multiset(s)
    decreases |s|
  {
    if |s| == 0 then []
    else
      assert s == [s[0]] + s[1..];
      InsertInt(s[0], SortInts(s[1..]))
  }

  /** The pids of the serialised processes that are not `None`, in order. */
  function PidsOf(infos: seq<Fields>): (r: seq<JVal>)
    ensures forall v :: v in r <==> v != Null && exists i :: 0 <= i < |infos| && GetOr(infos[i], "pid", Null) == v
    decreases |infos|
  {
    if |infos| == 0 then []
    else
      var init := infos[..|infos| - 1];
      var pid := GetOr(infos[|infos| - 1], "pid", Null);
      assert forall i :: 0 <= i < |init| ==> init[i] == infos[i];
      PidsOf(init) + (if pid != Null then [pid] else [])
  }

  /** A single serialised process contributes its pid unless it is `None`. */
  lemma PidsOfOne(info: Fields)
    ensures PidsOf([info]) == if GetOr(info, "pid", Null) != Null then [GetOr(info, "pid", Null)] else []
  {
    assert [info][..0] == [];
  }

  /** Pids are collected in listing order: the pids of a concatenation are those of each part in turn. */
  lemma {:induction false} PidsOfAppend(a: seq<Fields>, b: seq<Fields>)
    ensures PidsOf(a + b) == PidsOf(a) + PidsOf(b)
    decreases |b|
  {
    if |b| == 0 {
      assert a + b == a;
    } else {
      var b' := b[..|b| - 1];
      var pid := GetOr(b[|b| - 1], "pid", Null);
      var extra := if pid != Null then [pid] else [];
      assert (a + b)[..|a + b| - 1] == a + b';
      assert (a + b)[|a + b| - 1] == b[|b| - 1];
      PidsOfAppend(a, b');
      assert PidsOf(a) + PidsOf(b') + extra == PidsOf(a) + (PidsOf(b') + extra);
    }
  }

  /** The integers of a list made only of integers. */
  function AsInts(vs: seq<JVal>): (r: Option<seq<int>>)
    ensures r.Some? <==> forall k :: 0 <= k < |vs| ==> vs[k].Int?
    ensures r.Some? ==> |r.value| == |vs| && forall k :: 0 <= k < |vs| ==> vs[k] == Int(r.value[k])
    decreases |vs|
  {
    if |vs| == 0 then Some([])
    else
      var init := vs[..|vs| - 1];
      assert forall k :: 0 <= k < |init| ==> init[k] == vs[k];
      match AsInts(init)
      case None => None
      case Some(ints) => if vs[|vs| - 1].Int? then Some(ints + [vs[|vs| - 1].i]) else None
  }

  /** A sorted copy of the integers of `vs` holds exactly the integers found in `vs`. */
  lemma SortedMembers(vs: seq<JVal>, ints: seq<int>, sorted: seq<int>)
    requires |ints| == |vs| && forall k :: 0 <= k < |vs| ==> vs[k] == Int(ints[k])
    requires multiset(sorted) == multiset(ints)
    ensures |sorted| == |vs|
    ensures forall p :: p in sorted <==> Int(p) in vs
  {
    assert |sorted| == |multiset(sorted)| == |multiset(ints)| == |ints|;
    forall p
      ensures p in sorted <==> Int(p) in vs
    {
      assert p in sorted <==> p in multiset(ints);
      if p in ints {
        var k :| 0 <= k < |ints| && ints[k] == p;
        assert vs[k] == Int(p);
      }
      if Int(p) in vs {
        var k :| 0 <= k < |vs| && vs[k] == Int(p);
        assert ints[k] == p;
      }
    }
  }

  /** Why a step of the stage raised. */
  datatype Failure = NotAMapping(key: string) | NotAnInt(key: string) | NotAPath(key: string) | Unsortable

  datatype ProcessSummary = ProcessSummary(processCount: nat, pids: seq<int>)

  /** The summary written beside the process listing: how many processes were serialised and
      their pids in ascending order. Pids other than integers are treated as unorderable. */
  function SummarizeProcesses(infos: seq<Fields>): (r: Result<ProcessSummary, Failure>)
    ensures r.Err? <==> exists v :: v in PidsOf(infos) && !v.Int?
    ensures r.Ok? ==> r.value.processCount == |infos|
    ensures r.Ok? ==> SortedInts(r.value.pids)
    ensures r.Ok? ==> forall p :: p in r.value.pids <==> exists i :: 0 <= i < |infos| && GetOr(infos[i], "pid", Null) == Int(p)
    ensures r.Ok? ==> |r.value.pids| == |PidsOf(infos)|
    ensures r.Ok? ==> AsInts(PidsOf(infos)).Some? && multiset(r.value.pids) == multiset(AsInts(PidsOf(infos)).value)
  {
    var pids := PidsOf(infos);
    match AsInts(pids)
    case None =>
      var k :| 0 <= k < |pids| && !pids[k].Int?;
      assert pids[k] in pids;
      Err(Unsortable)
    case Some(ints) =>
      var sorted := SortInts(ints);
      SortedMembers(pids, ints, sorted);
      assert forall v :: v in pids ==> v.Int? by {
        forall v | v in pids ensures v.Int? {
          var k :| 0 <= k < |pids| && pids[k] == v;
        }
      }
      Ok(ProcessSummary(|infos|, sorted))
  }

  /** The per-process collection options, read with `int(...)` for the caps. */
  function ProcessOptionsOf(cfg: Fields): (r: Result<ProcessOptions, Failure>)
    ensures r.Ok? && !HasKey(cfg, "max_handles_per_process") ==> r.value.maxHandles == 2000
    ensures r.Ok? && !HasKey(cfg, "max_threads_per_process") ==> r.value.maxThreads == 2000
    ensures r.Ok? && !HasKey(cfg, "include_modules") ==> r.value.includeModules
    ensures r.Err? <==> PyInt(GetOr(cfg, "max_handles_per_process", Int(2000))).None? ||
                        PyInt(GetOr(cfg, "max_threads_per_process", Int(2000))).None?
    ensures PyInt(GetOr(cfg, "max_handles_per_process", Int(2000))).None? ==> r == Err(NotAnInt("max_handles_per_process"))
    ensures r.Ok? ==>
              PyInt(GetOr(cfg, "max_handles_per_process", Int(2000))) == Some(r.value.maxHandles) &&
              PyInt(GetOr(cfg, "max_threads_per_process", Int(2000))) == Some(r.value.maxThreads)
    ensures r.Ok? ==>
              (r.value.includeModules <==> !HasKey(cfg, "include_modules") || Truthy(Get(cfg, "include_modules").value)) &&
              (r.value.includeHandles <==> !HasKey(cfg, "include_handles") || Truthy(Get(cfg, "include_handles").value)) &&
              (r.value.includeThreads <==> !HasKey(cfg, "include_threads") || Truthy(Get(cfg, "include_threads").value)) &&
              (r.value.includeUnloaded <==>
                 !HasKey(cfg, "include_unloaded_modules") || Truthy(Get(cfg, "include_unloaded_modules").value))
  {
    var maxHandles := PyInt(GetOr(cfg, "max_handles_per_process", Int(2000)));
    var maxThreads := PyInt(GetOr(cfg, "max_threads_per_process", Int(2000)));
    if maxHandles.None? then Err(NotAnInt("max_handles_per_process"))
    else if maxThreads.None? then Err(NotAnInt("max_threads_per_process"))
    else
      Ok(ProcessOptions(
        Truthy(GetOr(cfg, "include_modules", Bool(true))),
        Truthy(GetOr(cfg, "include_handles", Bool(true))),
        Truthy(GetOr(cfg, "include_threads", Bool(true))),
        Truthy(GetOr(cfg, "include_unloaded_modules", Bool(true))),
        maxHandles.value, maxThreads.value))
  }

  /** The outcome of `_collect_process_data`: no process list (its paths are then not reported),
      or the serialised processes, their summary and the two files written. */
  datatype ProcessData =
    | NoProcessList
    | Collected(infos: seq<Fields>, summary: ProcessSummary, listingPath: string, summaryPath: string)

  /** Every process serialised with the same options, in order. */
  function SerializeAll(ps: seq<ProcessView>, opts: ProcessOptions): (infos: seq<Fields>)
    ensures |infos| == |ps| && forall i :: 0 <= i < |ps| ==> infos[i] == SerializeProcess(ps[i], opts)
  {
    seq(|ps|, i requires 0 <= i < |ps| => SerializeProcess(ps[i], opts))
  }

  /** A pid attribute that makes the summary's `sorted` raise: present, and not an integer. */
  predicate UnorderablePid(p: ProcessView) {
    var pid := SafeGetAttr(AttrOf(p.attrs, "pid"), Null);
    pid != Null && !pid.Int?
  }

  /** Where the stage writes its files: `outdir / name`, printed as pathlib prints it. */
  function ListingPath(outdir: string): string {
    SubPath(outdir, "memprocfs_processes.jsonl")
  }

  function SummaryPath(outdir: string): string {
    SubPath(outdir, "memprocfs_summary.json")
  }

  function EventlogDefault(outdir: string): string {
    SubPath(outdir, "memprocfs_eventlogs")
  }

  /** For an output directory pathlib has nothing to normalise in, the stage's paths are the
      plain joins; a directory such as `./out` or `.` is reported without its `.` part. */
  lemma StagePathsPlain(outdir: string)
    requires PlainPath(outdir)
    ensures ListingPath(outdir) == PathJoin(outdir, "memprocfs_processes.jsonl")
    ensures SummaryPath(outdir) == PathJoin(outdir, "memprocfs_summary.json")
    ensures EventlogDefault(outdir) == PathJoin(outdir, "memprocfs_eventlogs")
    ensures ListingPath("./" + outdir) == PathJoin(outdir, "memprocfs_processes.jsonl")
    ensures ListingPath(".") == "memprocfs_processes.jsonl"
  {
    SubPathDropsDotPrefix(outdir, "memprocfs_processes.jsonl");
    SubPathOfCurrentDir("memprocfs_processes.jsonl");
  }

  /** The files `_collect_process_data` writes for an enumerated process list: the serialised
      processes and their summary, or the exception `sorted` raises on the pids. */
  function CollectListing(ps: seq<ProcessView>, opts: ProcessOptions, outdir: string): (r: Result<ProcessData, Failure>)
    ensures r.Err? <==> exists i :: 0 <= i < |ps| && UnorderablePid(ps[i])
    ensures r.Ok? ==>
              var infos := SerializeAll(ps, opts);
              SummarizeProcesses(infos).Ok? &&
              r.value == Collected(infos, SummarizeProcesses(infos).value,
                                   ListingPath(outdir), SummaryPath(outdir))
  {
    var infos := SerializeAll(ps, opts);
    SerializedPids(ps, opts);
    match SummarizeProcesses(infos)
    case Err(e) => Err(e)
    case Ok(summary) =>
      Ok(Collected(infos, summary, ListingPath(outdir),
                   SummaryPath(outdir)))
  }

  /** `_collect_process_data`. `processes` is `None` when enumerating them raised. */
  function CollectProcessData(processes: Option<seq<ProcessView>>, cfg: Fields, outdir: string)
    : (r: Result<ProcessData, Failure>)
    ensures ProcessOptionsOf(cfg).Err? ==> r.Err?
    ensures ProcessOptionsOf(cfg).Ok? && processes.None? ==> r == Ok(NoProcessList)
    ensures r.Ok? && r.value.Collected? ==>
              processes.Some? && |r.value.infos| == |processes.value| == r.value.summary.processCount &&
              forall i :: 0 <= i < |processes.value| ==>
                r.value.infos[i] == SerializeProcess(processes.value[i], ProcessOptionsOf(cfg).value)
    ensures ProcessOptionsOf(cfg).Ok? && processes.Some? ==>
              (r.Err? <==> exists i :: 0 <= i < |processes.value| && UnorderablePid(processes.value[i]))
    ensures ProcessOptionsOf(cfg).Ok? && processes.Some? && r.Ok? ==>
              var infos := SerializeAll(processes.value, ProcessOptionsOf(cfg).value);
              SummarizeProcesses(infos).Ok? &&
              r.value == Collected(infos, SummarizeProcesses(infos).value,
                                   ListingPath(outdir), SummaryPath(outdir))
  {
    match ProcessOptionsOf(cfg)
    case Err(e) => Err(e)
    case Ok(opts) =>
      match processes
      case None => Ok(NoProcessList)
      case Some(ps) => CollectListing(ps, opts, outdir)
  }

  /** A serialised listing holds a pid that cannot be sorted exactly when some process's pid
      attribute is present and not an integer. */
  lemma SerializedPids(ps: seq<ProcessView>, opts: ProcessOptions)
    ensures (exists v :: v in PidsOf(SerializeAll(ps, opts)) && !v.Int?) <==>
            exists i :: 0 <= i < |ps| && UnorderablePid(ps[i])
  {
    var infos := SerializeAll(ps, opts);
    forall i | 0 <= i < |ps|
      ensures GetOr(infos[i], "pid", Null) == SafeGetAttr(AttrOf(ps[i].attrs, "pid"), Null)
    {
      SerializeProcessPid(ps[i], opts);
    }
  }

  // ---------------------------------------------------------------------------
  // Event-log copy (`_copy_eventlogs`)
  // ---------------------------------------------------------------------------

  const DefaultMaxEventlogBytes: int := 64 * 1024 * 1024

  /** One entry of `/misc/eventlog`: its name, its metadata and whether reading it succeeds. */
  datatype EventlogEntry = EventlogEntry(name: string, meta: Fields, readable: bool)

  /** The directory listing, or a failure to list it. */
  datatype Listing = ListFails | Entries(entries: seq<EventlogEntry>)

  predicate IsDirEntry(e: EventlogEntry) {
    Truthy(GetOr(e.meta, "f_isdir", Null))
  }

  /** `int(meta.get("size", 0))`. */
  function SizeOf(e: EventlogEntry): Option<int> {
    PyInt(GetOr(e.meta, "size", Int(0)))
  }

  /** An entry is written iff it is not a directory, its size is in `1..maxBytes` and it reads. */
  predicate Copies(e: EventlogEntry, maxBytes: int) {
    !IsDirEntry(e) && SizeOf(e).Some? && 0 < SizeOf(e).value <= maxBytes && e.readable
  }

  /** An entry whose size cannot be converted ends the copy with an exception. */
  predicate Breaks(e: EventlogEntry) {
    !IsDirEntry(e) && SizeOf(e).None?
  }

  /** The names written so far and whether the copy ended with an exception. */
  datatype CopyState = CopyState(copied: seq<string>, failed: bool)

  function CopyStep(st: CopyState, e: EventlogEntry, maxBytes: int): CopyState {
    if st.failed then st
    else if Breaks(e) then st.(failed := true)
    else if Copies(e, maxBytes) then st.(copied := st.copied + [e.name])
    else st
  }

  /** The copy loop over the listed entries. */
  function CopyAll(entries: seq<EventlogEntry>, maxBytes: int): CopyState
    decreases |entries|
  {
    if |entries| == 0 then CopyState([], false)
    else CopyStep(CopyAll(entries[..|entries| - 1], maxBytes), entries[|entries| - 1], maxBytes)
  }

  /** Every written name belongs to an entry that passes the filter, and the copy never writes
      more names than there are entries. */
  lemma {:induction false} CopyAllSound(entries: seq<EventlogEntry>, maxBytes: int)
    ensures var st := CopyAll(entries, maxBytes);
            (forall n :: n in st.copied ==> exists i :: 0 <= i < |entries| && entries[i].name == n && Copies(entries[i], maxBytes)) &&
            |st.copied| <= |entries|
    decreases |entries|
  {
    if |entries| > 0 {
      var init := entries[..|entries| - 1];
      CopyAllSound(init, maxBytes);
      assert forall i :: 0 <= i < |init| ==> init[i] == entries[i];
    }
  }

  /** The copy ends with an exception exactly when some entry's size cannot be converted. */
  lemma {:induction false} CopyAllFails(entries: seq<EventlogEntry>, maxBytes: int)
    ensures CopyAll(entries, maxBytes).failed <==> exists i :: 0 <= i < |entries| && Breaks(entries[i])
    decreases |entries|
  {
    if |entries| > 0 {
      var init := entries[..|entries| - 1];
      CopyAllFails(init, maxBytes);
      assert forall i :: 0 <= i < |init| ==> init[i] == entries[i];
    }
  }

  /** Without an exception every entry that passes the filter is written. */
  lemma {:induction false} CopyAllComplete(entries: seq<EventlogEntry>, maxBytes: int)
    ensures var st := CopyAll(entries, maxBytes);
            !st.failed ==> forall i :: 0 <= i < |entries| && Copies(entries[i], maxBytes) ==> entries[i].name in st.copied
    decreases |entries|
  {
    if |entries| > 0 {
      var init := entries[..|entries| - 1];
      CopyAllComplete(init, maxBytes);
      assert forall i :: 0 <= i < |init| ==> init[i] == entries[i];
    }
  }

  /** Reference filter: the names of the entries that pass, in listing order. */
  function Written(entries: seq<EventlogEntry>, maxBytes: int): seq<string>
    decreases |entries|
  {
    if |entries| == 0 then []
    else (if Copies(entries[0], maxBytes) then [entries[0].name] else []) + Written(entries[1..], maxBytes)
  }

  lemma {:induction false} WrittenAppend(entries: seq<EventlogEntry>, e: EventlogEntry, maxBytes: int)
    ensures Written(entries + [e], maxBytes) == Written(entries, maxBytes) + (if Copies(e, maxBytes) then [e.name] else [])
    decreases |entries|
  {
    if |entries| > 0 {
      assert (entries + [e])[1..] == entries[1..] + [e];
      WrittenAppend(entries[1..], e, maxBytes);
    }
  }

  /** Without an exception the written names are exactly the passing entries, in listing
      order, so `copied` counts exactly the entries written. */
  lemma {:induction false} CopyAllWritten(entries: seq<EventlogEntry>, maxBytes: int)
    ensures !CopyAll(entries, maxBytes).failed ==> CopyAll(entries, maxBytes).copied == Written(entries, maxBytes)
    decreases |entries|
  {
    if |entries| > 0 {
      var init := entries[..|entries| - 1];
      var e := entries[|entries| - 1];
      CopyAllWritten(init, maxBytes);
      assert entries == init + [e];
      WrittenAppend(init, e, maxBytes);
    }
  }

  /** `_copy_eventlogs`: a listing failure copies nothing and is not an error. */
  function CopyEventlogs(listing: Listing, maxBytes: int): (r: CopyState)
    ensures listing.ListFails? ==> r == CopyState([], false)
    ensures listing.Entries? ==> r == CopyAll(listing.entries, maxBytes)
  {
    match listing
    case ListFails => CopyState([], false)
    case Entries(entries) => CopyAll(entries, maxBytes)
  }

  // ---------------------------------------------------------------------------
  // Device discovery (`_auto_discover_device`)
  // ---------------------------------------------------------------------------

  /** One step of `os.walk`: a directory and the names of its files. */
  datatype WalkStep = WalkStep(root: string, files: seq<string>)

  const ImageSuffixes: set<string> := {".raw", ".vmem", ".dmp", ".bin"}

  predicate IsImageName(name: string) {
    Lower(Suffix(name)) in ImageSuffixes
  }

  /** The index of the first name in `files` that `p` accepts. */
  function FirstWhere(files: seq<string>, p: string -> bool): (r: Option<nat>)
    ensures r.None? <==> forall j :: 0 <= j < |files| ==> !p(files[j])
    ensures r.Some? ==> r.value < |files| && p(files[r.value]) && forall j :: 0 <= j < r.value ==> !p(files[j])
    decreases |files|
  {
    if |files| == 0 then None
    else if p(files[0]) then Some(0)
    else
      var r := FirstWhere(files[1..], p);
      assert forall j :: 1 <= j < |files| ==> files[j] == files[1..][j - 1];
      if r.Some? then Some(r.value + 1) else None
  }

  /** Position `j` of walk step `i` holds the first file of the walk that `p` accepts. */
  predicate FirstMatchAt(walk: seq<WalkStep>, p: string -> bool, i: int, j: int) {
    0 <= i < |walk| && 0 <= j < |walk[i].files| && p(walk[i].files[j]) &&
    (forall i', j' :: 0 <= i' < i && 0 <= j' < |walk[i'].files| ==> !p(walk[i'].files[j'])) &&
    (forall j' :: 0 <= j' < j ==> !p(walk[i].files[j']))
  }

  /** The first walked file that `p` accepts, joined to its root. */
  function FirstMatch(walk: seq<WalkStep>, p: string -> bool): (r: Option<string>)
    ensures r.None? <==> forall i, j :: 0 <= i < |walk| && 0 <= j < |walk[i].files| ==> !p(walk[i].files[j])
    ensures r.Some? ==> exists i, j :: FirstMatchAt(walk, p, i, j) && r.value == PathJoin(walk[i].root, walk[i].files[j])
    decreases |walk|
  {
    if |walk| == 0 then None
    else
      match FirstWhere(walk[0].files, p)
      case Some(j) =>
        assert FirstMatchAt(walk, p, 0, j);
        Some(PathJoin(walk[0].root, walk[0].files[j]))
      case None =>
        var rest := walk[1..];
        var r := FirstMatch(rest, p);
        if r.Some? then
          var i, j :| FirstMatchAt(rest, p, i, j) && r.value == PathJoin(rest[i].root, rest[i].files[j]);
          FirstMatchShift(walk, p, i, j);
          r
        else
          assert forall i :: 1 <= i < |walk| ==> walk[i] == rest[i - 1];
          r
  }

  /** Behind a first step without a match, the first match of the remaining walk is the first
      match of the whole walk. */
  lemma FirstMatchShift(walk: seq<WalkStep>, p: string -> bool, i: int, j: int)
    requires |walk| > 0 && forall j' :: 0 <= j' < |walk[0].files| ==> !p(walk[0].files[j'])
    requires FirstMatchAt(walk[1..], p, i, j)
    ensures FirstMatchAt(walk, p, i + 1, j)
    ensures walk[i + 1] == walk[1..][i]
  {
    var rest := walk[1..];
    forall i', j' | 0 <= i' < i + 1 && 0 <= j' < |walk[i'].files|
      ensures !p(walk[i'].files[j'])
    {
      if i' > 0 {
        assert walk[i'] == rest[i' - 1];
      }
    }
  }

  /** `_auto_discover_device`: the first walked file whose lower-cased suffix names a memory
      image, joined to its root; `None` when the walk holds no image. */
  function AutoDiscoverDevice(walk: seq<WalkStep>): (r: Option<string>)
    ensures r.None? <==> forall i, j :: 0 <= i < |walk| && 0 <= j < |walk[i].files| ==> !IsImageName(walk[i].files[j])
    ensures r.Some? ==> exists i, j :: FirstMatchAt(walk, IsImageName, i, j) && r.value == PathJoin(walk[i].root, walk[i].files[j])
  {
    FirstMatch(walk, IsImageName)
  }

  // ---------------------------------------------------------------------------
  // Argument vector
  // ---------------------------------------------------------------------------

  /** `extra_args`: a list contributes each item rendered with `str`, a non-blank string its
      whitespace-separated words, anything else nothing. */
  function ExtraArgs(extra: JVal): (r: seq<string>)
    ensures extra.Arr? ==> |r| == |extra.items| && forall k :: 0 <= k < |r| ==> r[k] == Stringify(extra.items[k])
    ensures extra.Str? ==> r == Words(extra.s)
    ensures !extra.Arr? && !extra.Str? ==> r == []
  {
    match extra
    case Arr(items) => seq(|items|, k requires 0 <= k < |items| => Stringify(items[k]))
    case Str(s) =>
      StripEmptyIffBlank(s);
      WordsEmptyIffBlank(s);
      if Strip(s) != "" then Words(s) else []
    case _ => []
  }

  /** A string of words separated by single spaces gives back exactly those words. */
  lemma ExtraArgsOfWords(ws: seq<string>)
    requires forall k :: 0 <= k < |ws| ==> |ws[k]| > 0 && NoSpace(ws[k])
    ensures ExtraArgs(Str(Unwords(ws))) == ws
  {
    WordsUnwords(ws);
  }

  function ForensicArgs(memCfg: Fields): seq<string> {
    if Truthy(GetOr(memCfg, "forensic", Bool(true))) then ["-forensic", "1"] else []
  }

  /** The arguments handed to the library: the device, forensic mode unless switched off, then
      the extra arguments. */
  function DeviceArgs(device: string, memCfg: Fields): (r: seq<string>)
    ensures |r| >= 2 && r[..2] == ["-device", device]
    ensures !HasKey(memCfg, "forensic") ==> |r| >= 4 && r[2..4] == ["-forensic", "1"]
    ensures Truthy(GetOr(memCfg, "forensic", Bool(true))) ==>
              |r| >= 4 && r[2..4] == ["-forensic", "1"] && r[4..] == ExtraArgs(GetOr(memCfg, "extra_args", Arr([])))
    ensures !Truthy(GetOr(memCfg, "forensic", Bool(true))) ==> r[2..] == ExtraArgs(GetOr(memCfg, "extra_args", Arr([])))
    ensures var n := 2 + |ForensicArgs(memCfg)|;
            n <= |r| && r[n..] == ExtraArgs(GetOr(memCfg, "extra_args", Arr([])))
  {
    assert !HasKey(memCfg, "forensic") ==> ForensicArgs(memCfg) == ["-forensic", "1"];
    var r := ["-device", device] + ForensicArgs(memCfg) + ExtraArgs(GetOr(memCfg, "extra_args", Arr([])));
    assert r[2 + |ForensicArgs(memCfg)|..] == ExtraArgs(GetOr(memCfg, "extra_args", Arr([])));
    r
  }

  // ---------------------------------------------------------------------------
  // The stage (`run_memprocfs`)
  // ---------------------------------------------------------------------------

  /** The library session opened on the arguments: the process list (`None` if enumerating it
      raises) and the event-log directory listing. */
  datatype Session = Session(processes: Option<seq<ProcessView>>, eventlogs: Listing)

  /** What the stage finds around it: whether the library imports, the walk of the evidence
      directory, the paths that exist, and the session opened for an argument vector (`None`
      when opening raises). */
  datatype Environment = Environment(
    libraryPresent: bool, walk: seq<WalkStep>, existing: set<string>,
    openSession: seq<string> -> Option<Session>)

  /** The returned metadata (an ordered mapping) and what the stage computed along the way. */
  datatype MemoryRun = MemoryRun(
    meta: seq<(string, string)>, args: seq<string>,
    processData: Result<ProcessData, Failure>, eventlogs: Option<CopyState>)

  /** The `memory.memprocfs` section of a loaded profile (`None` when loading failed). */
  function MemoryConfig(profile: Option<JVal>): (r: Result<Fields, Failure>)
    ensures profile.None? ==> r == Ok([])
    ensures var doc := profile.GetOr(Obj([]));
            (r.Err? <==> AsMapping(doc).None? || SubSection(AsMapping(doc).value, "memory", "memprocfs").None?) &&
            (r.Ok? ==> SubSection(AsMapping(doc).value, "memory", "memprocfs") == Some(r.value))
  {
    match AsMapping(profile.GetOr(Obj([])))
    case None => Err(NotAMapping("profile"))
    case Some(root) =>
      match Section(root, "memory")
      case None => Err(NotAMapping("memory"))
      case Some(memory) =>
        match Section(memory, "memprocfs")
        case None => Err(NotAMapping("memprocfs"))
        case Some(memCfg) => Ok(memCfg)
  }

  /** The device: the configured one when set, otherwise the first image found by the walk. */
  function Device(memCfg: Fields, walk: seq<WalkStep>): (r: Result<Option<string>, Failure>)
    ensures !Truthy(GetOr(memCfg, "device", Null)) ==> r == Ok(AutoDiscoverDevice(walk))
    ensures Truthy(GetOr(memCfg, "device", Null)) ==>
              (r.Ok? <==> GetOr(memCfg, "device", Null).Str?) &&
              (r.Ok? ==> r.value == Some(GetOr(memCfg, "device", Null).s))
  {
    var configured := GetOr(memCfg, "device", Null);
    if !Truthy(configured) then Ok(AutoDiscoverDevice(walk))
    else if configured.Str? then Ok(Some(configured.s))
    else Err(NotAPath("device"))
  }

  /** The event-log step: the cap and the destination directory are read first; the directory
      is reported only when the copy ends without an exception. */
  function EventlogStep(memCfg: Fields, outdir: string, listing: Listing): (r: (Option<CopyState>, Option<string>))
    ensures r.1.Some? ==> r.0.Some? && !r.0.value.failed
    ensures r.0.Some? ==> PyInt(GetOr(memCfg, "max_eventlog_bytes", Int(DefaultMaxEventlogBytes))).Some? &&
                          r.0.value == CopyEventlogs(listing, PyInt(GetOr(memCfg, "max_eventlog_bytes", Int(DefaultMaxEventlogBytes))).value)
    ensures var dir := GetOr(memCfg, "eventlog_dir", Str(EventlogDefault(outdir)));
            (r.0.Some? <==> PyInt(GetOr(memCfg, "max_eventlog_bytes", Int(DefaultMaxEventlogBytes))).Some? && dir.Str?) &&
            (r.1.Some? <==> r.0.Some? && !r.0.value.failed) &&
            (r.1.Some? ==> r.1.value == PurePath(dir.s)) &&
            (r.1.Some? && PlainPath(dir.s) ==> r.1.value == dir.s)
    ensures r.1.Some? && !HasKey(memCfg, "eventlog_dir") ==> r.1.value == EventlogDefault(outdir)
  {
    match PyInt(GetOr(memCfg, "max_eventlog_bytes", Int(DefaultMaxEventlogBytes)))
    case None => (None, None)
    case Some(maxBytes) =>
      var dir := GetOr(memCfg, "eventlog_dir", Str(EventlogDefault(outdir)));
      if !dir.Str? then (None, None)
      else
        var st := CopyEventlogs(listing, maxBytes);
        PurePathIdempotent(PathJoin(outdir, "memprocfs_eventlogs"));
        assert PlainPath(dir.s) ==> PurePath(dir.s) == dir.s by {
          if PlainPath(dir.s) { PurePathPlain(dir.s); }
        }
        (Some(st), if st.failed then None else Some(PurePath(dir.s)))
  }

  /** The entries the process step adds to the metadata. */
  function ProcessMeta(data: Result<ProcessData, Failure>): seq<(string, string)> {
    if data.Ok? && data.value.Collected? then
      [("processes_jsonl", data.value.listingPath), ("processes_summary", data.value.summaryPath)]
    else []
  }

  /** The returned metadata: the device, the process files when collected, and the event-log
      directory when the copy ran to the end. */
  function StageMeta(device: string, data: Result<ProcessData, Failure>, evtxDir: Option<string>)
    : seq<(string, string)>
  {
    [("device", device)] + ProcessMeta(data) + (if evtxDir.Some? then [("eventlogs_dir", evtxDir.value)] else [])
  }

  /** Whether the metadata holds an entry under `key`. */
  predicate HasEntry(meta: seq<(string, string)>, key: string) {
    exists i :: 0 <= i < |meta| && meta[i].0 == key
  }

  /** The metadata is a mapping (no key twice) that starts with the device; it names the process
      files iff the listing was collected, and the event-log directory iff one was reported, as
      its last entry. */
  lemma StageMetaKeys(device: string, data: Result<ProcessData, Failure>, evtxDir: Option<string>)
    ensures var meta := StageMeta(device, data, evtxDir);
            forall i, j :: 0 <= i < j < |meta| ==> meta[i].0 != meta[j].0
    ensures var meta := StageMeta(device, data, evtxDir);
            meta[0] == ("device", device) &&
            (HasEntry(meta, "processes_jsonl") <==> data.Ok? && data.value.Collected?) &&
            (HasEntry(meta, "processes_summary") <==> data.Ok? && data.value.Collected?) &&
            (HasEntry(meta, "eventlogs_dir") <==> evtxDir.Some?) &&
            (evtxDir.Some? ==> meta[|meta| - 1] == ("eventlogs_dir", evtxDir.value))
  {
    var meta := StageMeta(device, data, evtxDir);
    var pm := ProcessMeta(data);
    forall i | 0 <= i < |meta|
      ensures meta[i].0 == (if i == 0 then "device" else if i <= |pm| then pm[i - 1].0 else "eventlogs_dir")
    {
    }
    if data.Ok? && data.value.Collected? {
      assert meta[1].0 == "processes_jsonl" && meta[2].0 == "processes_summary";
    }
    if evtxDir.Some? {
      assert meta[|meta| - 1].0 == "eventlogs_dir";
    }
  }

  /** `run_memprocfs`. */
  function RunMemprocfs(evidence: string, profile: Option<JVal>, outdir: string, env: Environment)
    : (r: Result<Option<MemoryRun>, Failure>)
    ensures MemoryConfig(profile).Err? ==> r.Err?
    ensures MemoryConfig(profile).Ok? && !Truthy(GetOr(MemoryConfig(profile).value, "enabled", Null)) ==> r == Ok(None)
    ensures !env.libraryPresent ==> r.Err? || r == Ok(None)
    ensures r.Ok? && r.value.Some? ==>
              var run := r.value.value;
              var memCfg := MemoryConfig(profile).value;
              env.libraryPresent && Truthy(GetOr(memCfg, "enabled", Null)) &&
              |run.meta| >= 1 && run.meta[0].0 == "device" &&
              run.meta[0].1 in env.existing && run.meta[0].1 != "" &&
              run.args == DeviceArgs(run.meta[0].1, memCfg) &&
              Device(memCfg, env.walk) == Ok(Some(run.meta[0].1)) &&
              env.openSession(run.args).Some?
    ensures MemoryConfig(profile).Ok? ==>
              var memCfg := MemoryConfig(profile).value;
              var device := Device(memCfg, env.walk);
              (r.Err? <==> Truthy(GetOr(memCfg, "enabled", Null)) && env.libraryPresent && device.Err?) &&
              (r.Ok? && r.value.Some? <==>
                 Truthy(GetOr(memCfg, "enabled", Null)) && env.libraryPresent &&
                 device.Ok? && device.value.Some? && device.value.value != "" &&
                 device.value.value in env.existing &&
                 env.openSession(DeviceArgs(device.value.value, memCfg)).Some?)
    ensures r.Ok? && r.value.Some? ==>
              var run := r.value.value;
              var memCfg := MemoryConfig(profile).value;
              var session := env.openSession(run.args).value;
              var processCfg := GetOr(memCfg, "processes", Obj([]));
              var (copy, evtxDir) := EventlogStep(memCfg, outdir, session.eventlogs);
              run.processData == (if processCfg.Obj? then CollectProcessData(session.processes, processCfg.fields, outdir)
                                  else Err(NotAMapping("processes"))) &&
              run.eventlogs == copy &&
              run.meta == StageMeta(run.meta[0].1, run.processData, evtxDir)
  {
    match MemoryConfig(profile)
    case Err(e) => Err(e)
    case Ok(memCfg) =>
      if !Truthy(GetOr(memCfg, "enabled", Null)) then Ok(None)
      else if !env.libraryPresent then Ok(None)
      else
        match Device(memCfg, env.walk)
        case Err(e) => Err(e)
        case Ok(device) =>
          if device.None? || device.value == "" || device.value !in env.existing then Ok(None)
          else
            var args := DeviceArgs(device.value, memCfg);
            match env.openSession(args)
            case None => Ok(None)
            case Some(session) =>
              var processCfg := GetOr(memCfg, "processes", Obj([]));
              var data := if processCfg.Obj? then CollectProcessData(session.processes, processCfg.fields, outdir)
                          else Err(NotAMapping("processes"));
              var (copy, evtxDir) := EventlogStep(memCfg, outdir, session.eventlogs);
              var meta := StageMeta(device.value, data, evtxDir);
              Ok(Some(MemoryRun(meta, args, data, copy)))
  }

  /** A disabled stage returns before importing, walking, or opening anything: its result does
      not depend on the environment. */
  lemma DisabledIgnoresEnvironment(evidence: string, profile: Option<JVal>, outdir: string,
                                   env: Environment, env': Environment)
    requires MemoryConfig(profile).Ok? && !Truthy(GetOr(MemoryConfig(profile).value, "enabled", Null))
    ensures RunMemprocfs(evidence, profile, outdir, env) == Ok(None)
    ensures RunMemprocfs(evidence, profile, outdir, env) == RunMemprocfs(evidence, profile, outdir, env')
  {
  }

  /** With no device configured and no image in the evidence, the stage is skipped. */
  lemma NoImageSkips(evidence: string, profile: Option<JVal>, outdir: string, env: Environment)
    requires MemoryConfig(profile).Ok? && !Truthy(GetOr(MemoryConfig(profile).value, "device", Null))
    requires forall i, j :: 0 <= i < |env.walk| && 0 <= j < |env.walk[i].files| ==> !IsImageName(env.walk[i].files[j])
    ensures RunMemprocfs(evidence, profile, outdir, env) == Ok(None)
  {
  }
}

=== FILE: paths.dfy ===
/** The POSIX path helpers the stages use to name their inputs and outputs. */
module Paths {
  import opened Text

  /** `os.path.join(a, b)` on POSIX: an absolute `b` replaces `a`; otherwise `b` follows `a`,
      with exactly one `/` inserted when `a` is non-empty and does not already end in one. */
  function PathJoin(a: string, b: string): (r: string)
    ensures StartsWith(b, "/") ==> r == b
    ensures !StartsWith(b, "/") ==> EndsWith(r, b) && StartsWith(r, a)
    ensures !StartsWith(b, "/") && (|a| == 0 || EndsWith(a, "/")) ==> |r| == |a| + |b|
    ensures !StartsWith(b, "/") && |a| > 0 && !EndsWith(a, "/") ==> |r| == |a| + 1 + |b| && r[|a|] == '/'
  {
    if StartsWith(b, "/") then b
    else if |a| == 0 || EndsWith(a, "/") then a + b
    else a + "/" + b
  }

  /** `PurePath(p).name`: the last `/`-separated component, which is all of `p` when `p` has no
      `/` and otherwise the text after the last `/`. */
  function FileName(p: string): (r: string)
    ensures '/' !in r
    ensures EndsWith(p, r)
    ensures '/' !in p ==> r == p
    ensures '/' in p ==> |r| < |p| && p[|p| - |r| - 1] == '/'
  {
    var parts := Split(p, '/');
    LastPartIsSuffix(parts, '/');
    assert |parts| == 1 ==> p == parts[0];
    parts[|parts| - 1]
  }

  lemma {:induction false} LastPartIsSuffix(parts: seq<string>, sep: char)
    requires |parts| >= 1
    ensures EndsWith(Join(parts, sep), parts[|parts| - 1])
    ensures |parts| > 1 ==> var j := Join(parts, sep); |j| > |parts[|parts| - 1]| && j[|j| - |parts[|parts| - 1]| - 1] == sep
    decreases |parts|
  {
    if |parts| > 1 {
      LastPartIsSuffix(parts[1..], sep);
      var j := Join(parts[1..], sep);
      var last := parts[|parts| - 1];
      var whole := parts[0] + [sep] + j;
      assert parts[1..][|parts[1..]| - 1] == last;
      assert whole[|whole| - |last|..] == j[|j| - |last|..];
      if |parts| == 2 {
        assert j == last;
        assert whole[|whole| - |last| - 1] == sep;
      } else {
        assert whole[|whole| - |last| - 1] == j[|j| - |last| - 1];
      }
    }
  }

  /** The name of a joined path is the name that was joined, whenever that name is a single
      relative component. */
  lemma FileNameOfJoin(dir: string, name: string)
    requires name != "" && '/' !in name
    ensures FileName(PathJoin(dir, name)) == name
  {
  }

  /** Index of the last occurrence of `c` in `s`, or -1. */
  function LastIndexOf(s: string, c: char): (i: int)
    ensures -1 <= i < |s|
    ensures 0 <= i ==> s[i] == c
    ensures forall k :: i < k < |s| ==> s[k] != c
    decreases |s|
  {
    if |s| == 0 then -1
    else if s[|s| - 1] == c then |s| - 1
    else LastIndexOf(s[..|s| - 1], c)
  }

  /** `PurePath(name).suffix` of a file name: from the last `.` on, provided that dot is neither
      the first nor the last character; otherwise empty. */
  function Suffix(name: string): (r: string)
    ensures r != "" <==> |name| >= 2 && name[|name| - 1] != '.' && '.' in name[1..]
    ensures r == "" || (r[0] == '.' && '.' !in r[1..] && |r| >= 2 && EndsWith(name, r) && |r| < |name|)
  {
    var i := LastIndexOf(name, '.');
    assert |name| >= 1 && '.' in name[1..] ==> 1 <= i by {
      if |name| >= 1 && '.' in name[1..] {
        var j :| 0 <= j < |name[1..]| && name[1..][j] == '.';
        assert name[j + 1] == '.';
      }
    }
    if 0 < i < |name| - 1 then
      var rest := name[i + 1..];
      assert forall k :: 0 <= k < |rest| ==> rest[k] == name[i + 1 + k];
      assert name[i..][1..] == rest;
      assert name[1..][i - 1] == '.';
      name[i..]
    else ""
  }

  // ---------------------------------------------------------------------------
  // pathlib normalisation (`str(PurePosixPath(p))`)
  // ---------------------------------------------------------------------------

  /** The components pathlib keeps from a `/`-split path: empty ones and `.` are dropped, `..`
      and every other name stay, in order. */
  function KeptParts(parts: seq<string>): (r: seq<string>)
    ensures forall x :: x in r ==> x in parts && x != "" && x != "."
    ensures forall x :: x in parts && x != "" && x != "." ==> x in r
    ensures (forall k :: 0 <= k < |parts| ==> parts[k] != "" && parts[k] != ".") ==> r == parts
    decreases |parts|
  {
    if |parts| == 0 then []
    else
      var rest := KeptParts(parts[1..]);
      assert parts == [parts[0]] + parts[1..];
      if parts[0] == "" || parts[0] == "." then rest else [parts[0]] + rest
  }

  /** The root pathlib keeps on POSIX: exactly two leading slashes stay two, any other number of
      leading slashes becomes one, and a relative path has none. */
  function Root(p: string): (r: string)
    ensures r == "" || r == "/" || r == "//"
    ensures r == "" <==> !StartsWith(p, "/")
    ensures StartsWith(p, r)
  {
    if StartsWith(p, "//") && !StartsWith(p, "///") then "//" else if StartsWith(p, "/") then "/" else ""
  }

  /** A root followed by text that does not start with `/` reads back as that root. */
  lemma RootPrefix(root: string, rest: string)
    requires root == "" || root == "/" || root == "//"
    requires rest == [] || rest[0] != '/'
    ensures Root(root + rest) == root
  {
    var p := root + rest;
    if root == "//" {
      assert p[..2] == "//";
      assert |p| >= 3 ==> p[2] == rest[0];
    } else if root == "/" {
      assert p[..1] == "/";
      assert |p| >= 2 ==> p[1] == rest[0];
    } else {
      assert p == rest;
    }
  }

  /** `str(PurePosixPath(p))`: the root, then the kept components joined by single `/`s, or `.`
      when there is neither. It keeps the root and never yields the empty string. */
  function PurePath(p: string): (r: string)
    ensures r != ""
    ensures Root(r) == Root(p)
  {
    var parts := KeptParts(Split(p, '/'));
    var root := Root(p);
    if |parts| == 0 then
      var rest := if root == "" then "." else "";
      RootPrefix(root, rest);
      root + rest
    else
      var joined := Join(parts, '/');
      JoinStartsWithFirst(parts, '/');
      assert joined[0] == parts[0][0] != '/' by {
        assert parts[0] in parts;
        assert parts[0] in Split(p, '/');
      }
      RootPrefix(root, joined);
      root + joined
  }

  lemma {:induction false} JoinStartsWithFirst(parts: seq<string>, sep: char)
    requires |parts| >= 1
    ensures StartsWith(Join(parts, sep), parts[0])
  {
    if |parts| > 1 {
      assert (parts[0] + [sep] + Join(parts[1..], sep))[..|parts[0]|] == parts[0];
    }
  }

  /** The `/`-split of a root followed by a non-empty relative path: one empty part per slash of
      the root, then the split of the path. */
  lemma SplitAfterRoot(root: string, rest: string)
    requires root == "" || root == "/" || root == "//"
    ensures Split(root + rest, '/') ==
              (if root == "" then [] else if root == "/" then [""] else ["", ""]) + Split(rest, '/')
  {
    if root == "/" {
      SplitAtFirst("", '/', rest);
      assert "" + ['/'] + rest == root + rest;
    } else if root == "//" {
      SplitAtFirst("", '/', "/" + rest);
      SplitAtFirst("", '/', rest);
      assert "" + ['/'] + ("/" + rest) == root + rest;
      assert "" + ['/'] + rest == "/" + rest;
    } else {
      assert root + rest == rest;
    }
  }

  /** Normalising twice is normalising once: what pathlib prints, it parses back unchanged. */
  lemma PurePathIdempotent(p: string)
    ensures PurePath(PurePath(p)) == PurePath(p)
  {
    var parts := KeptParts(Split(p, '/'));
    var root := Root(p);
    var r := PurePath(p);
    if |parts| == 0 {
      assert Split("", '/') == [""];
      if root == "" {
        assert r == ".";
        SplitNoSep(".", '/');
        assert KeptParts(["."]) == [];
      } else if root == "/" {
        assert r == "/" + "";
        SplitAfterRoot("/", "");
        assert KeptParts(["", ""]) == [];
      } else {
        assert r == "//" + "";
        SplitAfterRoot("//", "");
        assert Split(r, '/') == ["", "", ""];
        assert KeptParts(["", "", ""]) == KeptParts(["", ""]) by {
          assert ["", "", ""][1..] == ["", ""];
        }
        assert KeptParts(["", ""]) == [];
        assert Root(r) == "//";
        assert PurePath(r) == "//" + "";
      }
    } else {
      var joined := Join(parts, '/');
      assert r == root + joined;
      forall k | 0 <= k < |parts| ensures '/' !in parts[k] {
        assert parts[k] in parts;
        assert parts[k] in Split(p, '/');
      }
      forall k | 0 <= k < |parts| ensures parts[k] != "" && parts[k] != "." {
        assert parts[k] in parts;
      }
      SplitJoin(parts, '/');
      SplitAfterRoot(root, joined);
      var pre: seq<string> := if root == "" then [] else if root == "/" then [""] else ["", ""];
      assert Split(r, '/') == pre + parts;
      KeptPartsDropsEmpty(pre, parts);
    }
  }

  lemma KeptPartsDropsEmpty(pre: seq<string>, parts: seq<string>)
    requires forall k :: 0 <= k < |pre| ==> pre[k] == ""
    requires forall k :: 0 <= k < |parts| ==> parts[k] != "" && parts[k] != "."
    ensures KeptParts(pre + parts) == parts
    decreases |pre|
  {
    if |pre| > 0 {
      var whole := pre + parts;
      assert whole[0] == "" && whole[1..] == pre[1..] + parts;
      assert KeptParts(whole) == KeptParts(whole[1..]);
      KeptPartsDropsEmpty(pre[1..], parts);
    } else {
      assert pre + parts == parts;
    }
  }

  /** A path pathlib has nothing to normalise in: relative, and every `/`-separated component is
      neither empty nor `.` (so it is non-empty and has no trailing or doubled `/`). */
  predicate PlainPath(p: string) {
    !StartsWith(p, "/") && forall x :: x in Split(p, '/') ==> x != "" && x != "."
  }

  /** pathlib prints a plain path unchanged. */
  lemma PurePathPlain(p: string)
    requires PlainPath(p)
    ensures PurePath(p) == p
  {
    var parts := Split(p, '/');
    forall k | 0 <= k < |parts| ensures parts[k] != "" && parts[k] != "." {
      assert parts[k] in parts;
    }
  }

  /** `str(Path(dir) / name)` for a single relative component `name`: the join, normalised as
      pathlib prints it. A plain directory joins exactly as `os.path.join` does. */
  function SubPath(dir: string, name: string): (r: string)
    requires name != "" && name != "." && '/' !in name
    ensures r != ""
    ensures PlainPath(dir) ==> PlainPath(r) && r == PathJoin(dir, name)
  {
    if PlainPath(dir) then PlainJoin(dir, name); PurePath(PathJoin(dir, name))
    else PurePath(PathJoin(dir, name))
  }

  /** Joining a plain component onto a plain directory gives a plain path, one `/` apart. */
  lemma PlainJoin(dir: string, name: string)
    requires PlainPath(dir) && name != "" && name != "." && '/' !in name
    ensures |dir| > 0 && !EndsWith(dir, "/") && PathJoin(dir, name) == dir + "/" + name
    ensures PlainPath(PathJoin(dir, name)) && PurePath(PathJoin(dir, name)) == PathJoin(dir, name)
  {
    var parts := Split(dir, '/');
    assert parts[|parts| - 1] in parts;
    assert FileName(dir) != "";
    assert !EndsWith(dir, "/");
    assert |dir| > 0;
    var whole := dir + "/" + name;
    JoinSnoc(parts, name, '/');
    assert Join(parts + [name], '/') == whole;
    forall k | 0 <= k < |parts + [name]| ensures '/' !in (parts + [name])[k] {
      if k < |parts| { assert (parts + [name])[k] == parts[k]; }
    }
    SplitJoin(parts + [name], '/');
    forall x | x in Split(whole, '/') ensures x != "" && x != "." {
      if x != name { assert x in parts; }
    }
    assert whole[..1] == dir[..1];
    PurePathPlain(whole);
  }

  /** Where pathlib and plain joining differ: an output directory written `./dir` loses its
      `./`, which `os.path.join` keeps. */
  lemma SubPathDropsDotPrefix(dir: string, name: string)
    requires PlainPath(dir) && name != "" && name != "." && '/' !in name
    ensures PathJoin("./" + dir, name) == "./" + PathJoin(dir, name)
    ensures SubPath("./" + dir, name) == PathJoin(dir, name)
  {
    PlainJoin(dir, name);
    JoinDotPrefixed(dir, name);
    DotPrefixed(PathJoin(dir, name));
  }

  lemma JoinDotPrefixed(dir: string, name: string)
    requires |dir| > 0 && !EndsWith(dir, "/") && !StartsWith(name, "/")
    ensures PathJoin("./" + dir, name) == "./" + PathJoin(dir, name)
  {
    JoinAfterDot(dir, name);
    assert PathJoin(dir, name) == dir + "/" + name;
    assert "./" + dir + "/" + name == "./" + (dir + "/" + name);
  }

  lemma JoinAfterDot(dir: string, name: string)
    requires |dir| > 0 && !EndsWith(dir, "/") && !StartsWith(name, "/")
    ensures PathJoin("./" + dir, name) == "./" + dir + "/" + name
  {
    var p := "./" + dir;
    assert p[|p| - 1] == dir[|dir| - 1];
    assert !EndsWith(p, "/");
  }

  /** Where pathlib and plain joining differ: the current directory `.` disappears. */
  lemma SubPathOfCurrentDir(name: string)
    requires name != "" && name != "." && '/' !in name
    ensures PathJoin(".", name) == "./" + name
    ensures SubPath(".", name) == name
  {
    PlainName(name);
    JoinAfterCurrentDir(name);
    DotPrefixed(name);
  }

  /** A single component other than `.` is a plain path. */
  lemma PlainName(name: string)
    requires name != "" && name != "." && '/' !in name
    ensures PlainPath(name)
  {
    SplitNoSep(name, '/');
  }

  lemma JoinAfterCurrentDir(name: string)
    requires !StartsWith(name, "/")
    ensures PathJoin(".", name) == "./" + name
  {
    assert !EndsWith(".", "/");
  }

  /** A plain path behind `./` prints without it. */
  lemma DotPrefixed(q: string)
    requires PlainPath(q)
    ensures PurePath("./" + q) == q
  {
    var p := "./" + q;
    assert p == "." + ['/'] + q;
    SplitAtFirst(".", '/', q);
    var parts := Split(q, '/');
    forall k | 0 <= k < |parts| ensures parts[k] != "" && parts[k] != "." {
      assert parts[k] in parts;
    }
    assert KeptParts(["."] + parts) == KeptParts(parts) by {
      assert (["."] + parts)[1..] == parts;
    }
    assert Root(p) == "";
  }

  /** The empty path prints as `.`, as `str(Path(""))` does. */
  lemma PurePathOfEmpty()
    ensures PurePath("") == "."
  {
    assert Split("", '/') == [""];
    assert KeptParts([""]) == [];
  }

  /** Doubled and trailing separators collapse: `a//b/` prints as `a/b`. */
  lemma PurePathCollapsesSeparators(a: string, b: string)
    requires a != "" && a != "." && '/' !in a
    requires b != "" && b != "." && '/' !in b
    ensures PurePath(a + "//" + b + "/") == a + "/" + b
  {
    var p := a + "//" + b + "/";
    assert p == a + ['/'] + ("" + ['/'] + (b + ['/'] + ""));
    assert Split("", '/') == [""];
    SplitAtFirst(b, '/', "");
    SplitAtFirst("", '/', b + ['/'] + "");
    SplitAtFirst(a, '/', "" + ['/'] + (b + ['/'] + ""));
    var parts := [a, "", b, ""];
    assert Split(p, '/') == parts;
    assert KeptParts(parts[3..]) == [];
    assert KeptParts(parts[2..]) == [b];
    assert KeptParts(parts[1..]) == [b];
    assert KeptParts(parts) == [a, b];
    assert Root(p) == "" by { assert p[0] == a[0]; }
    assert Join([a, b], '/') == a + "/" + b;
  }
}

=== FILE: provenance.dfy ===
/** The provenance record of `src/pipeline/provenance.py`: the order-independent tree hash,
    the tool-version queries and the fixed record shape. SHA-256 is a parameter `sha`. */
module Provenance {
  import opened Base
  import opened Text

  type Byte = b: int | 0 <= b < 256
  type Bytes = seq<Byte>

  /** `0`-`9` or `a`-`f`, by code point. */
  predicate IsHexChar(c: char) {
    var n := c as int;
    48 <= n <= 57 || 97 <= n <= 102
  }

  /** What `hexdigest()` of SHA-256 returns: 64 lower-case hexadecimal characters. */
  predicate IsHexDigest(s: string) {
    |s| == 64 && forall k :: 0 <= k < |s| ==> IsHexChar(s[k])
  }

  type Digest = s: string | IsHexDigest(s)
    witness seq(64, _ => '0')

  // ---------------------------------------------------------------------------
  // Python's string ordering and `sorted`
  // ---------------------------------------------------------------------------

  /** `a <= b` on Python strings: lexicographic by code point. */
  predicate LexLe(a: string, b: string)
    decreases |a|
  {
    |a| == 0 || (|b| > 0 && (a[0] < b[0] || (a[0] == b[0] && LexLe(a[1..], b[1..]))))
  }

  lemma LexLeRefl(a: string)
    ensures LexLe(a, a)
  {
  }

  lemma LexLeTotal(a: string, b: string)
    ensures LexLe(a, b) || LexLe(b, a)
  {
  }

  lemma {:induction false} LexLeAntisym(a: string, b: string)
    requires LexLe(a, b) && LexLe(b, a)
    ensures a == b
    decreases |a|
  {
    if |a| > 0 {
      LexLeAntisym(a[1..], b[1..]);
      assert a == [a[0]] + a[1..] && b == [b[0]] + b[1..];
    }
  }

  lemma LexLeTrans(a: string, b: string, c: string)
    requires LexLe(a, b) && LexLe(b, c)
    ensures LexLe(a, c)
  {
  }

  predicate SortedStrings(s: seq<string>) {
    forall i, j :: 0 <= i < j < |s| ==> LexLe(s[i], s[j])
  }

  lemma ConsSorted(h: string, t: seq<string>)
    requires SortedStrings(t)
    requires forall y :: y in t ==> LexLe(h, y)
    ensures SortedStrings([h] + t)
  {
    var s := [h] + t;
    forall i, j | 0 <= i < j < |s|
      ensures LexLe(s[i], s[j])
    {
      if i > 0 {
        assert s[i] == t[i - 1] && s[j] == t[j - 1];
      } else {
        assert s[j] in t;
      }
    }
  }

  lemma BelowHead(x: string, s: seq<string>)
    requires SortedStrings(s) && |s| > 0 && LexLe(x, s[0])
    ensures forall y :: y in s ==> LexLe(x, y)
  {
    forall y | y in s
      ensures LexLe(x, y)
    {
      var j :| 0 <= j < |s| && s[j] == y;
      if j > 0 {
        LexLeTrans(x, s[0], y);
      }
    }
  }

  lemma SortedTail(s: seq<string>)
    requires SortedStrings(s) && |s| > 0
    ensures SortedStrings(s[1..])
  {
    assert forall i :: 0 <= i < |s| - 1 ==> s[1..][i] == s[i + 1];
  }

  /** Inserts `x` into a sorted list, keeping it sorted. */
  function Insert(x: string, s: seq<string>): (r: seq<string>)
    requires SortedStrings(s)
    ensures SortedStrings(r)
    ensures multiset(r) == multiset(s) + multiset{x}
    decreases |s|
  {
    if |s| == 0 then [x]
    else if LexLe(x, s[0]) then
      BelowHead(x, s);
      ConsSorted(x, s);
      [x] + s
    else
      LexLeTotal(x, s[0]);
      SortedTail(s);
      var rest := Insert(x, s[1..]);
      assert s == [s[0]] + s[1..];
      assert forall y :: y in rest ==> y == x || y in s[1..] by {
        forall y | y in rest
          ensures y == x || y in s[1..]
        {
          assert y in multiset(rest);
        }
      }
      ConsSorted(s[0], rest);
      [s[0]] + rest
  }

  /** `sorted(s)` for strings: a sorted permutation of `s`. */
  function SortStrings(s: seq<string>): (r: seq<string>)
    ensures SortedStrings(r)
    ensures multiset(r) == multiset(s)
    decreases |s|
  {
    if |s| == 0 then []
    else
      assert s == [s[0]] + s[1..];
      Insert(s[0], SortStrings(s[1..]))
  }

  /** The head of a non-empty sorted list is a least element of it. */
  lemma SortedHeadLeast(a: seq<string>, y: string)
    requires SortedStrings(a) && y in a
    ensures LexLe(a[0], y)
  {
    var j :| 0 <= j < |a| && a[j] == y;
    if j == 0 {
      LexLeRefl(y);
    }
  }

  /** Two sorted lists with the same elements start with the same element. */
  lemma SortedSameHead(a: seq<string>, b: seq<string>)
    requires SortedStrings(a) && SortedStrings(b) && |a| > 0
    requires multiset(a) == multiset(b)
    ensures |b| > 0 && a[0] == b[0]
  {
    assert a[0] in multiset(b);
    assert b[0] in multiset(a);
    SortedHeadLeast(a, b[0]);
    SortedHeadLeast(b, a[0]);
    LexLeAntisym(a[0], b[0]);
  }

  /** There is only one sorted arrangement of a multiset of strings. */
  lemma {:induction false} SortedUnique(a: seq<string>, b: seq<string>)
    requires SortedStrings(a) && SortedStrings(b)
    requires multiset(a) == multiset(b)
    ensures a == b
    decreases |a|
  {
    if |a| == 0 {
      assert |b| == |multiset(b)| == 0;
    } else {
      SortedSameHead(a, b);
      SortedTail(a);
      SortedTail(b);
      assert a == [a[0]] + a[1..] && b == [b[0]] + b[1..];
      assert multiset(a[1..]) == multiset(a) - multiset{a[0]};
      assert multiset(b[1..]) == multiset(b) - multiset{b[0]};
      SortedUnique(a[1..], b[1..]);
    }
  }

  // ---------------------------------------------------------------------------
  // Aggregate tree hash (`_hash_tree`)
  // ---------------------------------------------------------------------------

  /** The per-file digests of a tree's regular files, in enumeration order; `None` marks a file
      whose hashing raised, which is skipped. */
  function Digests(files: seq<Option<Bytes>>, sha: Bytes -> Digest): (ds: seq<Digest>)
    ensures |ds| <= |files|
    decreases |files|
  {
    if |files| == 0 then []
    else
      var before := Digests(files[..|files| - 1], sha);
      match files[|files| - 1]
      case None => before
      case Some(content) => before + [sha(content)]
  }

  /** Every file that hashed contributes its digest, and nothing else is listed; with no failures
      there is one digest per file. */
  lemma {:induction false} DigestsMembers(files: seq<Option<Bytes>>, sha: Bytes -> Digest)
    ensures (forall i :: 0 <= i < |files| ==> files[i].Some?) ==> |Digests(files, sha)| == |files|
    ensures forall d :: d in Digests(files, sha) <==>
              exists i :: 0 <= i < |files| && files[i].Some? && sha(files[i].value) == d
    decreases |files|
  {
    if |files| > 0 {
      var init := files[..|files| - 1];
      DigestsMembers(init, sha);
      assert forall i :: 0 <= i < |init| ==> init[i] == files[i];
    }
  }

  lemma {:induction false} DigestsAppend(a: seq<Option<Bytes>>, b: seq<Option<Bytes>>, sha: Bytes -> Digest)
    ensures Digests(a + b, sha) == Digests(a, sha) + Digests(b, sha)
    decreases |b|
  {
    if |b| == 0 {
      assert a + b == a;
    } else {
      var b' := b[..|b| - 1];
      assert (a + b)[..|a + b| - 1] == a + b';
      assert (a + b)[|a + b| - 1] == b[|b| - 1];
      DigestsAppend(a, b', sha);
    }
  }

  /** The digest multiset depends only on the multiset of files, not on their order. */
  lemma {:induction false} DigestsPermutation(a: seq<Option<Bytes>>, b: seq<Option<Bytes>>, sha: Bytes -> Digest)
    requires multiset(a) == multiset(b)
    ensures multiset(Digests(a, sha)) == multiset(Digests(b, sha))
    decreases |a|
  {
    if |a| == 0 {
      assert |b| == |multiset(b)| == 0;
    } else {
      var n := |a| - 1;
      var x := a[n];
      assert x in multiset(b);
      var j :| 0 <= j < |b| && b[j] == x;
      var rest := b[..j] + b[j + 1..];
      assert b == b[..j] + [x] + b[j + 1..];
      assert a == a[..n] + [x];
      assert multiset(rest) == multiset(b) - multiset{x};
      assert multiset(a[..n]) == multiset(a) - multiset{x};
      DigestsPermutation(a[..n], rest, sha);
      DigestsAppend(b[..j], b[j + 1..], sha);
      DigestsAppend(b[..j] + [x], b[j + 1..], sha);
      DigestsAppend(b[..j], [x], sha);
      DigestsAppend(a[..n], [x], sha);
    }
  }

  /** The concatenation of digests that is fed to the final hash. */
  function ConcatAll(ds: seq<Digest>): (r: string)
    ensures |r| == 64 * |ds|
    ensures forall k :: 0 <= k < |r| ==> IsHexChar(r[k])
    decreases |ds|
  {
    if |ds| == 0 then ""
    else
      var rest := ConcatAll(ds[1..]);
      assert forall k :: 64 <= k < 64 + |rest| ==> (ds[0] + rest)[k] == rest[k - 64];
      ds[0] + rest
  }

  /** Digests have a fixed width, so their concatenation determines them. */
  lemma {:induction false} ConcatAllInjective(a: seq<Digest>, b: seq<Digest>)
    requires ConcatAll(a) == ConcatAll(b)
    ensures a == b
    decreases |a|
  {
    if |a| > 0 {
      assert |b| > 0;
      assert ConcatAll(a)[..64] == a[0];
      assert ConcatAll(b)[..64] == b[0];
      assert ConcatAll(a)[64..] == ConcatAll(a[1..]);
      assert ConcatAll(b)[64..] == ConcatAll(b[1..]);
      ConcatAllInjective(a[1..], b[1..]);
      assert a == [a[0]] + a[1..] && b == [b[0]] + b[1..];
    }
  }

  /** `d.encode()` of an ASCII string. */
  function AsciiBytes(s: string): Bytes
    requires forall k :: 0 <= k < |s| ==> IsHexChar(s[k])
  {
    seq(|s|, k requires 0 <= k < |s| => HexByte(s[k]))
  }

  function HexByte(c: char): Byte
    requires IsHexChar(c)
  {
    c as int
  }

  /** The string the aggregate hash is computed over: the sorted digests, concatenated. */
  function HashInput(files: seq<Option<Bytes>>, sha: Bytes -> Digest): string {
    ConcatAll(SortDigests(Digests(files, sha)))
  }

  /** `sorted` applied to digests: still digests, sorted, and a permutation. */
  function SortDigests(ds: seq<Digest>): (r: seq<Digest>)
    ensures SortedStrings(r)
    ensures multiset(r) == multiset(ds)
  {
    var sorted := SortStrings(ds);
    forall k | 0 <= k < |sorted|
      ensures IsHexDigest(sorted[k])
    {
      assert sorted[k] in multiset(ds);
      var j :| 0 <= j < |ds| && ds[j] == sorted[k];
    }
    sorted
  }

  /** Equal hashed strings come from equal multisets of per-file digests. */
  lemma HashInputInjective(a: seq<Option<Bytes>>, b: seq<Option<Bytes>>, sha: Bytes -> Digest)
    requires HashInput(a, sha) == HashInput(b, sha)
    ensures multiset(Digests(a, sha)) == multiset(Digests(b, sha))
  {
    ConcatAllInjective(SortDigests(Digests(a, sha)), SortDigests(Digests(b, sha)));
  }

  /** The digest multiset of a listing, split around position `i`. */
  lemma DigestsAround(files: seq<Option<Bytes>>, i: int, sha: Bytes -> Digest)
    requires 0 <= i < |files| && files[i].Some?
    ensures multiset(Digests(files, sha)) ==
            multiset(Digests(files[..i], sha)) + multiset{sha(files[i].value)} + multiset(Digests(files[i + 1..], sha))
  {
    var pre, post := files[..i], files[i + 1..];
    assert files == pre + [files[i]] + post;
    DigestsAppend(pre + [files[i]], post, sha);
    DigestsAppend(pre, [files[i]], sha);
    var none: seq<Option<Bytes>> := [];
    assert [files[i]][..0] == none;
  }

  /** `_hash_tree`: the digest of the concatenated sorted per-file digests, and how many files
      were included. */
  function HashTree(files: seq<Option<Bytes>>, sha: Bytes -> Digest): (r: (Digest, nat))
    ensures r.1 == |Digests(files, sha)| <= |files|
    ensures r.0 == sha(AsciiBytes(HashInput(files, sha)))
    ensures |HashInput(files, sha)| == 64 * r.1
  {
    var ds := Digests(files, sha);
    assert |SortDigests(ds)| == |multiset(SortDigests(ds))| == |multiset(ds)| == |ds|;
    (sha(AsciiBytes(HashInput(files, sha))), |ds|)
  }

  /** The aggregate depends only on the multiset of per-file digests. */
  lemma HashInputDependsOnDigestMultiset(a: seq<Option<Bytes>>, b: seq<Option<Bytes>>, sha: Bytes -> Digest)
    requires multiset(Digests(a, sha)) == multiset(Digests(b, sha))
    ensures HashInput(a, sha) == HashInput(b, sha)
    ensures HashTree(a, sha) == HashTree(b, sha)
  {
    SortedUnique(SortDigests(Digests(a, sha)), SortDigests(Digests(b, sha)));
    assert |Digests(a, sha)| == |multiset(Digests(a, sha))| == |multiset(Digests(b, sha))| == |Digests(b, sha)|;
  }

  /** Any enumeration order of the same files gives the same tree hash and count. */
  lemma HashTreeOrderIndependent(a: seq<Option<Bytes>>, b: seq<Option<Bytes>>, sha: Bytes -> Digest)
    requires multiset(a) == multiset(b)
    ensures HashTree(a, sha) == HashTree(b, sha)
  {
    DigestsPermutation(a, b, sha);
    HashInputDependsOnDigestMultiset(a, b, sha);
  }

  /** Adding a readable file lengthens the hashed string by one digest; an unreadable one changes nothing. */
  lemma AddedFileChangesHashInput(files: seq<Option<Bytes>>, content: Bytes, sha: Bytes -> Digest)
    ensures |HashInput(files + [Some(content)], sha)| == |HashInput(files, sha)| + 64
    ensures HashTree(files + [None], sha) == HashTree(files, sha)
  {
    assert (files + [Some(content)])[..|files|] == files;
    assert (files + [None])[..|files|] == files;
    var _ := HashTree(files + [Some(content)], sha);
    var _ := HashTree(files, sha);
  }

  lemma MultisetCancel<T>(a: multiset<T>, b: multiset<T>, x: T, y: T)
    requires a + multiset{x} + b == a + multiset{y} + b
    ensures x == y
  {
    assert (a + multiset{x} + b)[x] == (a + multiset{y} + b)[x];
  }

  /** Changing one readable file into contents with a different digest changes the hashed string. */
  lemma ChangedFileChangesHashInput(files: seq<Option<Bytes>>, i: int, content: Bytes, sha: Bytes -> Digest)
    requires 0 <= i < |files| && files[i].Some?
    requires sha(content) != sha(files[i].value)
    ensures HashInput(files[i := Some(content)], sha) != HashInput(files, sha)
  {
    var changed := files[i := Some(content)];
    assert changed[..i] == files[..i] && changed[i + 1..] == files[i + 1..];
    DigestsAround(files, i, sha);
    DigestsAround(changed, i, sha);
    var d := sha(files[i].value);
    if HashInput(changed, sha) == HashInput(files, sha) {
      HashInputInjective(changed, files, sha);
      MultisetCancel(multiset(Digests(files[..i], sha)), multiset(Digests(files[i + 1..], sha)), d, sha(content));
    }
  }

  // ---------------------------------------------------------------------------
  // Tool versions (`_run`, `tool_versions`)
  // ---------------------------------------------------------------------------

  /** The outcome of launching an external command: the binary is missing, or it exited. */
  datatype ToolRun = NotInstalled | Exited(code: int, output: string)

  /** The exception escaping `_run` when the binary cannot be launched. */
  datatype ProvenanceError = ToolMissing(tool: string) | ProfileUnreadable

  /** `_run`: `None` on a non-zero exit, the stripped output otherwise; a missing binary raises. */
  function RunCommand(tool: string, run: ToolRun): (r: Result<Option<string>, ProvenanceError>)
    ensures r.Err? <==> run.NotInstalled?
    ensures r.Ok? ==> (r.value.None? <==> run.code != 0)
    ensures r.Ok? && r.value.Some? ==>
              (exists i :: OccursAt(r.value.value, run.output, i) && AllSpace(run.output[..i]) &&
                           AllSpace(run.output[i + |r.value.value|..])) &&
              (|r.value.value| > 0 ==> !IsSpace(r.value.value[0]) && !IsSpace(r.value.value[|r.value.value| - 1]))
    ensures r.Ok? && r.value.Some? ==> (r.value.value == "" <==> AllSpace(run.output))
  {
    match run
    case NotInstalled => Err(ToolMissing(tool))
    case Exited(code, output) =>
      StripEmptyIffBlank(output);
      Ok(if code != 0 then None else Some(Strip(output)))
  }

  /** What `_run` reports is already stripped: running it over its own report changes nothing. */
  lemma RunCommandStable(tool: string, run: ToolRun)
    requires run.Exited? && run.code == 0
    ensures RunCommand(tool, run).Ok? && RunCommand(tool, run).value.Some?
    ensures RunCommand(tool, Exited(0, RunCommand(tool, run).value.value)) == RunCommand(tool, run)
  {
    StripUnchanged(Strip(run.output));
  }

  datatype ToolVersions = ToolVersions(
    plaso: Option<string>, psort: Option<string>, yara: Option<string>, python: Option<string>,
    syft: Option<string>, yaraPython: Option<string>)

  /** The queries made by `tool_versions`. `yaraModule` is `None` when `import yara` fails and
      otherwise the module's `__version__`, if it has one. */
  datatype ToolEnvironment = ToolEnvironment(
    plaso: ToolRun, psort: ToolRun, yara: ToolRun, python: ToolRun,
    syftOnPath: bool, syft: ToolRun, yaraModule: Option<Option<string>>)

  /** `tool_versions`: syft is only queried when it is on the `PATH`; the Python binding's
      version falls back to `"unknown"`. */
  function ToolVersionsOf(env: ToolEnvironment): (r: Result<ToolVersions, ProvenanceError>)
    ensures r.Err? <==>
              env.plaso.NotInstalled? || env.psort.NotInstalled? || env.yara.NotInstalled? ||
              env.python.NotInstalled? || (env.syftOnPath && env.syft.NotInstalled?)
    ensures r.Ok? && !env.syftOnPath ==> r.value.syft.None?
    ensures r.Ok? ==> (r.value.yaraPython.None? <==> env.yaraModule.None?)
    ensures r.Ok? ==> (r.value.plaso.None? <==> env.plaso.code != 0)
    ensures r.Ok? ==>
              r.value.plaso == RunCommand("log2timeline.py", env.plaso).value &&
              r.value.psort == RunCommand("psort.py", env.psort).value &&
              r.value.yara == RunCommand("yara", env.yara).value &&
              r.value.python == RunCommand("python3", env.python).value
    ensures r.Ok? && env.syftOnPath ==> r.value.syft == RunCommand("syft", env.syft).value
    ensures r.Ok? && env.yaraModule == Some(None) ==> r.value.yaraPython == Some("unknown")
    ensures r.Ok? && env.yaraModule.Some? && env.yaraModule.value.Some? ==> r.value.yaraPython == env.yaraModule.value
    ensures env.plaso.NotInstalled? ==> r == Err(ToolMissing("log2timeline.py"))
    ensures r.Err? && !env.plaso.NotInstalled? && env.psort.NotInstalled? ==> r.error == ToolMissing("psort.py")
  {
    var plaso := RunCommand("log2timeline.py", env.plaso);
    var psort := RunCommand("psort.py", env.psort);
    var yara := RunCommand("yara", env.yara);
    var python := RunCommand("python3", env.python);
    var syft := if env.syftOnPath then RunCommand("syft", env.syft) else Ok(None);
    if plaso.Err? then Err(plaso.error)
    else if psort.Err? then Err(psort.error)
    else if yara.Err? then Err(yara.error)
    else if python.Err? then Err(python.error)
    else if syft.Err? then Err(syft.error)
    else
      var yaraPython := match env.yaraModule
        case None => None
        case Some(version) => Some(version.GetOr("unknown"));
      Ok(ToolVersions(plaso.value, psort.value, yara.value, python.value, syft.value, yaraPython))
  }

  // ---------------------------------------------------------------------------
  // The record (`generate`)
  // ---------------------------------------------------------------------------

  const Schema: string := "dfirbox-provenance-0.1"
  const RulesDir: string := "/app/rules"

  /** The fixed manifest of the run's outputs. */
  const OutputManifest: seq<(string, string)> := [
    ("plaso", "timeline.plaso"),
    ("events_jsonl", "events.jsonl"),
    ("sigma_findings", "sigma_findings.json"),
    ("yara_hits", "yara_hits.json")
  ]

  /** The profile path: not a regular file, a file that cannot be read, or its contents. */
  datatype ProfileFile = NotAFile | Unreadable | Readable(content: Bytes)

  datatype ProvenanceRecord = ProvenanceRecord(
    schema: string,
    evidencePath: string, evidenceTreeSha256: Digest, fileCount: nat,
    profile: string, profileSha256: Option<Digest>,
    user: string,
    toolVersions: ToolVersions,
    rulesDir: string, rulesTreeSha256: Digest, rulesFileCount: nat,
    outputs: seq<(string, string)>)

  /** The record and the software inventory written beside it, if any. */
  datatype Provenance = Provenance(record: ProvenanceRecord, sbom: Option<string>)

  /** The inputs `generate` reads from the file system and the environment. */
  datatype ProvenanceInputs = ProvenanceInputs(
    evidence: string, evidenceFiles: seq<Option<Bytes>>,
    profile: string, profileFile: ProfileFile,
    rulesFiles: seq<Option<Bytes>>,
    userEnv: Option<string>,
    tools: ToolEnvironment,
    sbomRun: ToolRun)

  /** `generate`: hashes the evidence and rule trees and the profile, queries tool versions,
      and writes the inventory only when syft is present and printed something. */
  function Generate(inputs: ProvenanceInputs, sha: Bytes -> Digest): (r: Result<Provenance, ProvenanceError>)
    ensures r.Err? <==>
              inputs.profileFile.Unreadable? || ToolVersionsOf(inputs.tools).Err? ||
              (inputs.tools.syftOnPath && inputs.sbomRun.NotInstalled?)
    ensures r.Ok? ==> r.value.record.schema == Schema && r.value.record.outputs == OutputManifest
    ensures r.Ok? ==> r.value.record.rulesDir == RulesDir
    ensures r.Ok? ==> (r.value.record.profileSha256.None? <==> inputs.profileFile.NotAFile?)
    ensures r.Ok? ==> r.value.record.fileCount <= |inputs.evidenceFiles|
    ensures r.Ok? ==> r.value.record.rulesFileCount <= |inputs.rulesFiles|
    ensures r.Ok? && !inputs.tools.syftOnPath ==> r.value.sbom.None? && r.value.record.toolVersions.syft.None?
    ensures r.Ok? && r.value.sbom.Some? ==> r.value.sbom.value != ""
    ensures r.Ok? ==>
              (r.value.record.evidenceTreeSha256, r.value.record.fileCount) == HashTree(inputs.evidenceFiles, sha) &&
              (r.value.record.rulesTreeSha256, r.value.record.rulesFileCount) == HashTree(inputs.rulesFiles, sha)
    ensures r.Ok? ==> r.value.record.evidencePath == inputs.evidence && r.value.record.profile == inputs.profile
    ensures r.Ok? && inputs.profileFile.Readable? ==> r.value.record.profileSha256 == Some(sha(inputs.profileFile.content))
    ensures r.Ok? ==> r.value.record.toolVersions == ToolVersionsOf(inputs.tools).value
    ensures r.Ok? && inputs.userEnv.Some? ==> r.value.record.user == inputs.userEnv.value
    ensures r.Ok? && inputs.userEnv.None? ==> r.value.record.user == "runner"
    ensures r.Ok? ==>
              (r.value.sbom.Some? <==>
                 inputs.tools.syftOnPath && inputs.sbomRun.Exited? && inputs.sbomRun.code == 0 &&
                 !AllSpace(inputs.sbomRun.output))
    ensures r.Ok? && r.value.sbom.Some? ==> r.value.sbom == RunCommand("syft", inputs.sbomRun).value
  {
    var (evHash, evCount) := HashTree(inputs.evidenceFiles, sha);
    if inputs.profileFile.Unreadable? then Err(ProfileUnreadable)
    else
      var profHash := if inputs.profileFile.Readable? then Some(sha(inputs.profileFile.content)) else None;
      var (rulesHash, rulesCount) := HashTree(inputs.rulesFiles, sha);
      match ToolVersionsOf(inputs.tools)
      case Err(e) => Err(e)
      case Ok(versions) =>
        var record := ProvenanceRecord(
          Schema, inputs.evidence, evHash, evCount, inputs.profile, profHash,
          inputs.userEnv.GetOr("runner"), versions, RulesDir, rulesHash, rulesCount, OutputManifest);
        if !inputs.tools.syftOnPath then Ok(Provenance(record, None))
        else
          match RunCommand("syft", inputs.sbomRun)
          case Err(e) => Err(e)
          case Ok(out) =>
            Ok(Provenance(record, if out.Some? && out.value != "" then out else None))
  }

  /** Re-enumerating the evidence and rule trees in any other order yields the same record. */
  lemma GenerateOrderIndependent(inputs: ProvenanceInputs, evidenceFiles: seq<Option<Bytes>>,
                                 rulesFiles: seq<Option<Bytes>>, sha: Bytes -> Digest)
    requires multiset(evidenceFiles) == multiset(inputs.evidenceFiles)
    requires multiset(rulesFiles) == multiset(inputs.rulesFiles)
    ensures Generate(inputs.(evidenceFiles := evidenceFiles, rulesFiles := rulesFiles), sha) == Generate(inputs, sha)
  {
    HashTreeOrderIndependent(evidenceFiles, inputs.evidenceFiles, sha);
    HashTreeOrderIndependent(rulesFiles, inputs.rulesFiles, sha);
  }
}

=== FILE: text.dfy ===
/** The Python `str` operations the pipeline relies on, with the facts the model needs. */
module Text {

  /** Python's `str.isspace()` for one character. */
  predicate IsSpace(c: char) {
    || c == ' '
    || ('\t' <= c <= '\r')
    || ('\U{1c}' <= c <= '\U{1f}')
    || c == '\U{85}' || c == '\U{a0}' || c == '\U{1680}'
    || ('\U{2000}' <= c <= '\U{200a}')
    || c == '\U{2028}' || c == '\U{2029}' || c == '\U{202f}' || c == '\U{205f}' || c == '\U{3000}'
  }

  predicate AllSpace(s: string) {
    forall k :: 0 <= k < |s| ==> IsSpace(s[k])
  }

  predicate NoSpace(s: string) {
    forall k :: 0 <= k < |s| ==> !IsSpace(s[k])
  }

  /** `str.lower()` restricted to ASCII letters. */
  function LowerChar(c: char): char {
    if 'A' <= c <= 'Z' then (c as int + 32) as char else c
  }

  function Lower(s: string): (r: string)
    ensures |r| == |s|
    ensures forall k :: 0 <= k < |s| ==> !('A' <= r[k] <= 'Z')
    ensures forall k :: 0 <= k < |s| && !('A' <= s[k] <= 'Z') ==> r[k] == s[k]
  {
    seq(|s|, k requires 0 <= k < |s| => LowerChar(s[k]))
  }

  /** Lower-casing twice is lower-casing once. */
  lemma LowerIdempotent(s: string)
    ensures Lower(Lower(s)) == Lower(s)
  {
  }

  /** `s.startswith(prefix)`. */
  predicate StartsWith(s: string, prefix: string) {
    |prefix| <= |s| && s[..|prefix|] == prefix
  }

  /** `s.endswith(suffix)`. */
  predicate EndsWith(s: string, suffix: string) {
    |suffix| <= |s| && s[|s| - |suffix|..] == suffix
  }

  /** `needle` occurs in `hay` starting at offset `i`. */
  predicate OccursAt(needle: string, hay: string, i: int) {
    0 <= i && i + |needle| <= |hay| && hay[i..i + |needle|] == needle
  }

  /** `needle in hay`, scanning `hay` from the left. */
  predicate Contains(hay: string, needle: string)
    ensures Contains(hay, needle) <==> exists i :: OccursAt(needle, hay, i)
    decreases |hay|
  {
    if StartsWith(hay, needle) then
      assert OccursAt(needle, hay, 0);
      true
    else if |hay| == 0 then
      false
    else
      var inTail := Contains(hay[1..], needle);
      assert forall i :: OccursAt(needle, hay[1..], i) ==> OccursAt(needle, hay, i + 1);
      assert forall i :: OccursAt(needle, hay, i) ==> i == 0 || OccursAt(needle, hay[1..], i - 1);
      inTail
  }

  /** `sep.join(parts)` for a single-character separator. */
  function Join(parts: seq<string>, sep: char): string
    requires |parts| >= 1
  {
    if |parts| == 1 then parts[0] else parts[0] + [sep] + Join(parts[1..], sep)
  }

  /** `s.split(sep)` for a single-character separator: never empty, and it undoes `Join`. */
  function Split(s: string, sep: char): (parts: seq<string>)
    ensures |parts| >= 1
    ensures forall k :: 0 <= k < |parts| ==> sep !in parts[k]
    ensures Join(parts, sep) == s
    decreases |s|
  {
    if |s| == 0 then [""]
    else
      var rest := Split(s[1..], sep);
      if s[0] == sep then
        assert ([""] + rest)[1..] == rest;
        [""] + rest
      else
        var parts := [[s[0]] + rest[0]] + rest[1..];
        assert parts[1..] == rest[1..];
        assert s == [s[0]] + s[1..];
        parts
  }

  lemma {:induction false} SplitNoSep(s: string, sep: char)
    requires sep !in s
    ensures Split(s, sep) == [s]
    decreases |s|
  {
    if |s| > 0 {
      SplitNoSep(s[1..], sep);
      assert s == [s[0]] + s[1..];
    }
  }

  /** Splitting at the first separator yields the text before it, then the split of the rest. */
  lemma {:induction false} SplitAtFirst(a: string, sep: char, b: string)
    requires sep !in a
    ensures Split(a + [sep] + b, sep) == [a] + Split(b, sep)
    decreases |a|
  {
    var s := a + [sep] + b;
    if |a| == 0 {
      assert s[1..] == b;
    } else {
      assert s[1..] == a[1..] + [sep] + b;
      SplitAtFirst(a[1..], sep, b);
      assert [s[0]] + a[1..] == a;
    }
  }

  /** `Split` inverts `Join` when no part contains the separator. */
  lemma {:induction false} SplitJoin(parts: seq<string>, sep: char)
    requires |parts| >= 1
    requires forall k :: 0 <= k < |parts| ==> sep !in parts[k]
    ensures Split(Join(parts, sep), sep) == parts
    decreases |parts|
  {
    if |parts| == 1 {
      SplitNoSep(parts[0], sep);
    } else {
      SplitJoin(parts[1..], sep);
      SplitAtFirst(parts[0], sep, Join(parts[1..], sep));
      assert [parts[0]] + parts[1..] == parts;
    }
  }

  /** Joining one more part appends the separator and that part. */
  lemma {:induction false} JoinSnoc(parts: seq<string>, x: string, sep: char)
    requires |parts| >= 1
    ensures Join(parts + [x], sep) == Join(parts, sep) + [sep] + x
    decreases |parts|
  {
    if |parts| == 1 {
      assert (parts + [x])[1..] == [x];
    } else {
      JoinSnoc(parts[1..], x, sep);
      assert (parts + [x])[1..] == parts[1..] + [x];
    }
  }

  /** The index of the first non-whitespace character at or after `i`, or `|s|`. */
  function SkipSpace(s: string, i: nat): (n: nat)
    requires i <= |s|
    ensures i <= n <= |s|
    ensures forall k :: i <= k < n ==> IsSpace(s[k])
    ensures n < |s| ==> !IsSpace(s[n])
    decreases |s| - i
  {
    if i < |s| && IsSpace(s[i]) then SkipSpace(s, i + 1) else i
  }

  /** The index just past the last non-whitespace character in `s[lo..j]`, or `lo`. */
  function SkipSpaceBack(s: string, lo: nat, j: nat): (n: nat)
    requires lo <= j <= |s|
    ensures lo <= n <= j
    ensures forall k :: n <= k < j ==> IsSpace(s[k])
    ensures n > lo ==> !IsSpace(s[n - 1])
    decreases j
  {
    if j > lo && IsSpace(s[j - 1]) then SkipSpaceBack(s, lo, j - 1) else j
  }

  /** `s.strip()`: the infix of `s` left after removing leading and trailing whitespace. */
  function Strip(s: string): (r: string)
    ensures exists i :: OccursAt(r, s, i) && AllSpace(s[..i]) && AllSpace(s[i + |r|..])
    ensures |r| > 0 ==> !IsSpace(r[0]) && !IsSpace(r[|r| - 1])
  {
    var a := SkipSpace(s, 0);
    var b := SkipSpaceBack(s, a, |s|);
    StripParts(s, a, b);
    s[a..b]
  }

  /** The block between the two scans, with only whitespace on either side of it. */
  lemma StripParts(s: string, a: nat, b: nat)
    requires a <= b <= |s|
    requires forall k :: 0 <= k < a ==> IsSpace(s[k])
    requires forall k :: b <= k < |s| ==> IsSpace(s[k])
    ensures OccursAt(s[a..b], s, a) && AllSpace(s[..a]) && AllSpace(s[b..])
  {
    assert forall k :: 0 <= k < a ==> s[..a][k] == s[k];
    assert forall k :: 0 <= k < |s| - b ==> s[b..][k] == s[b + k];
  }

  /** Text that neither starts nor ends with whitespace is left alone by stripping. */
  lemma StripUnchanged(s: string)
    requires |s| > 0 ==> !IsSpace(s[0]) && !IsSpace(s[|s| - 1])
    ensures Strip(s) == s
  {
    assert SkipSpace(s, 0) == 0;
    assert SkipSpaceBack(s, 0, |s|) == |s|;
    assert s[0..|s|] == s;
  }

  /** Stripping removes everything exactly when the text is whitespace only. */
  lemma StripEmptyIffBlank(s: string)
    ensures Strip(s) == "" <==> AllSpace(s)
  {
    var a := SkipSpace(s, 0);
    if a < |s| {
      assert SkipSpaceBack(s, a, |s|) > a;
    } else {
      assert forall k :: 0 <= k < |s| ==> IsSpace(s[k]);
    }
  }

  /** The index of the first whitespace character at or after `i`, or `|s|`. */
  function SkipWord(s: string, i: nat): (n: nat)
    requires i <= |s|
    ensures i <= n <= |s|
    ensures forall k :: i <= k < n ==> !IsSpace(s[k])
    ensures n < |s| ==> IsSpace(s[n])
    decreases |s| - i
  {
    if i < |s| && !IsSpace(s[i]) then SkipWord(s, i + 1) else i
  }

  /** `s.split()` with no argument: the maximal runs of non-whitespace characters. */
  function Words(s: string): seq<string>
    decreases |s|
  {
    var a := SkipSpace(s, 0);
    if a == |s| then []
    else
      var b := SkipWord(s, a);
      assert b > a;
      [s[a..b]] + Words(s[b..])
  }

  /** Every word `split()` returns is non-empty and free of whitespace. */
  lemma {:induction false} WordsAreWords(s: string)
    ensures forall k :: 0 <= k < |Words(s)| ==> |Words(s)[k]| > 0 && NoSpace(Words(s)[k])
    decreases |s|
  {
    var a := SkipSpace(s, 0);
    if a < |s| {
      var b := SkipWord(s, a);
      WordsAreWords(s[b..]);
      var w := s[a..b];
      assert forall k :: 0 <= k < |w| ==> w[k] == s[a + k];
      var rest := Words(s[b..]);
      assert Words(s) == [w] + rest;
      assert forall k :: 1 <= k < |rest| + 1 ==> Words(s)[k] == rest[k - 1];
    }
  }

  /** Skipping whitespace in `[c] + q` past `c` is skipping it in `q`. */
  lemma {:induction false} SkipSpaceCons(c: char, q: string, i: nat)
    requires i <= |q|
    ensures SkipSpace([c] + q, i + 1) == SkipSpace(q, i) + 1
    decreases |q| - i
  {
    if i < |q| {
      assert ([c] + q)[i + 1] == q[i];
      if IsSpace(q[i]) {
        SkipSpaceCons(c, q, i + 1);
      }
    }
  }

  /** Scanning a word in `[c] + q` past `c` is scanning it in `q`. */
  lemma {:induction false} SkipWordCons(c: char, q: string, i: nat)
    requires i <= |q|
    ensures SkipWord([c] + q, i + 1) == SkipWord(q, i) + 1
    decreases |q| - i
  {
    if i < |q| {
      assert ([c] + q)[i + 1] == q[i];
      if !IsSpace(q[i]) {
        SkipWordCons(c, q, i + 1);
      }
    }
  }

  /** Words separated by single spaces; the empty list gives the empty string. */
  function Unwords(ws: seq<string>): string {
    if |ws| == 0 then "" else Join(ws, ' ')
  }

  /** A whitespace-free word at the front of `s`, followed by nothing or by whitespace, is the
      first word, and the rest are the words after it. */
  lemma LeadingWord(w: string, rest: string)
    requires |w| > 0 && NoSpace(w)
    requires |rest| > 0 ==> IsSpace(rest[0])
    ensures Words(w + rest) == [w] + Words(rest)
  {
    var s := w + rest;
    assert s[0] == w[0];
    assert SkipSpace(s, 0) == 0;
    assert forall k :: 0 <= k < |w| ==> s[k] == w[k];
    assert |w| < |s| ==> s[|w|] == rest[0];
    assert SkipWord(s, 0) == |w|;
    assert s[0..|w|] == w;
    assert s[|w|..] == rest;
  }

  /** Leading whitespace does not change the words. */
  lemma WordsOfSpaced(rest: string)
    ensures Words([' '] + rest) == Words(rest)
  {
    SpacedStart(rest);
    if SkipSpace(rest, 0) < |rest| {
      WordsOfSpacedWord(rest);
    } else {
      WordsBlank([' '] + rest);
      WordsBlank(rest);
    }
  }

  lemma WordsOfSpacedWord(rest: string)
    requires SkipSpace(rest, 0) < |rest|
    requires SkipSpace([' '] + rest, 0) == SkipSpace(rest, 0) + 1
    ensures Words([' '] + rest) == Words(rest)
  {
    var s := [' '] + rest;
    var a := SkipSpace(rest, 0);
    var b := SkipWord(rest, a);
    SkipWordCons(' ', rest, a);
    SliceCons(' ', rest, a, b);
    WordsStep(s, a + 1, b + 1);
    WordsStep(rest, a, b);
    var w, t := rest[a..b], rest[b..];
    assert s[a + 1..b + 1] == w && s[b + 1..] == t;
    calc {
      Words(s);
      [s[a + 1..b + 1]] + Words(s[b + 1..]);
      [w] + Words(t);
      Words(rest);
    }
  }

  /** Nothing but whitespace has no words. */
  lemma WordsBlank(s: string)
    requires SkipSpace(s, 0) == |s|
    ensures Words(s) == []
  {
  }

  /** One step of `split()`: the first word, then the words of what follows it. */
  lemma WordsStep(s: string, a: nat, b: nat)
    requires a == SkipSpace(s, 0) < |s| && b == SkipWord(s, a)
    ensures a < b <= |s| && Words(s) == [s[a..b]] + Words(s[b..])
  {
  }

  lemma SliceCons(c: char, q: string, a: nat, b: nat)
    requires a <= b <= |q|
    ensures ([c] + q)[a + 1..b + 1] == q[a..b]
    ensures ([c] + q)[b + 1..] == q[b..]
  {
    assert ([c] + q)[1..] == q;
  }

  /** The first word of `" " + rest` starts one past where the first word of `rest` does. */
  lemma SpacedStart(rest: string)
    ensures SkipSpace([' '] + rest, 0) == SkipSpace(rest, 0) + 1
  {
    var s := [' '] + rest;
    assert IsSpace(s[0]);
    assert SkipSpace(s, 0) == SkipSpace(s, 1);
    SkipSpaceCons(' ', rest, 0);
  }

  /** A leading word followed by a space is split off as the first word. */
  lemma WordsOfWordThen(w: string, rest: string)
    requires |w| > 0 && NoSpace(w)
    ensures Words(w + [' '] + rest) == [w] + Words(rest)
  {
    assert w + [' '] + rest == w + ([' '] + rest);
    LeadingWord(w, [' '] + rest);
    WordsOfSpaced(rest);
  }

  /** A single word is split into itself. */
  lemma WordsOfWord(w: string)
    requires |w| > 0 && NoSpace(w)
    ensures Words(w) == [w]
  {
    LeadingWord(w, "");
    assert w + "" == w;
  }

  /** `split()` recovers every list of non-empty, whitespace-free words from its spaced rendering. */
  lemma {:induction false} WordsUnwords(ws: seq<string>)
    requires forall k :: 0 <= k < |ws| ==> |ws[k]| > 0 && NoSpace(ws[k])
    ensures Words(Unwords(ws)) == ws
    decreases |ws|
  {
    if |ws| == 1 {
      WordsOfWord(ws[0]);
      assert Unwords(ws) == ws[0];
    } else if |ws| > 1 {
      WordsUnwords(ws[1..]);
      WordsUnwordsCons(ws);
    }
  }

  lemma WordsUnwordsCons(ws: seq<string>)
    requires |ws| > 1 && |ws[0]| > 0 && NoSpace(ws[0])
    requires Words(Unwords(ws[1..])) == ws[1..]
    ensures Words(Unwords(ws)) == ws
  {
    var tail := ws[1..];
    assert Unwords(ws) == ws[0] + [' '] + Unwords(tail);
    WordsOfWordThen(ws[0], Unwords(tail));
    assert [ws[0]] + tail == ws;
  }

  /** `split()` finds no word exactly when the text is whitespace only. */
  lemma WordsEmptyIffBlank(s: string)
    ensures Words(s) == [] <==> AllSpace(s)
  {
    var a := SkipSpace(s, 0);
    assert a == |s| ==> s[..|s|] == s;
    if a < |s| {
      assert SkipWord(s, a) > a;
    }
  }

  /** `fnmatch.fnmatch(s, p)` for patterns built from literals, `*` (any run) and `?` (one character). */
  predicate Glob(s: string, p: string)
    decreases |s| + |p|
  {
    if |p| == 0 then |s| == 0
    else if p[0] == '*' then Glob(s, p[1..]) || (|s| > 0 && Glob(s[1..], p))
    else |s| > 0 && (p[0] == '?' || p[0] == s[0]) && Glob(s[1..], p[1..])
  }

  /** The pattern has a wildcard character, the test the matcher makes before choosing glob matching. */
  predicate HasWildcard(p: string) {
    '*' in p || '?' in p
  }

  /** A pattern without wildcards matches exactly itself. */
  lemma {:induction false} GlobLiteral(s: string, p: string)
    requires !HasWildcard(p)
    ensures Glob(s, p) <==> s == p
    decreases |p|
  {
    if |p| > 0 && |s| > 0 {
      assert !HasWildcard(p[1..]) by {
        assert forall k :: 0 <= k < |p[1..]| ==> p[1..][k] == p[k + 1];
      }
      GlobLiteral(s[1..], p[1..]);
      if s[1..] == p[1..] && s[0] == p[0] {
        assert s == [s[0]] + s[1..] && p == [p[0]] + p[1..];
      }
    }
  }

  /** A lone `*` matches every string. */
  lemma {:induction false} GlobStarMatchesAll(s: string)
    ensures Glob(s, "*")
    decreases |s|
  {
    assert "*"[1..] == "";
    if |s| > 0 {
      GlobStarMatchesAll(s[1..]);
    }
  }

  /** Without `*`, each pattern character consumes exactly one character of the subject. */
  lemma {:induction false} GlobNoStarLength(s: string, p: string)
    requires '*' !in p
    requires Glob(s, p)
    ensures |s| == |p|
    decreases |p|
  {
    if |p| > 0 {
      assert '*' !in p[1..] by {
        assert forall k :: 0 <= k < |p[1..]| ==> p[1..][k] == p[k + 1];
      }
      GlobNoStarLength(s[1..], p[1..]);
    }
  }

  /** `lit*` with a wildcard-free `lit` matches exactly the strings that start with `lit`. */
  lemma {:induction false} GlobPrefixStar(s: string, lit: string)
    requires !HasWildcard(lit)
    ensures Glob(s, lit + "*") <==> StartsWith(s, lit)
    decreases |lit|
  {
    if |lit| == 0 {
      assert lit + "*" == "*";
      GlobStarMatchesAll(s);
    } else {
      var p := lit + "*";
      assert p[0] == lit[0];
      assert p[1..] == lit[1..] + "*";
      assert !HasWildcard(lit[1..]) by {
        assert forall k :: 0 <= k < |lit[1..]| ==> lit[1..][k] == lit[k + 1];
      }
      if |s| > 0 {
        GlobPrefixStar(s[1..], lit[1..]);
        if StartsWith(s, lit) {
          assert s[1..][..|lit| - 1] == s[..|lit|][1..];
        }
        if StartsWith(s[1..], lit[1..]) && s[0] == lit[0] {
          assert s[..|lit|] == [s[0]] + s[1..][..|lit| - 1];
          assert lit == [lit[0]] + lit[1..];
        }
      }
    }
  }
}
